=== FILE: README.md ===
# barn build orchestrator — a Dafny model

barn builds a React Native project for several targets: JavaScript bundles,
an iOS archive and IPA, Android APKs/AABs and Expo updates. Most of the
work is done by external tools (`yarn`, `pod`, `xcodebuild`, `./gradlew`,
`security`). This project models the deterministic logic around those
calls and proves properties of it:

- **Filesystem** (`paths.dfy`, `filetree.dfy`, `fsutil.dfy`, `copying.dfy`).
  - A path is a sequence of names, rendered as the "/"-joined string.
  - The filesystem is a tree of files and directories, held by the class
    `FileTree.FileSystem`.
  - Its methods `Remove`, `Mkdirp`, `CopyFile` and `WriteFile` change the
    tree the way `fs-extra` does. `Readdir`, `IsDirectory` and `ReadFile`
    read it.
  - `cleanDirectory` and `findFilesRecursively` are imperative methods
    proved against tree functions (`Cleaned`, `Found`).
  - `forEach(copyFileSync)` becomes `CopyEach`, proved against `CopyRun`.
- **Durations and the stopwatch** (`time.dfy`, `decimal.dfy`).
  - `humanReadableDuration` is modelled as written, and also corrected
    (see Findings).
  - `Stopwatch` is a class whose split list grows by one on each split.
  - The clock is a parameter.
- **Target executors**: `build_android.dfy`, `build_ios.dfy`,
  `expo_update.dfy` and `rn_bundle.dfy`.
  - Their argument vectors are functions of the config records. The vectors
    with variable parts (Gradle, archive, code-signing flags, Expo export)
    each have a parser proved to invert them. The fixed-shape ones (inject,
    export, the legacy iOS commands) state their arguments position by
    position.
  - The export plist template is proved injective.
  - Each executor runs its commands through an oracle
    `succeeds: Command -> bool` and returns the log of commands run.
  - Only the executor's own filesystem work is real: finding profiles,
    writing the plist, copying artifacts.
  - `command_line.dfy` models how `execa.commandSync` splits a command line
    into words.
- **Orchestrators**.
  - `build.dfy` (src/build.ts) has the scratch-directory plan, real cleans
    of the four product directories, and a trace of phases. The targets and
    the final copy are opaque steps that succeed or fail.
  - `legacy.dfy` (src/index.ts) has the post-order `iterateDir`, the
    whole-path `.apk` selection with its flat copy, the legacy bundle paths,
    the ordered sequence of effects and the tree left behind.
- **Promises.** A rejected promise is a method returning `ok == false`.
  `Promise.all` and the `.then` chains are run one branch after another, and
  every branch that would start does run.

## Model

| member | source | states |
|---|---|---|
| FileTree.FileSystem.Readdir | src/util/fs.ts:17 | Defined exactly when the path is a directory. Lists that directory's names, all of them, in listing order. |
| FileTree.FileSystem.IsDirectory | src/util/fs.ts:20 | True exactly when the path names a directory. |
| FileTree.FileSystem.ReadFile | src/tasks/build-ios.ts:64 | Gives a file's contents exactly when the path is a regular file. |
| FileTree.FileSystem.Remove | src/util/fs.ts:5 | The new tree is the old tree with the path removed (no-op when absent). |
| FileTree.FileSystem.Mkdirp | src/util/fs.ts:6 | Succeeds exactly when no regular file lies on the path. The new tree is the old one with the missing directories made; on failure it is unchanged. |
| FileTree.FileSystem.CopyFile | src/index.ts:132 | Succeeds exactly when the source is a regular file, the destination's parent is a directory and the destination is not a directory. The new tree is the old one with the data written; on failure it is unchanged. |
| FileTree.FileSystem.WriteFile | src/tasks/build-ios.ts:88 | Succeeds exactly when the parent is a directory and the path is not one. Writes the data, or changes nothing. |
| FileTree.RemovedGone | src/util/fs.ts:5 | After `remove(p)`, nothing is at `p`. |
| FileTree.RemovedFrame | src/util/fs.ts:5 | `remove(p)` leaves every path disjoint from `p` as it was. |
| FileTree.MadeSucceeds | src/util/fs.ts:6 | `mkdirp(p)` succeeds if and only if no prefix of `p` is a regular file. |
| FileTree.MadeTarget | src/util/fs.ts:6 | After `mkdirp(p)`, an existing node at `p` is kept; otherwise `p` is a new empty directory. |
| FileTree.MadeFrame | src/util/fs.ts:6 | `mkdirp(p)` leaves every path disjoint from `p` alone. |
| FileTree.MadeExisting | src/util/fs.ts:6 | `mkdirp` on an existing directory changes nothing. |
| FileTree.WrittenSucceeds | src/tasks/build-ios.ts:88 | Writing a file succeeds if and only if its parent is a directory and it is not a directory. |
| FileTree.WrittenTarget | src/tasks/build-ios.ts:88 | After a write the path holds exactly the data written. |
| FileTree.WrittenFrame | src/tasks/build-ios.ts:88 | A write leaves every disjoint path unchanged. |
| FsUtil.CleanDirectory | src/util/fs.ts:4-7 | Succeeds exactly when no regular file lies strictly above the directory. It then leaves the directory existing and empty. When it fails, the directory has still been removed. The duplicate `cleanDirectory` of src/util.ts (lines 4-7) is the same remove-then-mkdirp sequence. |
| FsUtil.CleanedSucceeds | src/util/fs.ts:4-7 | The clean succeeds if and only if no regular file is strictly above the directory. |
| FsUtil.CleanedTarget | src/util/fs.ts:4-7 | After a successful clean the directory exists and has no children. |
| FsUtil.CleanedFrame | src/util/fs.ts:4-7 | A clean changes nothing outside the cleaned directory. |
| FsUtil.CleanedTwice | src/util/fs.ts:4-7 | Cleaning twice gives the same tree as cleaning once. The same holds for the duplicate in src/util.ts. |
| FsUtil.FindFilesRecursively | src/util/fs.ts:14-28 | Defined exactly when `dir` is a directory. The result equals `Found` of its entries: depth-first in readdir order, with a subdirectory's results spliced in at its position. The duplicate search of src/util.ts (lines 14-27) has the same loop. |
| FsUtil.FoundSound | src/util/fs.ts:19-24 | Every result lies strictly below `dir` and is a regular file, never a directory whatever its name. The entry's own name ends with the suffix. |
| FsUtil.FoundComplete | src/util/fs.ts:19-24 | Every regular file below `dir` whose own name ends with the suffix is reported, as `dir` joined with its relative path. |
| FsUtil.FoundSplit | src/util/fs.ts:18-25 | The results for a listing are the results for its parts, in order. |
| FsUtil.FoundAtSound | src/util.ts:20-23 | Only regular files whose own name matches are returned, each inside `dir`. |
| Paths.EndsWithRendered | src/util/fs.ts:23 | For a separator-free suffix, testing the whole path string is the same as testing the last component. |
| Paths.RenderAppend | src/util/fs.ts:19 | Joining a name onto a directory renders as the directory, "/", then the name. |
| Common.SubDir | src/tasks/build-ios.ts:23 | `` `${dir}/ios` `` and similar: the rendered string is `dir` + "/" + the name, and the path is `dir` with one more component. |
| Time.Seconds | src/util/time.ts:4 | The seconds figure is the least `sec` with `sec * 1000 >= ms`, the ceiling of `ms / 1000`. |
| Time.CeilDiv | src/util/time.ts:6 | Integer ceiling division: the least `q` with `q * b >= a`. |
| Time.AsWrittenForms | src/util/time.ts:3-12 | As written: `"<sec>s"` when `sec <= 60`, otherwise `ceil(sec / 60)` minutes and `sec % 60` seconds, the seconds always below 60. |
| Time.AsWrittenDenotes | src/util/time.ts:6-9 | The as-written text denotes the true duration if and only if `sec <= 60` or `sec` is a multiple of 60. |
| Time.AsWrittenSixtyOneSeconds | src/util/time.ts:6 | 61000 ms formats as "2m 1s", which denotes 121 s. |
| Time.ShownDuration | src/util/time.ts:3-12 | Corrected: the shown minutes and seconds always denote the ceiling seconds. The seconds form is used exactly when `sec <= 60`, and the minute form keeps seconds below 60. |
| Time.HumanReadableDuration | src/util/time.ts:3-12 | Corrected text: it parses back to a form that denotes exactly the duration's seconds. |
| Time.HumanReadableDurationAsWritten | src/util/time.ts:3-12 | As written: the text parses back to exactly the as-written form, `"<ceil(sec/60)>m <sec%60>s"` above 60 seconds and `"<sec>s"` otherwise. |
| Time.ParseFormat | src/util/time.ts:9-11 | Parsing the formatted text gives back the shown form (`"<m>m <s>s"` or `"<s>s"`). |
| Decimal.ValueOfNatToString | src/util/time.ts:9 | Rendering a number in a template literal and reading its digits back gives the number. |
| Decimal.NatToStringInjective | src/util/time.ts:9 | Different numbers render differently. |
| Time.Stopwatch.constructor | src/util/time.ts:15-16 | The start time is the clock reading at creation, and there are no splits yet. |
| Time.Stopwatch.SplitTime | src/util/time.ts:18-23 | Appends exactly `now` to the split list. Returns `now` minus the previous split, or minus the start time when there is none. The returned durations keep the invariant `durations == Gaps(...)`. |
| Time.Stopwatch.PreviousSplit | src/util/time.ts:30-32 | The start time when there are no splits; the last split when it is truthy; the start time again when the last split is 0. |
| Time.Stopwatch.TotalDuration | src/util/time.ts:25-28 | The start time plus the total is the clock reading: the time since creation, whatever the splits. |
| Time.Previous | src/util/time.ts:30-32 | `_.last(splits) \|\| startTime`: the last split when there is one and it is truthy, otherwise the start time. |
| Time.GapsTelescope | src/util/time.ts:18-32 | When no split is 0, the split durations add up to the last split minus the start time. |
| Time.TotalIsSumOfSplits | src/util/time.ts:25-28 | `totalDuration(now)` (`now - startTime`, never touched by splits) equals the sum of the split durations plus the time since the last split. |
| BuildAndroid.GradleArgs | src/tasks/build-android.ts:20-26 | Five fixed arguments followed by exactly the extra arguments. |
| BuildAndroid.ParseGradleArgsRoundTrip | src/tasks/build-android.ts:20-26 | Reading the vector back gives the target, the rendered cache directory and the extra arguments. |
| BuildAndroid.ExtraArgs | src/tasks/build-android.ts:17 | Missing extra arguments become the empty list. |
| BuildAndroid.GradleCommand | src/tasks/build-android.ts:18-28 | `./gradlew` in `<project>/android`, with exactly five arguments when no extras are given. |
| BuildAndroid.ArtifactsOrDefault | src/tasks/build-android.ts:32 | Absent artifacts default to `[apk]`; present ones are used as given. |
| BuildAndroid.SearchRoot | src/tasks/build-android.ts:36 | The search starts at the child `android` of the project directory. |
| BuildAndroid.KindDir | src/tasks/build-android.ts:40 | The kind's directory is a child of the output directory named `apk` or `aab`, `apk` exactly for the APK kind. |
| BuildAndroid.ArtifactPatternFor | src/tasks/build-android.ts:52-59 | The suffix is "." followed by the kind's name: `.apk` or `.aab`. |
| BuildAndroid.PatternsExclusive | src/tasks/build-android.ts:52-59 | No name matches both patterns. |
| BuildAndroid.Destination | src/tasks/build-android.ts:40 | The destination is `<out>/<kind>/<basename of src>`. |
| BuildAndroid.Routes | src/tasks/build-android.ts:39-43 | One copy per found file, in search order, each to its destination. |
| BuildAndroid.FoundAway | src/tasks/build-android.ts:35-38 | Every found file is a regular file under `<project>/android`, disjoint from the kind directory. |
| BuildAndroid.RoutesSeparated | src/tasks/build-android.ts:39-43 | No source lies on a destination, and any two destinations are equal or disjoint. |
| BuildAndroid.DeliveredByRun | src/tasks/build-android.ts:39-43 | After a successful run, every found file's contents sit at its destination, the last of equal basenames winning. |
| BuildAndroid.CopyArtifactsAsWritten | src/tasks/build-android.ts:34-45 | As written: without a search directory nothing changes; otherwise the found files are copied in search order to `<out>/<kind>/<basename>`, the new tree and the result being exactly `CopyRun` of those routes. Into an empty output directory the copy succeeds if and only if nothing was found. |
| BuildAndroid.AsWrittenCopyFails | src/tasks/build-android.ts:39-42 | As written: the first copy fails because `<out>/<kind>` was never created, and the tree is unchanged. |
| BuildAndroid.CopyArtifacts | src/tasks/build-android.ts:34-45 | Corrected: creates `<out>/<kind>` first and changes nothing outside it. A clean kind directory always succeeds and stays flat; success delivers every found file. |
| BuildAndroid.CopyKinds | src/tasks/build-android.ts:32-45 | Corrected (uses `CopyArtifacts`): the per-kind copies of the requested kinds: nothing outside the output directory changes; success delivers every kind; into an empty output directory it always succeeds. |
| BuildAndroid.BuildAndroid | src/tasks/build-android.ts:13-50 | Corrected (uses `CopyKinds`): runs Gradle first; when Gradle fails, nothing else happens. Changes nothing outside the output directory. Success delivers every requested kind; into an empty output directory it succeeds whenever Gradle does. |
| Copying.CopyEach | src/index.ts:129-134 | `forEach(copyFileSync)`: the copies run in order and the first failure stops the rest. The result is `CopyRun`. |
| Copying.CopyRunLastWins | src/index.ts:132 | Each destination holds the source of the last copy made to it. |
| Copying.CopyRunFrame | src/tasks/build-android.ts:42 | Copies change nothing away from their destinations. |
| Copying.CopyRunIntoFlatDir | src/tasks/build-android.ts:39-43 | Copying regular files into an existing flat directory always succeeds, and the directory stays flat. |
| Copying.CopyRunMissingParent | src/tasks/build-android.ts:40-42 | A first destination without a parent directory fails at once, with nothing changed. |
| ExpoUpdate.AssetUrlOverride | src/tasks/build-expo-update.ts:13 | Two elements exactly when `assetUrl` is present and non-empty, otherwise none. |
| ExpoUpdate.AssetmapOverride | src/tasks/build-expo-update.ts:14 | `-d` exactly when `dumpAssetmap` is true. |
| ExpoUpdate.SourcemapOverride | src/tasks/build-expo-update.ts:15 | `-s` exactly when `artifacts` includes "sourcemaps". |
| ExpoUpdate.ExportArgs | src/tasks/build-expo-update.ts:19-29 | Length is 9 plus the optional parts; `--force` is always last. |
| ExpoUpdate.ExportCommand | src/tasks/build-expo-update.ts:17-31 | `yarn` in the project directory, with exactly the export arguments. |
| ExpoUpdate.ParseExportArgsRoundTrip | src/tasks/build-expo-update.ts:13-29 | Parsing the vector in its fixed order recovers `publicUrl`, the asset URL when truthy, both switches, the target and the output directory. |
| ExpoUpdate.ExportArgsOptionalFlags | src/tasks/build-expo-update.ts:13-26 | `-a` follows `-p` exactly when the asset URL is truthy; `--target` follows directly exactly when no option is present. |
| ExpoUpdate.TakeAssetUrlOverride | src/tasks/build-expo-update.ts:13 | The asset URL part is read back as the URL when truthy, and as absent otherwise. |
| ExpoUpdate.TakeSwitchOverride | src/tasks/build-expo-update.ts:14-15 | A switch part is read back as present exactly when it was emitted. |
| ExpoUpdate.BuildExpoUpdate | src/tasks/build-expo-update.ts:9-36 | Runs exactly the export command, once; it resolves `true` exactly when the export succeeds and rejects otherwise. |
| RnBundle.BuildReactNativeBundle | src/tasks/build-rn-bundle.ts:3-21 | Runs exactly the bundle command, once; it resolves exactly when the bundler succeeds. |
| RnBundle.BundleFileName | src/tasks/build-rn-bundle.ts:14 | `main.jsbundle` exactly for ios; otherwise `index.android.bundle`, a name without separators. |
| RnBundle.BundleOutput | src/tasks/build-rn-bundle.ts:14 | The output directory, "/", then the file name. |
| RnBundle.BundleArgs | src/tasks/build-rn-bundle.ts:8-16 | Twelve arguments starting `react-native bundle`. |
| RnBundle.BundleArgsMeaning | src/tasks/build-rn-bundle.ts:8-16 | Entry file `index.js`, the platform, `--dev false`, the bundle output and `--assets-dest` = the output directory. |
| RnBundle.BundleInsideAssets | src/tasks/build-rn-bundle.ts:14-15 | The bundle output is the assets directory + "/" + the file name. |
| RnBundle.BundleOutputsDistinct | src/tasks/build-rn-bundle.ts:14 | The two platforms write different bundle files. |
| RnBundle.BundleCommand | src/tasks/build-rn-bundle.ts:6-18 | `yarn` in the project directory with the bundle arguments. `buildReactNativeBundle` of src/build.ts (lines 69-87) issues the same command. |
| BuildIos.PodCommand | src/tasks/build-ios.ts:19-24 | `pod install` in `<project>/ios`. |
| BuildIos.InjectCommand | src/tasks/build-ios.ts:26-31 | `bundle exec xcode-archive-cache inject --configuration=Release --storage=<cache>` in `<project>/ios`. |
| BuildIos.CodesigningParams | src/tasks/build-ios.ts:34-39 | Empty exactly without codesigning. Otherwise exactly four flags, starting `CODE_SIGN_STYLE=Manual`, the third an empty `PROVISIONING_PROFILE=`. |
| BuildIos.ParseCodesigningRoundTrip | src/tasks/build-ios.ts:34-39 | The flags read back to the identity and the profile name. |
| BuildIos.ArchivePath | src/tasks/build-ios.ts:41 | The archive is a child of the output directory named `<scheme>-<configuration>.xcarchive`. |
| BuildIos.ArchiveArgs | src/tasks/build-ios.ts:45-52 | Nine fixed-position arguments followed by exactly the codesigning flags. |
| BuildIos.ParseArchiveArgsRoundTrip | src/tasks/build-ios.ts:43-54 | Reading the vector back recovers the workspace, scheme, configuration, archive path and codesigning. |
| BuildIos.ArchiveCommand | src/tasks/build-ios.ts:43-54 | `xcodebuild archive ...` in `<project>/ios`. |
| BuildIos.ProfileSearchRoot | src/tasks/build-ios.ts:105-110 | The profiles are searched for in the child `Products` of the archive, rendered as the archive path, "/", `Products`. |
| BuildIos.ProfilesInsideProducts | src/tasks/build-ios.ts:105-110 | Every profile found is a regular `.mobileprovision` file under `<archive>/Products`, and its Info.plist lies inside Products too. |
| BuildIos.InfoPlistPath | src/tasks/build-ios.ts:62-63 | `Info.plist` in the profile's own directory. |
| BuildIos.ProfileEntry | src/tasks/build-ios.ts:69 | The `<key>…</key><string>…</string>` entry, which is one line exactly when the bundle id and the UUID are. |
| BuildIos.EntryFor | src/tasks/build-ios.ts:61-70 | Corrected (one-argument `SecurityCommand`): a profile yields its entry exactly when its Info.plist is readable with a bundle id, `security` succeeds and its output parses (`uuidOf`). The entry pairs that bundle id with the UUID text read. |
| BuildIos.Mapping | src/tasks/build-ios.ts:61-70 | Corrected (one-argument `SecurityCommand`): defined exactly when every profile yields its entry. Then it has exactly one entry per profile, in search order. |
| BuildIos.SecurityRuns | src/tasks/build-ios.ts:64-66 | Corrected (one-argument `SecurityCommand`): `security` runs for every profile whose Info.plist gave a bundle id, and every run is the command of such a profile; there are never more runs than profiles. |
| BuildIos.ReadProfiles | src/tasks/build-ios.ts:61-70 | Corrected (one-argument `SecurityCommand`): the loop over the profiles computes exactly `Mapping` and runs exactly `SecurityRuns`. |
| BuildIos.ExportPlistPath | src/tasks/build-ios.ts:72 | The rendered path is the archive path followed by `.export.plist`, a sibling of the archive. |
| BuildIos.ExportPlist | src/tasks/build-ios.ts:73-87 | The text always starts with the fixed head (method `app-store`, signingStyle `manual`) and ends with the fixed tail. |
| BuildIos.ExportPlistInjective | src/tasks/build-ios.ts:73-87 | Different single-line entry lists give different plist texts: the entries joined with `"\n    "` can be read back. |
| BuildIos.JoinWithInjective | src/tasks/build-ios.ts:84 | Joining single-line entries with `"\n    "` is injective. |
| BuildIos.ExportCommand | src/tasks/build-ios.ts:90-98 | `xcodebuild` with no working directory and exactly seven arguments: `-exportArchive`, then `-archivePath` with the rendered archive, `-exportPath` with the rendered output directory, and `-exportOptionsPlist` with the archive path followed by `.export.plist`. |
| BuildIos.ExportArchive | src/tasks/build-ios.ts:58-98 | Corrected (one-argument `SecurityCommand`): succeeds exactly when every profile yields its entry, the plist can be written and the export succeeds. On success the runs and the plist file are the planned ones. Only the plist path changes. |
| BuildIos.BuildIos | src/tasks/build-ios.ts:16-103 | Corrected (one-argument `SecurityCommand`): pod, inject and archive run in order, each only after the previous succeeded. Success holds exactly when all of these do: the archive steps, every profile's mapping, writing the plist and the export. On success the log and the plist file hold the planned contents. Only the plist path changes. |
| BuildIos.SecurityCommand | src/tasks/build-ios.ts:66 | Corrected: `security cms -D -i <profile path>` with the path as one argument. |
| BuildIos.SecurityCommandAsWritten | src/tasks/build-ios.ts:66 | As written: the command line is split at spaces, so the path becomes as many arguments as it has words. |
| BuildIos.AsWrittenSecurityCommand | src/tasks/build-ios.ts:66 | The as-written command equals the intended one if and only if the profile path has no space. |
| BuildIos.AsWrittenSchemeWithSpace | src/tasks/build-ios.ts:41-66 | A scheme name containing a space puts a space in every profile path under its archive, so the command is wrong. |
| CommandLine.Words | src/tasks/build-ios.ts:66 | `commandSync` splits at spaces and drops empty words; every word is non-empty and space-free. |
| CommandLine.WordsSingle | src/tasks/build-ios.ts:66 | A string is one word exactly when it is non-empty and has no space. |
| CommandLine.WordsCons | src/tasks/build-ios.ts:66 | A leading word followed by a space splits off. |
| Build.ProductNamesDistinct | src/build.ts:31-34 | The four product names are distinct. |
| Build.ProductDirsDisjoint | src/build.ts:29-35 | The four product directories under `<temp>/artifacts` are pairwise disjoint. |
| Build.CachesDisjoint | src/build.ts:43-49 | The caches `<cache>/xcode` and `<cache>/gradle` lie inside the cache directory and are disjoint. |
| Build.IosTask | src/build.ts:40-45 | iOS gets its own product directory and the xcode cache. |
| Build.AndroidTask | src/build.ts:46-51 | Android gets its own product directory and the gradle cache. |
| Build.BundleTargetsUseOwnDirs | src/build.ts:38-39 | Each bundle target runs in the project, with `--assets-dest` its own product directory and the platform's bundle file inside it. |
| Build.BuildTrace | src/build.ts:26-59 | Every trace starts with preBuild and then the four cleans. |
| Build.CleansBeforeTargets | src/build.ts:30-37 | Every clean comes before every target run. |
| Build.CopyAfterAllTargets | src/build.ts:37-54 | The copy of the products tree onto the output directory happens only when cleaning and all four targets succeeded, and directly after them. |
| Build.PostBuildLast | src/build.ts:54-59 | postBuild happens only when everything before it succeeded, and it is the last step. |
| Build.UsableIsNoFileAbove | src/build.ts:29-34 | A clean of any one product directory can succeed exactly when no file blocks the shared scratch path. |
| Build.CleanKeepsUsable | src/build.ts:31-34 | A successful clean leaves the scratch path usable for the other cleans. |
| Build.FailedCleanKeepsBlocked | src/build.ts:31-34 | A failed clean leaves the scratch path blocked for the others. |
| Build.CleanProduct | src/build.ts:30-35 | One `cleanDirectory` of a product directory extends the cleaned-so-far invariant by that product. |
| Build.CleanProducts | src/build.ts:30-35 | The four cleans succeed exactly when the scratch path is usable, leaving every product directory empty. Nothing outside `<temp>/artifacts` changes. |
| Build.Build | src/build.ts:18-60 | The trace is `BuildTrace`. Success holds exactly when the cleans, all targets and the copy succeed. The product directories start empty. |
| Legacy.IterateDir | src/index.ts:46-56 | Defined exactly when `dir` is a directory. The result equals `Listed`, the post-order listing in readdir order. |
| Legacy.ListedSound | src/index.ts:48-53 | Every listed path lies strictly below `dir` and names an entry, file or directory. |
| Legacy.ListedComplete | src/index.ts:48-53 | Every entry below `dir`, directories included, is listed. |
| Legacy.ListedAtExactly | src/index.ts:46-56 | A path is listed if and only if it names an entry strictly below `dir`. |
| Legacy.ListedPostOrder | src/index.ts:50-53 | A directory's path comes after every path inside it. |
| Legacy.ApkTestIsNameTest | src/index.ts:128-131 | `/\.apk$/` on the whole path is the same test as on the entry's own name. |
| Legacy.SelectApks | src/index.ts:129-131 | Exactly the listed paths that pass the `.apk` test are selected. |
| Legacy.ApkDirectorySelected | src/index.ts:128-131 | A directory named `*.apk` below `android` is selected too. |
| Legacy.FlatRoutes | src/index.ts:132 | Each selected path is copied to `<out>/<basename>`. |
| Legacy.FlatRoutesSeparated | src/index.ts:132 | With the output directory disjoint from `android`, no source lies on a destination, and destinations are equal or disjoint. |
| Legacy.FlatCopyLastWins | src/index.ts:132 | After a successful copy, `<out>/<name>` holds the last selected entry with that basename. |
| Legacy.DirectoryBreaksCopy | src/index.ts:131-132 | A selected directory makes `copyFileSync` throw, so the copy fails. |
| Legacy.UntilFailureRuns | src/index.ts:59-63 | Sequentially awaited commands run as a prefix ending at the first failure. All of them run exactly when all succeed. |
| Legacy.BeforeBuild | src/index.ts:59-63 | `yarn install` then `yarn jetify` in the project, the second only after the first succeeded. Success holds exactly when both succeed. |
| Legacy.BeforeCommands | src/index.ts:60-61 | `yarn install` and `yarn jetify`, both in the project. |
| Legacy.JsBundleDir | src/index.ts:141 | `<out>/jsbundle-<platform>` is a child of the output directory. |
| Legacy.JsBundleDirsDisjoint | src/index.ts:141 | The two platforms' bundle directories are disjoint. |
| Legacy.LegacyBundleArgs | src/index.ts:144-152 | Twelve arguments starting `react-native bundle`. |
| Legacy.LegacyBundleArgsMeaning | src/index.ts:145-151 | On both platforms the bundle output is `<out>/jsbundle-<platform>/main.jsbundle`, and the assets go to that directory. |
| Legacy.LegacyBundleCommand | src/index.ts:142-154 | `yarn` in the project directory. |
| Legacy.BuildJsBundle | src/index.ts:140-157 | Makes the bundle directory first. The bundler runs only when that succeeded; success holds exactly when both succeed. |
| Legacy.NativeIosCommands | src/index.ts:65-110 | Pod, inject with `--storage=<cache>/xcode`, and an archive to `<out>/foo.xcarchive`, all in `<project>/ios`. |
| Legacy.BuildNativeIos | src/index.ts:65-110 | The three commands in order, each only after the previous succeeded. Success holds exactly when all do. |
| Legacy.LegacyGradleCommand | src/index.ts:115-121 | `./gradlew assembleRelease` in `<project>/android`. |
| Legacy.BuildAndroidLegacy | src/index.ts:112-138 | Gradle first; nothing else happens when it fails, and the effects are Gradle then the copy. Then the whole `android` directory is listed and the selected paths are copied flat, with the result exactly `CopyRun`. |
| Legacy.BundleSteps | src/index.ts:140-157 | One platform's bundle: its directory is made, then its bundler runs. |
| Legacy.BundleOps | src/index.ts:24-25 | Four effects, both bundles, whose commands are all `yarn`. |
| Legacy.IosNativeOps | src/index.ts:26 | Non-empty only when the iOS bundle succeeded; every effect runs `pod`, `bundle` or `xcodebuild`. |
| Legacy.AndroidNativeOps | src/index.ts:27 | Non-empty only when the Android bundle succeeded; every command it runs is `./gradlew`. |
| Legacy.NativeOps | src/index.ts:26-27 | The native builds never run `yarn`. |
| Legacy.TargetOps | src/index.ts:24-41 | The first four effects are the two bundles' effects. |
| Legacy.TargetOpsGated | src/index.ts:26-27 | Gradle appears among the effects only when the Android bundle succeeded, and CocoaPods only when the iOS bundle did. |
| Legacy.ChildrenOnly | src/index.ts:141 | Making two different children of an empty directory succeeds and leaves it holding those two directories and nothing else. |
| Legacy.ChildrenFrame | src/index.ts:141 | Making two children of a directory changes nothing outside it. |
| Legacy.BundleDirsMade | src/index.ts:24-25 | In an empty output directory both bundle directories are made, it then holds just them, and nothing outside it changes. |
| Legacy.ApkCopiesKeep | src/index.ts:128-133 | The flat `.apk` copy keeps both bundle directories and adds only names that pass the `.apk` test; nothing outside the output directory changes. |
| Legacy.TargetTreeFresh | src/index.ts:24-41 | After the four targets in an empty output directory, it holds the two bundle directories and copied packages only; nothing outside it changes. |
| Legacy.LegacyTreeFresh | src/index.ts:20-41 | After removing and recreating the output directory and running the targets, the output directory holds the two bundle directories and otherwise only names that pass the `.apk` test, whatever it held before. Nothing outside it changes. |
| Legacy.BuildBundles | src/index.ts:24-25 | Both bundles in order: the effects are `BundleOps`, each result is its bundler's, and the tree is the one with both bundle directories made. |
| Legacy.BuildNatives | src/index.ts:26-27 | Each native build runs only after its own bundle succeeded. The effects are `NativeOps`; only the Android copy changes the tree. It succeeds exactly when both bundles, the three iOS commands, Gradle, the listing of `<project>/android` and every flat copy succeed (`AndroidOk`). |
| Legacy.BuildTargets | src/index.ts:24-41 | The effects are `TargetOps` and the new tree is `TargetTree` of the old one. It succeeds exactly when both bundles, the three iOS commands and the Android build succeed, the Android listing and copy judged on the tree after the bundles (`AndroidOk`). |
| Legacy.LegacyBuild | src/index.ts:13-44 | A failed `beforeBuild` changes nothing. A blocked recreate leaves the output directory removed and runs no target. Otherwise the effects are `beforeBuild`, remove, recreate, then `TargetOps`, and the new tree is `TargetTree` of the cleaned one. No bundle work precedes the recreate. It succeeds exactly when `beforeBuild` and the recreate succeed, both bundles and the three iOS commands succeed, and the Android build (Gradle, listing, every flat copy) succeeds on the bundled tree. |

## Left out

- The external commands (`yarn`, `pod`, `xcode-archive-cache`, `xcodebuild`, `./gradlew`, `expo`, `security`).
  - They are judged by a `succeeds` oracle.
  - Their effects on the filesystem are not modelled: the archive, the APKs and the bundles they write.
  - Their output is not modelled either.
- The copy of the products tree at src/build.ts:54 is not modelled: it is an opaque step of the trace. Neither are the target runs inside src/build.ts, which are opaque steps.
- `bplist.parseFile` and `plist.parse` (src/tasks/build-ios.ts:64-67) are oracles `bundleIdOf` and `uuidOf`, which give None exactly when the parse rejects; a missing key is their business (the source then shows `undefined`). The XML escaping and well-formedness of the export plist are not modelled.
- Concurrency:
  - `Promise.all`, the `parallel` switch and the `.then` chains are run one branch after another.
  - Every branch that would start runs to completion; a rejection does not cancel the others.
  - The relative order of the `security` commands and the interleaving of the copy loops are not modelled.
- `console.log` output, `Date.now()` (a clock parameter instead), `fse.mkdtempSync` (a given scratch path).
- `path.resolve` and `path.join` normalisation: paths are sequences of separator-free names, with no `..`, no `.`, no empty names and no symbolic links.
- FsUtil.CleanDirectory, Legacy.LegacyBuild: the filesystem root itself is never removed (`dir != []`), because removing "/" is outside what the model's tree can express.
- Time.Seconds: `Math.ceil(ms / 1000)` is floating point in the source. The model takes `ms` as a natural number and uses integer ceiling division.
- Time.Previous: `_.last(splits) || startTime` also falls back when the last split is 0 (modelled), but NaN clock readings are not modelled.
- CommandLine.Words: models `execa.commandSync` splitting at spaces, but not its backslash escapes.
- BuildIos.ArchivePath: scheme and configuration names containing "/" are not modelled; a name is one path component.
- `src/tasks/common.ts` is not part of this model. `Task`, `AndroidTarget`, `AndroidArtifact` and `ExpoUpdateTarget` are shaped after their uses in the task files.
- src/cli.ts and main.ts (command-line wiring) are not modelled. Neither are the empty `preBuild`/`postBuild` bodies: they are steps of the trace that always succeed.
- BuildAndroid.BuildAndroid, BuildAndroid.CopyKinds: these model the corrected copy, which makes `<out>/<kind>` before copying. As written (`CopyArtifactsAsWritten`, `AsWrittenCopyFails`), any found artifact fails to copy into an empty output directory.
- BuildAndroid.BuildAndroid: requires the output directory to be disjoint from `<project>/android`. src/build.ts guarantees this by passing a scratch directory; the task on its own accepts any output directory.
- BuildIos.EntryFor, BuildIos.Mapping, BuildIos.SecurityRuns, BuildIos.ReadProfiles, BuildIos.ExportArchive, BuildIos.BuildIos: these judge and log the one-argument `SecurityCommand`. The as-written command differs exactly when the profile path contains a space (`AsWrittenSecurityCommand`).
- Legacy.BuildTargets: requires the output directory to exist and be empty, which the recreate in `build` always establishes before it.

## Findings

| source | as written | input that shows it | evidently intended | confidence | as-written member | corrected member |
|---|---|---|---|---|---|---|
| src/util/time.ts:6 | minutes are `Math.ceil(sec / 60)` next to `sec % 60` seconds | 61000 ms gives "2m 1s" (121 s) | whole minutes `floor(sec / 60)`, "1m 1s" | high, not executed | Time.AsWrittenSixtyOneSeconds | Time.HumanReadableDuration |
| src/tasks/build-android.ts:39-42 | copies into `<out>/<kind>/<name>` without creating `<out>/<kind>` | any found artifact with an empty output directory (which src/build.ts:33-34 makes) | create `<out>/<kind>` before copying | high, not executed | BuildAndroid.AsWrittenCopyFails | BuildAndroid.CopyArtifacts |
| src/tasks/build-ios.ts:66 | `execa.commandSync` on a string that embeds the profile path, split at spaces | scheme name "My App": every profile path contains a space | pass the path as one argument | high, not executed | BuildIos.AsWrittenSchemeWithSpace | BuildIos.SecurityCommand |

=== FILE: build.dfy ===
/**
 * The orchestrator of src/build.ts: clean one scratch directory per
 * product under `<temp>/artifacts`, run the two JavaScript bundles and the
 * two native builds into them, copy the products onto the output directory
 * and run the post-build hook. The targets themselves are opaque steps
 * judged by an oracle; the cleans act on the filesystem.
 */
module Build {
  import opened Wrappers
  import opened Paths
  import opened FileTree
  import opened FsUtil
  import opened Common
  import opened Argv
  import opened RnBundle

  /** The resolved directories `build` is given. */
  datatype BuildContext = BuildContext(projectDirectory: Path, outputDirectory: Path, cacheDirectory: Path)

  datatype Product = JsBundleIos | JsBundleAndroid | IosApp | AndroidApp

  /** The scratch subdirectory of each product. */
  function ProductName(p: Product): (s: Name)
    ensures s != [] && '/' !in s
  {
    match p
    case JsBundleIos => "jsbundle-ios"
    case JsBundleAndroid => "jsbundle-android"
    case IosApp => "ios"
    case AndroidApp => "android"
  }

  /** Different products get different scratch names. */
  lemma ProductNamesDistinct(p: Product, q: Product)
    ensures ProductName(p) == ProductName(q) <==> p == q
  {
  }

  /** `<temp>/artifacts`: the tree that is copied onto the output directory. */
  function ProductsDir(temp: Path): (r: Path)
    ensures |r| == |temp| + 1 && temp < r
  {
    temp + ["artifacts"]
  }

  function ProductDir(temp: Path, p: Product): (r: Path)
    ensures |r| == |temp| + 2 && ProductsDir(temp) < r && Dirname(r) == ProductsDir(temp)
  {
    ProductsDir(temp) + [ProductName(p)]
  }

  /** The four scratch directories are pairwise disjoint: no product lands in another's directory. */
  lemma ProductDirsDisjoint(temp: Path, p: Product, q: Product)
    requires p != q
    ensures Disjoint(ProductDir(temp, p), ProductDir(temp, q))
  {
    ProductNamesDistinct(p, q);
    assert ProductDir(temp, p)[|temp| + 1] != ProductDir(temp, q)[|temp| + 1];
    DisjointSameLength(ProductDir(temp, p), ProductDir(temp, q));
  }

  /** The cache directory the iOS build is given. */
  function XcodeCache(ctx: BuildContext): Path
  {
    SubDir(ctx.cacheDirectory, "xcode")
  }

  /** The cache directory the Android build is given. */
  function GradleCache(ctx: BuildContext): Path
  {
    SubDir(ctx.cacheDirectory, "gradle")
  }

  /** Each native build gets its own cache below the shared one, and the two never overlap. */
  lemma CachesDisjoint(ctx: BuildContext)
    ensures ctx.cacheDirectory < XcodeCache(ctx) && ctx.cacheDirectory < GradleCache(ctx)
    ensures Disjoint(XcodeCache(ctx), GradleCache(ctx))
  {
    assert XcodeCache(ctx)[|ctx.cacheDirectory|] == "xcode";
    assert GradleCache(ctx)[|ctx.cacheDirectory|] == "gradle";
    DisjointSameLength(XcodeCache(ctx), GradleCache(ctx));
  }

  /** The task of the iOS build: its product directory and the xcode cache. */
  function IosTask(ctx: BuildContext, temp: Path): (t: Task)
    ensures t.outputDirectory == ProductDir(temp, IosApp) && t.cacheDirectory == XcodeCache(ctx)
    ensures t.projectDirectory == ctx.projectDirectory
  {
    Task(ctx.projectDirectory, ProductDir(temp, IosApp), XcodeCache(ctx))
  }

  /** The task of the Android build: its product directory and the gradle cache. */
  function AndroidTask(ctx: BuildContext, temp: Path): (t: Task)
    ensures t.outputDirectory == ProductDir(temp, AndroidApp) && t.cacheDirectory == GradleCache(ctx)
    ensures t.projectDirectory == ctx.projectDirectory
  {
    Task(ctx.projectDirectory, ProductDir(temp, AndroidApp), GradleCache(ctx))
  }

  /** One step of a build, in the order it is taken. */
  datatype Step =
    | PreBuild
    | Clean(dir: Path)
    | RunBundle(cmd: Command)
    | RunIos(task: Task)
    | RunAndroid(task: Task)
    | CopyProducts(from: Path, to: Path)
    | PostBuild

  predicate IsTarget(s: Step)
  {
    s.RunBundle? || s.RunIos? || s.RunAndroid?
  }

  /** The four cleans, one per product directory. */
  function CleanSteps(temp: Path): (r: seq<Step>)
    ensures |r| == 4 && forall k :: 0 <= k < 4 ==> r[k].Clean?
  {
    [Clean(ProductDir(temp, JsBundleIos)), Clean(ProductDir(temp, JsBundleAndroid)),
     Clean(ProductDir(temp, IosApp)), Clean(ProductDir(temp, AndroidApp))]
  }

  /** The four targets, each writing into its own product directory. */
  function TargetSteps(ctx: BuildContext, temp: Path): (r: seq<Step>)
    ensures |r| == 4 && forall k :: 0 <= k < 4 ==> IsTarget(r[k])
  {
    [RunBundle(BundleCommand(ctx.projectDirectory, ProductDir(temp, JsBundleIos), Ios)),
     RunBundle(BundleCommand(ctx.projectDirectory, ProductDir(temp, JsBundleAndroid), Android)),
     RunIos(IosTask(ctx, temp)),
     RunAndroid(AndroidTask(ctx, temp))]
  }

  /**
   * The bundler runs in the project and writes its assets into its own
   * product directory, with the platform's bundle file name.
   */
  lemma BundleTargetsUseOwnDirs(ctx: BuildContext, temp: Path)
    ensures var r := TargetSteps(ctx, temp);
            r[0].cmd.cwd == Some(ctx.projectDirectory) && r[1].cmd.cwd == Some(ctx.projectDirectory)
            && FlagValue(r[0].cmd.args, "--assets-dest") == Some(Render(ProductDir(temp, JsBundleIos)))
            && FlagValue(r[1].cmd.args, "--assets-dest") == Some(Render(ProductDir(temp, JsBundleAndroid)))
            && FlagValue(r[0].cmd.args, "--bundle-output") == Some(Render(ProductDir(temp, JsBundleIos) + ["main.jsbundle"]))
            && FlagValue(r[1].cmd.args, "--bundle-output") == Some(Render(ProductDir(temp, JsBundleAndroid) + ["index.android.bundle"]))
  {
    BundleArgsMeaning(ProductDir(temp, JsBundleIos), Ios);
    BundleArgsMeaning(ProductDir(temp, JsBundleAndroid), Android);
  }

  predicate AllSucceed(steps: seq<Step>, targetOk: Step -> bool)
  {
    forall k :: 0 <= k < |steps| ==> targetOk(steps[k])
  }

  /**
   * The steps a build takes: preBuild, the four cleans; the four targets
   * only when every clean succeeded; the copy only when every target
   * succeeded; postBuild only when the copy succeeded.
   */
  function BuildTrace(ctx: BuildContext, temp: Path, cleaned: bool, targetOk: Step -> bool, copyOk: bool): (r: seq<Step>)
    ensures |r| >= 5 && r[..5] == [PreBuild] + CleanSteps(temp)
  {
    [PreBuild] + CleanSteps(temp)
    + (if !cleaned then []
       else TargetSteps(ctx, temp)
            + (if !AllSucceed(TargetSteps(ctx, temp), targetOk) then []
               else [CopyProducts(ProductsDir(temp), ctx.outputDirectory)] + (if copyOk then [PostBuild] else [])))
  }

  /** Every clean comes before every target. */
  lemma CleansBeforeTargets(ctx: BuildContext, temp: Path, cleaned: bool, targetOk: Step -> bool, copyOk: bool, i: nat, j: nat)
    requires var r := BuildTrace(ctx, temp, cleaned, targetOk, copyOk);
             i < |r| && j < |r| && r[i].Clean? && IsTarget(r[j])
    ensures i < j
  {
  }

  /** The products are copied only when every clean and every target succeeded, and after all four targets. */
  lemma CopyAfterAllTargets(ctx: BuildContext, temp: Path, cleaned: bool, targetOk: Step -> bool, copyOk: bool, k: nat)
    requires var r := BuildTrace(ctx, temp, cleaned, targetOk, copyOk);
             k < |r| && r[k].CopyProducts?
    ensures cleaned && AllSucceed(TargetSteps(ctx, temp), targetOk)
    ensures var r := BuildTrace(ctx, temp, cleaned, targetOk, copyOk);
            k == 9 && r[5..9] == TargetSteps(ctx, temp)
            && r[k] == CopyProducts(ProductsDir(temp), ctx.outputDirectory)
  {
    var r := BuildTrace(ctx, temp, cleaned, targetOk, copyOk);
    var t := TargetSteps(ctx, temp);
    assert forall i :: 0 <= i < 5 ==> r[i] == r[..5][i];
    assert k >= 5 && |r| > 5;
    assert cleaned;
    var rest := if !AllSucceed(t, targetOk) then []
                else [CopyProducts(ProductsDir(temp), ctx.outputDirectory)] + (if copyOk then [PostBuild] else []);
    assert r == [PreBuild] + CleanSteps(temp) + t + rest;
    assert r[5..9] == t;
    assert forall i :: 5 <= i < 9 ==> r[i] == t[i - 5];
    assert k >= 9;
    assert rest != [];
  }

  /** postBuild is the last step, and only a build whose every step succeeded reaches it. */
  lemma PostBuildLast(ctx: BuildContext, temp: Path, cleaned: bool, targetOk: Step -> bool, copyOk: bool, k: nat)
    requires var r := BuildTrace(ctx, temp, cleaned, targetOk, copyOk);
             k < |r| && r[k].PostBuild?
    ensures cleaned && AllSucceed(TargetSteps(ctx, temp), targetOk) && copyOk
    ensures k == |BuildTrace(ctx, temp, cleaned, targetOk, copyOk)| - 1 == 10
  {
  }

  // ---------------------------------------------------------------------
  // The cleans on the filesystem

  /** No regular file stands at `<temp>/artifacts` or above it, so every product directory can be made. */
  ghost predicate ScratchUsable(n: Node, temp: Path)
  {
    forall k :: 0 <= k <= |ProductsDir(temp)| ==> !IsFile(Lookup(n, ProductsDir(temp)[..k]))
  }

  /** All product directories share their ancestors, so one can be cleaned exactly when any can. */
  lemma UsableIsNoFileAbove(n: Node, temp: Path, p: Product)
    ensures ScratchUsable(n, temp) <==> NoFileAbove(n, ProductDir(temp, p))
  {
    var d := ProductDir(temp, p);
    var pd := ProductsDir(temp);
    assert forall k :: 0 <= k <= |pd| ==> d[..k] == pd[..k];
  }

  /** A successful clean leaves every ancestor of the product directories a directory. */
  lemma CleanKeepsUsable(n: Node, temp: Path, p: Product)
    requires WF(n) && Cleaned(n, ProductDir(temp, p)).Some?
    ensures ScratchUsable(Cleaned(n, ProductDir(temp, p)).value, temp)
  {
    var d := ProductDir(temp, p);
    var m := Cleaned(n, d).value;
    CleanedTarget(n, d);
    forall k | 0 <= k <= |ProductsDir(temp)|
      ensures !IsFile(Lookup(m, ProductsDir(temp)[..k]))
    {
      assert ProductsDir(temp)[..k] == d[..k];
      LookupThroughDirs(m, d, d[..k]);
    }
  }

  /** A failed clean removes the directory but leaves the blocking file where it was. */
  lemma FailedCleanKeepsBlocked(n: Node, temp: Path, p: Product)
    requires !ScratchUsable(n, temp)
    ensures !ScratchUsable(Removed(n, ProductDir(temp, p)), temp)
  {
    var d := ProductDir(temp, p);
    var k :| 0 <= k <= |ProductsDir(temp)| && IsFile(Lookup(n, ProductsDir(temp)[..k]));
    assert ProductsDir(temp)[..k] == d[..k] < d;
    RemovedAbove(n, d, d[..k]);
  }

  /** What the cleans so far have established about the tree. */
  ghost predicate CleanedSoFar(n0: Node, n: Node, temp: Path, done: seq<Product>, ok: bool)
  {
    WF(n)
    && (ScratchUsable(n, temp) <==> ScratchUsable(n0, temp))
    && (done == [] ==> ok)
    && (done != [] ==> (ok <==> ScratchUsable(n0, temp)))
    && (ok ==> forall k :: 0 <= k < |done| ==> Lookup(n, ProductDir(temp, done[k])) == Some(Dir([])))
    && (forall q :: Disjoint(q, ProductsDir(temp)) ==> Lookup(n, q) == Lookup(n0, q))
  }

  /** One more clean keeps what the earlier ones established. */
  lemma CleanStep(n0: Node, n: Node, temp: Path, done: seq<Product>, ok: bool, p: Product, ok1: bool, n1: Node)
    requires CleanedSoFar(n0, n, temp, done, ok) && p !in done
    requires ok1 <==> Cleaned(n, ProductDir(temp, p)).Some?
    requires ok1 ==> n1 == Cleaned(n, ProductDir(temp, p)).value
    requires !ok1 ==> n1 == Removed(n, ProductDir(temp, p))
    ensures CleanedSoFar(n0, n1, temp, done + [p], ok && ok1)
  {
    var d := ProductDir(temp, p);
    CleanedSucceeds(n, d);
    UsableIsNoFileAbove(n, temp, p);
    if ok1 {
      CleanedWF(n, d);
      CleanKeepsUsable(n, temp, p);
      CleanedTarget(n, d);
      forall k | 0 <= k < |done|
        ensures Disjoint(d, ProductDir(temp, done[k]))
      {
        ProductDirsDisjoint(temp, p, done[k]);
      }
      forall q | Disjoint(q, d)
        ensures Lookup(n1, q) == Lookup(n, q)
      {
        CleanedFrame(n, d, q);
      }
    } else {
      RemovedWF(n, d);
      FailedCleanKeepsBlocked(n, temp, p);
      forall q | Disjoint(q, ProductsDir(temp))
        ensures Lookup(n1, q) == Lookup(n, q)
      {
        DisjointBelow(q, ProductsDir(temp), d);
        RemovedFrame(n, d, q);
      }
    }
    forall q | Disjoint(q, ProductsDir(temp))
      ensures Disjoint(q, d)
    {
      DisjointBelow(q, ProductsDir(temp), d);
    }
    assert forall k :: 0 <= k < |done| ==> (done + [p])[k] == done[k];
  }

  /** One `cleanDirectory` call of the four, keeping what the earlier ones established. */
  method CleanProduct(fs: FileSystem, temp: Path, ghost n0: Node, ghost done: seq<Product>, ghost ok: bool, p: Product)
    returns (ok1: bool)
    requires fs.Valid() && CleanedSoFar(n0, fs.root, temp, done, ok) && p !in done
    modifies fs
    ensures fs.Valid() && CleanedSoFar(n0, fs.root, temp, done + [p], ok && ok1)
  {
    ghost var n := fs.root;
    ok1 := CleanDirectory(fs, ProductDir(temp, p));
    CleanStep(n0, n, temp, done, ok, p, ok1, fs.root);
  }

  /**
   * The four `cleanDirectory` calls under `<temp>/artifacts`, all of which
   * run; they succeed together or fail together.
   */
  method CleanProducts(fs: FileSystem, temp: Path) returns (ok: bool)
    requires fs.Valid()
    modifies fs
    ensures fs.Valid()
    ensures ok <==> ScratchUsable(old(fs.root), temp)
    ensures ok ==> forall p: Product :: Lookup(fs.root, ProductDir(temp, p)) == Some(Dir([]))
    ensures forall q :: Disjoint(q, ProductsDir(temp)) ==> Lookup(fs.root, q) == Lookup(old(fs.root), q)
  {
    ghost var n0 := fs.root;
    var c1 := CleanProduct(fs, temp, n0, [], true, JsBundleIos);
    assert [] + [JsBundleIos] == [JsBundleIos];
    var c2 := CleanProduct(fs, temp, n0, [JsBundleIos], c1, JsBundleAndroid);
    assert [JsBundleIos] + [JsBundleAndroid] == [JsBundleIos, JsBundleAndroid];
    var c3 := CleanProduct(fs, temp, n0, [JsBundleIos, JsBundleAndroid], c1 && c2, IosApp);
    assert [JsBundleIos, JsBundleAndroid] + [IosApp] == [JsBundleIos, JsBundleAndroid, IosApp];
    var c4 := CleanProduct(fs, temp, n0, [JsBundleIos, JsBundleAndroid, IosApp], c1 && c2 && c3, AndroidApp);
    ghost var all := [JsBundleIos, JsBundleAndroid, IosApp] + [AndroidApp];
    ok := c1 && c2 && c3 && c4;
    CleanedAll(n0, fs.root, temp, all, ok);
  }

  /** After the cleans of all four products, every product directory is empty. */
  lemma CleanedAll(n0: Node, n: Node, temp: Path, all: seq<Product>, ok: bool)
    requires all == [JsBundleIos, JsBundleAndroid, IosApp, AndroidApp]
    requires CleanedSoFar(n0, n, temp, all, ok)
    ensures ok <==> ScratchUsable(n0, temp)
    ensures ok ==> forall p: Product :: Lookup(n, ProductDir(temp, p)) == Some(Dir([]))
    ensures forall q :: Disjoint(q, ProductsDir(temp)) ==> Lookup(n, q) == Lookup(n0, q)
  {
    forall p: Product | ok
      ensures Lookup(n, ProductDir(temp, p)) == Some(Dir([]))
    {
      var k := match p case JsBundleIos => 0 case JsBundleAndroid => 1 case IosApp => 2 case AndroidApp => 3;
      assert all[k] == p;
    }
  }

  /**
   * `build`. `targetOk` says which targets succeed and `copyOk` whether
   * copying the products onto the output directory does; the targets'
   * and the copy's own effects on the filesystem are not modelled.
   */
  method Build(fs: FileSystem, ctx: BuildContext, temp: Path, targetOk: Step -> bool, copyOk: bool)
    returns (ok: bool, trace: seq<Step>)
    requires fs.Valid()
    modifies fs
    ensures fs.Valid()
    ensures trace == BuildTrace(ctx, temp, ScratchUsable(old(fs.root), temp), targetOk, copyOk)
    ensures ok <==> ScratchUsable(old(fs.root), temp) && AllSucceed(TargetSteps(ctx, temp), targetOk) && copyOk
    ensures ScratchUsable(old(fs.root), temp) ==>
              forall p: Product :: Lookup(fs.root, ProductDir(temp, p)) == Some(Dir([]))
    ensures forall q :: Disjoint(q, ProductsDir(temp)) ==> Lookup(fs.root, q) == Lookup(old(fs.root), q)
  {
    trace := [PreBuild];
    var cleaned := CleanProducts(fs, temp);
    trace := trace + CleanSteps(temp);
    if !cleaned {
      return false, trace;
    }
    var targets := TargetSteps(ctx, temp);
    var r1 := targetOk(targets[0]);
    var r2 := targetOk(targets[1]);
    var r3 := targetOk(targets[2]);
    var r4 := targetOk(targets[3]);
    trace := trace + targets;
    if !(r1 && r2 && r3 && r4) {
      assert !AllSucceed(targets, targetOk);
      return false, trace;
    }
    assert AllSucceed(targets, targetOk) by {
      forall k | 0 <= k < 4 ensures targetOk(targets[k]) {
        assert k == 0 || k == 1 || k == 2 || k == 3;
      }
    }
    trace := trace + [CopyProducts(ProductsDir(temp), ctx.outputDirectory)];
    if !copyOk {
      return false, trace;
    }
    trace := trace + [PostBuild];
    ok := true;
  }
}

=== FILE: build_android.dfy ===
/**
 * The Android executor of src/tasks/build-android.ts: run Gradle in the
 * project's `android` directory, then, for each requested artifact kind,
 * find the files of that kind under `android` and copy each one to
 * `<outputDirectory>/<kind>/<basename>`.
 */
module BuildAndroid {
  import opened Wrappers
  import opened Paths
  import opened FileTree
  import opened FsUtil
  import opened Copying
  import opened Common
  import opened Config

  /** `params.gradleExtraCommandLineArgs || []`: any array, even an empty one, is kept. */
  function ExtraArgs(extra: Option<seq<string>>): (r: seq<string>)
    ensures extra.None? ==> r == []
    ensures extra.Some? ==> r == extra.value
  {
    if extra.Some? then extra.value else []
  }

  function GradleArgs(target: string, cache: Path, extra: seq<string>): (args: seq<string>)
    ensures |args| == 5 + |extra| && args[5..] == extra
  {
    [target, "--build-cache", "--gradle-user-home", Render(cache), "--parallel"] + extra
  }

  /** `./gradlew ...`, run in `<projectDirectory>/android`. */
  function GradleCommand(t: Task, c: AndroidTarget, extra: Option<seq<string>>): (cmd: Command)
    ensures cmd.program == "./gradlew" && cmd.cwd == Some(SubDir(t.projectDirectory, "android"))
    ensures extra.None? ==> |cmd.args| == 5
  {
    Command("./gradlew", GradleArgs(c.gradleTarget, t.cacheDirectory, ExtraArgs(extra)), Some(SubDir(t.projectDirectory, "android")))
  }

  /** What Gradle is asked to do: the task, the user home holding its cache, and the extra arguments. */
  datatype GradleRequest = GradleRequest(target: string, userHome: string, extra: seq<string>)

  function ParseGradleArgs(args: seq<string>): Option<GradleRequest>
  {
    if |args| >= 5 && args[1] == "--build-cache" && args[2] == "--gradle-user-home" && args[4] == "--parallel" then
      Some(GradleRequest(args[0], args[3], args[5..]))
    else None
  }

  /** The Gradle arguments carry the target, the cache directory and the extra arguments, in that order. */
  lemma ParseGradleArgsRoundTrip(target: string, cache: Path, extra: seq<string>)
    ensures ParseGradleArgs(GradleArgs(target, cache, extra)) == Some(GradleRequest(target, Render(cache), extra))
  {
  }

  /** `config.artifacts || ['apk']`: only an absent list defaults; an empty one stays empty. */
  function ArtifactsOrDefault(artifacts: Option<seq<AndroidArtifact>>): (r: seq<AndroidArtifact>)
    ensures artifacts.None? ==> r == [Apk]
    ensures artifacts.Some? ==> r == artifacts.value
  {
    if artifacts.Some? then artifacts.value else [Apk]
  }

  /** The kind's name: the string in the configuration and the name of its output subdirectory. */
  function KindName(a: AndroidArtifact): (s: Name)
    ensures s == "apk" || s == "aab"
  {
    match a
    case Apk => "apk"
    case Aab => "aab"
  }

  /** `artifactPatternFor`: the kind's file extension, as a suffix test on the file name. */
  function ArtifactPatternFor(a: AndroidArtifact): (suffix: string)
    ensures suffix == "." + KindName(a)
    ensures '/' !in suffix
  {
    match a
    case Aab => ".aab"
    case Apk => ".apk"
  }

  /** No file name matches both kinds' patterns, so every found file has one kind. */
  lemma PatternsExclusive(name: Name)
    ensures !(EndsWith(name, ArtifactPatternFor(Apk)) && EndsWith(name, ArtifactPatternFor(Aab)))
  {
  }

  /** Every kind is searched for under `<projectDirectory>/android`. */
  function SearchRoot(t: Task): (r: Path)
    ensures r != [] && Dirname(r) == t.projectDirectory && Basename(r) == "android"
  {
    SubDir(t.projectDirectory, "android")
  }

  /** `path.join(outputDirectory, a)`: the directory the kind's files are copied into. */
  function KindDir(out: Path, a: AndroidArtifact): (r: Path)
    ensures r != [] && Dirname(r) == out && (Basename(r) == "apk" || Basename(r) == "aab")
    ensures a.Apk? <==> Basename(r) == "apk"
  {
    out + [KindName(a)]
  }

  /** `path.join(outputDirectory, a, path.basename(srcPath))`. */
  function Destination(out: Path, a: AndroidArtifact, src: Path): (d: Path)
    requires src != []
    ensures d != [] && Dirname(d) == KindDir(out, a) && Basename(d) == Basename(src)
  {
    out + [KindName(a), Basename(src)]
  }

  function Routes(out: Path, a: AndroidArtifact, files: seq<Path>): (rs: seq<Route>)
    requires forall k :: 0 <= k < |files| ==> files[k] != []
    ensures |rs| == |files| && Routable(rs)
    ensures forall k :: 0 <= k < |files| ==> rs[k] == Route(files[k], Destination(out, a, files[k]))
  {
    seq(|files|, k requires 0 <= k < |files| => Route(files[k], Destination(out, a, files[k])))
  }

  /** No later file has the same name, so no later copy overwrites this one. */
  predicate LastOfName(files: seq<Path>, k: nat)
    requires k < |files| && forall j :: 0 <= j < |files| ==> files[j] != []
  {
    forall j :: k < j < |files| ==> Basename(files[j]) != Basename(files[k])
  }

  /**
   * Every file of kind `a` found in tree `n0` has reached its destination in
   * tree `n` with its content, except one that a later file of the same name
   * replaced.
   */
  ghost predicate Delivered(n0: Node, n: Node, t: Task, a: AndroidArtifact)
  {
    WF(n0) && IsDir(Lookup(n0, SearchRoot(t))) &&
    var found := FoundAt(n0, SearchRoot(t), ArtifactPatternFor(a));
    (forall k :: 0 <= k < |found| ==> found[k] != []) &&
    forall k :: 0 <= k < |found| && LastOfName(found, k) ==>
      Lookup(n, Destination(t.outputDirectory, a, found[k])) == Lookup(n0, found[k])
  }

  /** The destination directory can be created and holds no subdirectory a copy could hit. */
  ghost predicate Ready(n: Node, dir: Path)
  {
    NoFileOn(n, dir) && (IsDir(Lookup(n, dir)) ==> FlatDir(n, dir))
  }

  /** What the search reports for kind `a` lies below the search root, hence away from the output. */
  lemma FoundAway(n0: Node, t: Task, a: AndroidArtifact)
    requires WF(n0) && IsDir(Lookup(n0, SearchRoot(t))) && Disjoint(SearchRoot(t), t.outputDirectory)
    ensures var files := FoundAt(n0, SearchRoot(t), ArtifactPatternFor(a));
            forall k :: 0 <= k < |files| ==>
              files[k] != [] && IsFile(Lookup(n0, files[k])) && Disjoint(files[k], KindDir(t.outputDirectory, a))
  {
    var search, dir := SearchRoot(t), KindDir(t.outputDirectory, a);
    DisjointBelow(search, t.outputDirectory, dir);
    var files := FoundAt(n0, search, ArtifactPatternFor(a));
    forall k | 0 <= k < |files|
      ensures files[k] != [] && IsFile(Lookup(n0, files[k])) && Disjoint(files[k], dir)
    {
      FoundAtSound(n0, search, ArtifactPatternFor(a), k);
      DisjointBelow(dir, search, files[k]);
    }
  }

  lemma RoutesSeparated(out: Path, a: AndroidArtifact, files: seq<Path>)
    requires forall k :: 0 <= k < |files| ==> files[k] != [] && Disjoint(files[k], KindDir(out, a))
    ensures Separated(Routes(out, a, files))
  {
    var routes := Routes(out, a, files);
    forall j, k | 0 <= j < |routes| && 0 <= k < |routes|
      ensures Disjoint(routes[j].src, routes[k].dst)
    {
      DisjointBelow(files[j], KindDir(out, a), routes[k].dst);
    }
    forall j, k | 0 <= j < |routes| && 0 <= k < |routes| && routes[j].dst != routes[k].dst
      ensures Disjoint(routes[j].dst, routes[k].dst)
    {
      DisjointSameLength(routes[j].dst, routes[k].dst);
    }
  }

  /** Creating a ready directory leaves it flat: either it was already, or it is new and empty. */
  lemma MadeReadyIsFlat(n: Node, dir: Path)
    requires Ready(n, dir)
    ensures Made(n, dir).Some? && FlatDir(Made(n, dir).value, dir)
  {
    MadeSucceeds(n, dir);
    var m := Made(n, dir).value;
    MadeTarget(n, dir);
    if IsDir(Lookup(n, dir)) {
      MadeExisting(n, dir);
    } else {
      assert dir[..|dir|] == dir;
      assert Lookup(m, dir) == Some(Dir([]));
      forall x ensures !IsDir(Lookup(m, dir + [x])) {
        LookupAppend(m, dir, x);
      }
    }
  }

  /** A successful run over the found files' routes delivers every one of them. */
  lemma DeliveredByRun(n0: Node, n1: Node, t: Task, a: AndroidArtifact)
    requires WF(n0) && IsDir(Lookup(n0, SearchRoot(t))) && Disjoint(SearchRoot(t), t.outputDirectory)
    requires forall q :: Disjoint(q, KindDir(t.outputDirectory, a)) ==> Lookup(n1, q) == Lookup(n0, q)
    requires var files := FoundAt(n0, SearchRoot(t), ArtifactPatternFor(a));
             (forall k :: 0 <= k < |files| ==> files[k] != []) &&
             CopyRun(n1, Routes(t.outputDirectory, a, files)).1
    ensures var files := FoundAt(n0, SearchRoot(t), ArtifactPatternFor(a));
            Delivered(n0, CopyRun(n1, Routes(t.outputDirectory, a, files)).0, t, a)
  {
    var files := FoundAt(n0, SearchRoot(t), ArtifactPatternFor(a));
    var routes := Routes(t.outputDirectory, a, files);
    FoundAway(n0, t, a);
    RoutesSeparated(t.outputDirectory, a, files);
    forall k | 0 <= k < |files| && LastOfName(files, k)
      ensures Lookup(CopyRun(n1, routes).0, Destination(t.outputDirectory, a, files[k])) == Lookup(n0, files[k])
    {
      CopyRunLastWins(n1, routes, k);
    }
  }

  /**
   * The files of one kind, found, then copied, with the destination
   * directory created first. The source omits that `mkdirp`; see
   * CopyArtifactsAsWritten.
   */
  method CopyArtifacts(fs: FileSystem, t: Task, a: AndroidArtifact) returns (ok: bool)
    requires fs.Valid() && Disjoint(SearchRoot(t), t.outputDirectory)
    modifies fs
    ensures fs.Valid()
    ensures forall q :: Disjoint(q, KindDir(t.outputDirectory, a)) ==> Lookup(fs.root, q) == Lookup(old(fs.root), q)
    ensures ok ==> Delivered(old(fs.root), fs.root, t, a)
    ensures IsDir(Lookup(old(fs.root), SearchRoot(t))) && Ready(old(fs.root), KindDir(t.outputDirectory, a))
            ==> ok && FlatDir(fs.root, KindDir(t.outputDirectory, a))
  {
    var search, dir, suffix := SearchRoot(t), KindDir(t.outputDirectory, a), ArtifactPatternFor(a);
    ghost var n0 := fs.root;
    var found := FindFilesRecursively(fs, search, suffix);
    if found.None? {
      return false;
    }
    var files := found.value;
    FoundAway(n0, t, a);
    ghost var ready := Ready(n0, dir);
    if ready {
      MadeReadyIsFlat(n0, dir);
    }
    var made := fs.Mkdirp(dir);
    if !made {
      return false;
    }
    ghost var n1 := fs.root;
    forall q | Disjoint(q, dir) ensures Lookup(n1, q) == Lookup(n0, q) {
      MadeFrame(n0, dir, q);
    }
    var routes := Routes(t.outputDirectory, a, files);
    if ready {
      CopyRunIntoFlatDir(n1, dir, routes);
    }
    ok := CopyEach(fs, routes);
    forall q | Disjoint(q, dir) ensures Lookup(fs.root, q) == Lookup(n0, q) {
      forall k | 0 <= k < |routes| ensures Disjoint(routes[k].dst, q) {
        DisjointBelow(q, dir, routes[k].dst);
      }
      CopyRunFrame(n1, routes, q);
    }
    if ok {
      DeliveredByRun(n0, n1, t, a);
    }
  }

  /**
   * The copy step as written: the destination directory `<out>/<kind>` is
   * never created. On the empty output directory the orchestrator
   * prepares, it therefore fails exactly when there is a file to copy.
   */
  method CopyArtifactsAsWritten(fs: FileSystem, t: Task, a: AndroidArtifact) returns (ok: bool)
    requires fs.Valid() && Disjoint(SearchRoot(t), t.outputDirectory)
    modifies fs
    ensures fs.Valid()
    ensures ok ==> IsDir(Lookup(old(fs.root), SearchRoot(t)))
    ensures IsDir(Lookup(old(fs.root), SearchRoot(t))) && Lookup(old(fs.root), t.outputDirectory) == Some(Dir([]))
            ==> (ok <==> FoundAt(old(fs.root), SearchRoot(t), ArtifactPatternFor(a)) == [])
    ensures !IsDir(Lookup(old(fs.root), SearchRoot(t))) ==> fs.root == old(fs.root)
    ensures IsDir(Lookup(old(fs.root), SearchRoot(t))) ==>
              var files := FoundAt(old(fs.root), SearchRoot(t), ArtifactPatternFor(a));
              NonEmptyPaths(files) && (fs.root, ok) == CopyRun(old(fs.root), Routes(t.outputDirectory, a, files))
  {
    var search, suffix := SearchRoot(t), ArtifactPatternFor(a);
    ghost var n0 := fs.root;
    var found := FindFilesRecursively(fs, search, suffix);
    if found.None? {
      return false;
    }
    var files := found.value;
    assert files == FoundAt(n0, search, suffix);
    FoundAway(n0, t, a);
    var routes := Routes(t.outputDirectory, a, files);
    if Lookup(n0, t.outputDirectory) == Some(Dir([])) && files != [] {
      AsWrittenCopyFails(n0, t, a);
    }
    ok := CopyEach(fs, routes);
  }

  /**
   * Into the empty output directory the orchestrator prepares, the first
   * copy as written throws: `<out>/<kind>` does not exist.
   */
  lemma AsWrittenCopyFails(n: Node, t: Task, a: AndroidArtifact)
    requires WF(n) && IsDir(Lookup(n, SearchRoot(t))) && Disjoint(SearchRoot(t), t.outputDirectory)
    requires Lookup(n, t.outputDirectory) == Some(Dir([]))
    requires FoundAt(n, SearchRoot(t), ArtifactPatternFor(a)) != []
    ensures var files := FoundAt(n, SearchRoot(t), ArtifactPatternFor(a));
            (forall k :: 0 <= k < |files| ==> files[k] != []) &&
            CopyRun(n, Routes(t.outputDirectory, a, files)) == (n, false)
  {
    FoundAway(n, t, a);
    LookupAppend(n, t.outputDirectory, KindName(a));
    CopyRunMissingParent(n, Routes(t.outputDirectory, a, FoundAt(n, SearchRoot(t), ArtifactPatternFor(a))));
  }

  /** Delivery is judged against the tree before the copies; any tree that agrees away from the output will do. */
  lemma DeliveredRebase(n0: Node, ni: Node, n: Node, t: Task, a: AndroidArtifact)
    requires WF(n0) && IsDir(Lookup(n0, SearchRoot(t))) && Disjoint(SearchRoot(t), t.outputDirectory)
    requires forall q :: Disjoint(q, t.outputDirectory) ==> Lookup(ni, q) == Lookup(n0, q)
    requires Delivered(ni, n, t, a)
    ensures Delivered(n0, n, t, a)
  {
    var search := SearchRoot(t);
    var files := FoundAt(n0, search, ArtifactPatternFor(a));
    assert Lookup(ni, search) == Lookup(n0, search);
    assert FoundAt(ni, search, ArtifactPatternFor(a)) == files;
    forall k | 0 <= k < |files| ensures Lookup(ni, files[k]) == Lookup(n0, files[k]) {
      FoundAtSound(n0, search, ArtifactPatternFor(a), k);
      DisjointBelow(t.outputDirectory, search, files[k]);
    }
  }

  /** Copies of another kind do not disturb what this kind delivered. */
  lemma DeliveredFrame(n0: Node, n: Node, m: Node, t: Task, a: AndroidArtifact, b: AndroidArtifact)
    requires a != b && Delivered(n0, n, t, a)
    requires forall q :: Disjoint(q, KindDir(t.outputDirectory, b)) ==> Lookup(m, q) == Lookup(n, q)
    ensures Delivered(n0, m, t, a)
  {
    var files := FoundAt(n0, SearchRoot(t), ArtifactPatternFor(a));
    var out := t.outputDirectory;
    forall k | 0 <= k < |files|
      ensures Lookup(m, Destination(out, a, files[k])) == Lookup(n, Destination(out, a, files[k]))
    {
      var d := Destination(out, a, files[k]);
      assert d[|out|] != KindDir(out, b)[|out|];
      assert Disjoint(d, KindDir(out, b));
    }
  }

  /** In an empty output directory, every kind's directory is ready. */
  lemma ReadyInEmpty(n: Node, out: Path, x: Name)
    requires Lookup(n, out) == Some(Dir([]))
    ensures Ready(n, out + [x])
  {
    var d := out + [x];
    LookupAppend(n, out, x);
    forall k | 0 <= k <= |d| ensures !IsFile(Lookup(n, d[..k])) {
      if k <= |out| {
        assert d[..k] <= out;
        if d[..k] < out {
          LookupThroughDirs(n, out, d[..k]);
        } else {
          assert d[..k] == out;
        }
      } else {
        assert d[..k] == d;
      }
    }
  }

  /** A kind's directory that the copies left flat is ready for another round. */
  lemma ReadyWhenFlat(n: Node, dir: Path)
    requires FlatDir(n, dir)
    ensures Ready(n, dir)
  {
    forall k | 0 <= k <= |dir| ensures !IsFile(Lookup(n, dir[..k])) {
      if k < |dir| {
        LookupThroughDirs(n, dir, dir[..k]);
      } else {
        assert dir[..k] == dir;
      }
    }
  }

  /** Filling one kind's directory keeps a sibling kind's directory ready. */
  lemma ReadySibling(n: Node, m: Node, out: Path, x: Name, y: Name)
    requires Ready(n, out + [y]) && x != y && IsDir(Lookup(m, out + [x]))
    requires forall q :: Disjoint(q, out + [x]) ==> Lookup(m, q) == Lookup(n, q)
    ensures Ready(m, out + [y])
  {
    var d := out + [y];
    forall k | 0 <= k <= |d| ensures !IsFile(Lookup(m, d[..k])) {
      if k <= |out| {
        assert d[..k] < out + [x];
        LookupThroughDirs(m, out + [x], d[..k]);
      } else {
        assert d[..k] == d && d[|out|] != (out + [x])[|out|];
        assert Disjoint(d, out + [x]);
      }
    }
    if IsDir(Lookup(m, d)) {
      assert Disjoint(d, out + [x]) by {
        assert d[|out|] != (out + [x])[|out|];
      }
      forall z ensures !IsDir(Lookup(m, d + [z])) {
        assert (d + [z])[|out|] != (out + [x])[|out|];
        assert Disjoint(d + [z], out + [x]);
      }
    }
  }

  /** Trees n and m agree everywhere away from p. */
  ghost predicate AgreeAway(n: Node, m: Node, p: Path)
  {
    forall q :: Disjoint(q, p) ==> Lookup(n, q) == Lookup(m, q)
  }

  ghost predicate AllDelivered(n0: Node, n: Node, t: Task, kinds: seq<AndroidArtifact>)
  {
    forall a :: a in kinds ==> Delivered(n0, n, t, a)
  }

  ghost predicate AllReady(n: Node, out: Path)
  {
    forall b: AndroidArtifact :: Ready(n, KindDir(out, b))
  }

  lemma AllReadyInEmpty(n: Node, out: Path)
    requires Lookup(n, out) == Some(Dir([]))
    ensures AllReady(n, out)
  {
    forall b: AndroidArtifact ensures Ready(n, KindDir(out, b)) {
      ReadyInEmpty(n, out, KindName(b));
    }
  }

  /** One more kind delivered, the earlier ones kept. */
  lemma DeliveredStep(n0: Node, ni: Node, n: Node, t: Task, done: seq<AndroidArtifact>, a: AndroidArtifact)
    requires WF(n0) && Disjoint(SearchRoot(t), t.outputDirectory)
    requires AgreeAway(ni, n0, t.outputDirectory) && AgreeAway(n, ni, KindDir(t.outputDirectory, a))
    requires AllDelivered(n0, ni, t, done) && Delivered(ni, n, t, a)
    ensures AllDelivered(n0, n, t, done + [a])
  {
    assert Lookup(ni, SearchRoot(t)) == Lookup(n0, SearchRoot(t));
    forall a' | a' in done + [a] ensures Delivered(n0, n, t, a') {
      if a' == a {
        DeliveredRebase(n0, ni, n, t, a);
      } else {
        assert a' in done;
        DeliveredFrame(n0, ni, n, t, a', a);
      }
    }
  }

  /** Every kind's directory stays ready after one of them is filled. */
  lemma ReadyStep(ni: Node, n: Node, out: Path, a: AndroidArtifact)
    requires AllReady(ni, out) && FlatDir(n, KindDir(out, a)) && AgreeAway(n, ni, KindDir(out, a))
    ensures AllReady(n, out)
  {
    ReadyWhenFlat(n, KindDir(out, a));
    forall b: AndroidArtifact ensures Ready(n, KindDir(out, b)) {
      if b != a {
        assert Ready(ni, KindDir(out, b));
        assert KindName(a) != KindName(b);
        ReadySibling(ni, n, out, KindName(a), KindName(b));
      }
    }
  }

  /** What stays away from a kind's directory stays away from the output directory. */
  lemma AgreeAwayWider(n0: Node, ni: Node, n: Node, out: Path, a: AndroidArtifact)
    requires AgreeAway(ni, n0, out) && AgreeAway(n, ni, KindDir(out, a))
    ensures AgreeAway(n, n0, out)
  {
    forall q | Disjoint(q, out) ensures Lookup(n, q) == Lookup(n0, q) {
      DisjointBelow(q, out, KindDir(out, a));
    }
  }

  /**
   * `buildAndroid`: Gradle first; a Gradle failure rejects before anything
   * is copied. Then every requested kind is found and copied (all kinds run,
   * as under Promise.all); the build succeeds when every kind did.
   */
  method BuildAndroid(fs: FileSystem, t: Task, c: AndroidTarget, extra: Option<seq<string>>, succeeds: Command -> bool)
    returns (ok: bool, log: seq<Command>)
    requires fs.Valid() && Disjoint(SearchRoot(t), t.outputDirectory)
    modifies fs
    ensures fs.Valid()
    ensures log == [GradleCommand(t, c, extra)]
    ensures !succeeds(log[0]) ==> !ok && fs.root == old(fs.root)
    ensures forall q :: Disjoint(q, t.outputDirectory) ==> Lookup(fs.root, q) == Lookup(old(fs.root), q)
    ensures ok ==> forall a :: a in ArtifactsOrDefault(c.artifacts) ==> Delivered(old(fs.root), fs.root, t, a)
    ensures (succeeds(log[0]) && IsDir(Lookup(old(fs.root), SearchRoot(t))) &&
             Lookup(old(fs.root), t.outputDirectory) == Some(Dir([]))) ==> ok
  {
    var gradle := GradleCommand(t, c, extra);
    log := [gradle];
    if !succeeds(gradle) {
      return false, log;
    }
    ok := CopyKinds(fs, t, ArtifactsOrDefault(c.artifacts));
  }

  /** The copies for every requested kind, in order, each one whatever the others did. */
  method CopyKinds(fs: FileSystem, t: Task, kinds: seq<AndroidArtifact>) returns (ok: bool)
    requires fs.Valid() && Disjoint(SearchRoot(t), t.outputDirectory)
    modifies fs
    ensures fs.Valid()
    ensures AgreeAway(fs.root, old(fs.root), t.outputDirectory)
    ensures ok ==> AllDelivered(old(fs.root), fs.root, t, kinds)
    ensures (IsDir(Lookup(old(fs.root), SearchRoot(t))) &&
             Lookup(old(fs.root), t.outputDirectory) == Some(Dir([]))) ==> ok
  {
    var out := t.outputDirectory;
    ghost var n0 := fs.root;
    ghost var clean := IsDir(Lookup(n0, SearchRoot(t))) && Lookup(n0, out) == Some(Dir([]));
    if clean {
      AllReadyInEmpty(n0, out);
    }
    ok := true;
    var i := 0;
    while i < |kinds|
      invariant 0 <= i <= |kinds| && fs.Valid()
      invariant AgreeAway(fs.root, n0, out)
      invariant ok ==> AllDelivered(n0, fs.root, t, kinds[..i])
      invariant clean ==> ok && AllReady(fs.root, out)
    {
      var a := kinds[i];
      ghost var ni := fs.root;
      if clean {
        assert Lookup(ni, SearchRoot(t)) == Lookup(n0, SearchRoot(t));
        assert Ready(ni, KindDir(out, a));
      }
      var kindOk := CopyArtifacts(fs, t, a);
      assert AgreeAway(fs.root, ni, KindDir(out, a));
      AgreeAwayWider(n0, ni, fs.root, out, a);
      if ok && kindOk {
        assert kinds[..i + 1] == kinds[..i] + [a];
        DeliveredStep(n0, ni, fs.root, t, kinds[..i], a);
      }
      if clean {
        ReadyStep(ni, fs.root, out, a);
      }
      ok := ok && kindOk;
      i := i + 1;
    }
    assert kinds[..i] == kinds;
  }
}

=== FILE: build_ios.dfy ===
/**
 * The iOS executor of src/tasks/build-ios.ts: install the CocoaPods, let
 * xcode-archive-cache inject its cache, archive the workspace with
 * xcodebuild, read the bundle identifier and provisioning-profile UUID of
 * every provisioning profile inside the archive, write an export-options
 * plist mapping the one to the other, and export the archive.
 */
module BuildIos {
  import opened Wrappers
  import opened Paths
  import opened FileTree
  import opened FsUtil
  import opened Common
  import opened Config
  import opened CommandLine

  /** The `ios` directory of the project, where CocoaPods and xcodebuild run. */
  function IosDir(t: Task): Path
  {
    SubDir(t.projectDirectory, "ios")
  }

  /** `pod install`. */
  function PodCommand(t: Task): (cmd: Command)
    ensures cmd.program == "pod" && cmd.args == ["install"]
    ensures cmd.cwd.Some? && Render(cmd.cwd.value) == Join(Render(t.projectDirectory), "ios")
  {
    Command("pod", ["install"], Some(IosDir(t)))
  }

  const StoragePrefix := "--storage="

  /** `bundle exec xcode-archive-cache inject --configuration=Release --storage=<cache>`. */
  function InjectCommand(t: Task): (cmd: Command)
    ensures cmd.program == "bundle" && |cmd.args| == 5
    ensures cmd.args[..4] == ["exec", "xcode-archive-cache", "inject", "--configuration=Release"]
    ensures StoragePrefix <= cmd.args[4] && cmd.args[4][|StoragePrefix|..] == Render(t.cacheDirectory)
    ensures cmd.cwd == Some(IosDir(t))
  {
    Command("bundle", ["exec", "xcode-archive-cache", "inject", "--configuration=Release", StoragePrefix + Render(t.cacheDirectory)], Some(IosDir(t)))
  }

  const IdentityPrefix := "CODE_SIGN_IDENTITY="
  const SpecifierPrefix := "PROVISIONING_PROFILE_SPECIFIER="

  /** The code-signing build settings: none without a code-signing section, four with one. */
  function CodesigningParams(c: Option<Codesigning>): (r: seq<string>)
    ensures c.None? <==> r == []
    ensures c.Some? ==> |r| == 4 && r[0] == "CODE_SIGN_STYLE=Manual" && r[2] == "PROVISIONING_PROFILE="
  {
    match c
    case None => []
    case Some(cs) =>
      ["CODE_SIGN_STYLE=Manual",
       IdentityPrefix + cs.signingIdentity,
       "PROVISIONING_PROFILE=",
       SpecifierPrefix + cs.provisioningProfileName]
  }

  predicate StartsWith(s: string, prefix: string)
  {
    prefix <= s
  }

  /** Reads the code-signing section back from the trailing build settings. */
  function ParseCodesigning(r: seq<string>): Option<Option<Codesigning>>
  {
    if r == [] then Some(None)
    else if |r| == 4 && r[0] == "CODE_SIGN_STYLE=Manual" && StartsWith(r[1], IdentityPrefix)
         && r[2] == "PROVISIONING_PROFILE=" && StartsWith(r[3], SpecifierPrefix) then
      Some(Some(Codesigning(r[1][|IdentityPrefix|..], r[3][|SpecifierPrefix|..])))
    else None
  }

  /** The build settings carry exactly the signing identity and the profile name, with manual signing. */
  lemma ParseCodesigningRoundTrip(c: Option<Codesigning>)
    ensures ParseCodesigning(CodesigningParams(c)) == Some(c)
  {
    if c.Some? {
      var r := CodesigningParams(c);
      assert r[1] == IdentityPrefix + c.value.signingIdentity;
      assert r[1][|IdentityPrefix|..] == c.value.signingIdentity;
      assert r[3] == SpecifierPrefix + c.value.provisioningProfileName;
      assert r[3][|SpecifierPrefix|..] == c.value.provisioningProfileName;
    }
  }

  /** `<outputDirectory>/<scheme>-<configuration>.xcarchive`. */
  function ArchivePath(out: Path, c: IosConfig): (r: Path)
    ensures |r| == |out| + 1 && Dirname(r) == out
    ensures Basename(r) == c.xcodeSchemeName + "-" + c.xcodeConfigName + ".xcarchive"
    ensures EndsWith(Basename(r), ".xcarchive")
  {
    var name := c.xcodeSchemeName + "-" + c.xcodeConfigName + ".xcarchive";
    assert name[|name| - 10..] == ".xcarchive";
    out + [name]
  }

  function ArchiveArgs(out: Path, c: IosConfig): (args: seq<string>)
    ensures |args| == 9 + |CodesigningParams(c.codesigning)|
    ensures args[9..] == CodesigningParams(c.codesigning)
  {
    ["archive",
     "-workspace", c.xcodeWorkspaceName,
     "-scheme", c.xcodeSchemeName,
     "-configuration", c.xcodeConfigName,
     "-archivePath", Render(ArchivePath(out, c))]
    + CodesigningParams(c.codesigning)
  }

  /** `xcodebuild archive ...`, run in the project's `ios` directory. */
  function ArchiveCommand(t: Task, c: IosConfig): (cmd: Command)
    ensures cmd.program == "xcodebuild" && cmd.cwd == Some(IosDir(t))
    ensures |cmd.args| >= 9 && cmd.args[0] == "archive"
  {
    Command("xcodebuild", ArchiveArgs(t.outputDirectory, c), Some(IosDir(t)))
  }

  /** What xcodebuild is asked to archive, and how it signs. */
  datatype ArchiveRequest = ArchiveRequest(
    workspace: string, scheme: string, configuration: string, archivePath: string,
    codesigning: Option<Codesigning>)

  function ParseArchiveArgs(args: seq<string>): Option<ArchiveRequest>
  {
    if |args| >= 9 && args[0] == "archive" && args[1] == "-workspace" && args[3] == "-scheme"
       && args[5] == "-configuration" && args[7] == "-archivePath" then
      match ParseCodesigning(args[9..])
      case None => None
      case Some(cs) => Some(ArchiveRequest(args[2], args[4], args[6], args[8], cs))
    else None
  }

  /** The archive step names the configured workspace, scheme and configuration, the archive path and the signing. */
  lemma ParseArchiveArgsRoundTrip(out: Path, c: IosConfig)
    ensures ParseArchiveArgs(ArchiveArgs(out, c))
         == Some(ArchiveRequest(c.xcodeWorkspaceName, c.xcodeSchemeName, c.xcodeConfigName,
                                Render(ArchivePath(out, c)), c.codesigning))
  {
    ParseCodesigningRoundTrip(c.codesigning);
  }

  /** `path.join(xcarchivePath, '/Products/')`: where the provisioning profiles are searched. */
  function ProfileSearchRoot(archive: Path): (r: Path)
    ensures r != [] && Dirname(r) == archive && Basename(r) == "Products"
    ensures Render(r) == Join(Render(archive), "Products")
  {
    SubDir(archive, "Products")
  }

  const ProfileSuffix := ".mobileprovision"

  /** The `Info.plist` beside a provisioning profile. */
  function InfoPlistPath(profile: Path): (r: Path)
    requires profile != []
    ensures |r| == |profile| && Dirname(r) == Dirname(profile) && Basename(r) == "Info.plist"
  {
    Dirname(profile) + ["Info.plist"]
  }

  /**
   * Every profile the search finds is a file strictly inside the archive's
   * Products directory, and the Info.plist read for it lies in the same
   * directory, hence also inside Products.
   */
  lemma ProfilesInsideProducts(n: Node, archive: Path, k: nat)
    requires WF(n) && IsDir(Lookup(n, ProfileSearchRoot(archive)))
    requires k < |FoundAt(n, ProfileSearchRoot(archive), ProfileSuffix)|
    ensures var p := FoundAt(n, ProfileSearchRoot(archive), ProfileSuffix)[k];
            var products := ProfileSearchRoot(archive);
            IsFile(Lookup(n, p)) && EndsWith(Basename(p), ProfileSuffix)
            && products <= InfoPlistPath(p) && |products| < |InfoPlistPath(p)|
  {
    var products := ProfileSearchRoot(archive);
    var p := FoundAt(n, products, ProfileSuffix)[k];
    FoundAtSound(n, products, ProfileSuffix, k);
    assert InfoPlistPath(p)[..|products|] == p[..|products|];
  }

  /** `<key>bundleId</key><string>uuid</string>`: one line of the profile mapping. */
  function ProfileEntry(bundleId: string, uuid: string): (r: string)
    ensures "<key>" <= r
    ensures '\n' !in r <==> '\n' !in bundleId && '\n' !in uuid
  {
    var r := "<key>" + bundleId + "</key><string>" + uuid + "</string>";
    assert r[..5] == "<key>";
    assert '\n' !in r ==> '\n' !in bundleId && '\n' !in uuid by {
      if '\n' in bundleId {
        var i :| 0 <= i < |bundleId| && bundleId[i] == '\n';
        assert r[5 + i] == '\n';
      }
      if '\n' in uuid {
        var i :| 0 <= i < |uuid| && uuid[i] == '\n';
        assert r[5 + |bundleId| + 14 + i] == '\n';
      }
    }
    r
  }

  // ---------------------------------------------------------------------
  // Reading the provisioning profiles

  /**
   * `security cms -D -i <profile>` as written: one command line that
   * `execa.commandSync` splits at spaces.
   */
  function SecurityLineAsWritten(profile: Path): string
  {
    "security cms -D -i " + Render(profile)
  }

  /** `execa.commandSync(line)`: the first word is the program, the rest its arguments. */
  function CommandSync(line: string): (r: Option<Command>)
    ensures r.Some? <==> Words(line) != []
    ensures r.Some? ==> [r.value.program] + r.value.args == Words(line) && r.value.cwd.None?
  {
    var ws := Words(line);
    if ws == [] then None else Some(Command(ws[0], ws[1..], None))
  }

  /** The command line as written: the three fixed words, then the words of the path. */
  lemma SecurityWords(x: string)
    ensures Words("security cms -D -i " + x) == ["security", "cms", "-D", "-i"] + Words(x)
  {
    SecurityLineSplits(x);
    SecurityWordsSpaceFree();
    WordsCons4("security", "cms", "-D", "-i", x);
  }

  /** Four leading words, each followed by a space, split off in order. */
  lemma WordsCons4(a: string, b: string, c: string, d: string, x: string)
    requires a != [] && b != [] && c != [] && d != []
    requires ' ' !in a && ' ' !in b && ' ' !in c && ' ' !in d
    ensures Words(a + " " + (b + " " + (c + " " + (d + " " + x)))) == [a, b, c, d] + Words(x)
  {
    WordsCons(d, x);
    WordsCons(c, d + " " + x);
    WordsCons(b, c + " " + (d + " " + x));
    WordsCons(a, b + " " + (c + " " + (d + " " + x)));
  }

  lemma SecurityWordsSpaceFree()
    ensures ' ' !in "security" && ' ' !in "cms" && ' ' !in "-D" && ' ' !in "-i"
  {
    assert "security"[0] == 's';
    assert "cms"[0] == 'c';
  }

  lemma SecurityLineSplits(x: string)
    ensures "security cms -D -i " + x == "security" + " " + ("cms" + " " + ("-D" + " " + ("-i" + " " + x)))
  {
    assert "security cms -D -i " == "security" + " " + "cms" + " " + "-D" + " " + "-i" + " ";
  }

  /** The command that the source's command line actually runs. */
  function SecurityCommandAsWritten(profile: Path): (cmd: Command)
    ensures cmd.program == "security" && cmd.args == ["cms", "-D", "-i"] + Words(Render(profile))
  {
    SecurityWords(Render(profile));
    CommandSync(SecurityLineAsWritten(profile)).value
  }

  /** `security cms -D -i <profile>` with the path passed as one argument. */
  function SecurityCommand(profile: Path): (cmd: Command)
    ensures cmd.program == "security" && |cmd.args| == 4 && cmd.args[3] == Render(profile)
    ensures cmd.cwd.None?
  {
    Command("security", ["cms", "-D", "-i", Render(profile)], None)
  }

  /**
   * The command line as written decodes the profile that was found exactly
   * when the path has no space in it.
   */
  lemma AsWrittenSecurityCommand(profile: Path)
    requires profile != []
    ensures SecurityCommandAsWritten(profile) == SecurityCommand(profile) <==> ' ' !in Render(profile)
  {
    var x := Render(profile);
    assert profile == Dirname(profile) + [Basename(profile)];
    RenderAppend(Dirname(profile), Basename(profile));
    assert x != [];
    WordsSingle(x);
    var w := SecurityCommandAsWritten(profile).args;
    if w == SecurityCommand(profile).args {
      assert w[3..] == Words(x);
      assert Words(x) == [x];
    }
  }

  /**
   * A scheme name with a space in it, such as "My App", puts a space into
   * the path of every profile inside the archive, so the command as written
   * never decodes the profile that was found.
   */
  lemma AsWrittenSchemeWithSpace(out: Path, c: IosConfig, rest: Path)
    requires ' ' in c.xcodeSchemeName
    ensures SecurityCommandAsWritten(ArchivePath(out, c) + rest) != SecurityCommand(ArchivePath(out, c) + rest)
  {
    var profile := ArchivePath(out, c) + rest;
    var name := profile[|out|];
    var j :| 0 <= j < |c.xcodeSchemeName| && c.xcodeSchemeName[j] == ' ';
    assert name == c.xcodeSchemeName + "-" + c.xcodeConfigName + ".xcarchive";
    assert name[j] == ' ';
    RenderHolds(profile, |out|, j);
    AsWrittenSecurityCommand(profile);
  }

  /** Every character of every component shows in the rendered path. */
  lemma {:induction false} RenderHolds(p: Path, i: nat, j: nat)
    requires i < |p| && j < |p[i]|
    ensures p[i][j] in Render(p)
    decreases |p|
  {
    var init := p[..|p| - 1];
    var r := Render(p);
    assert r == Render(init) + "/" + p[|p| - 1];
    if i == |p| - 1 {
      assert r[|Render(init)| + 1 + j] == p[i][j];
    } else {
      assert init[i] == p[i];
      RenderHolds(init, i, j);
      var k :| 0 <= k < |Render(init)| && Render(init)[k] == p[i][j];
      assert r[k] == p[i][j];
    }
  }

  // ---------------------------------------------------------------------
  // The profile mapping

  /** The contents of the Info.plist beside a profile, if it is a regular file. */
  function InfoPlistData(n: Node, profile: Path): (r: Option<string>)
    requires profile != []
    ensures r.Some? <==> IsFile(Lookup(n, InfoPlistPath(profile)))
  {
    match Lookup(n, InfoPlistPath(profile))
    case Some(File(d)) => Some(d)
    case _ => None
  }

  /**
   * The bundle identifier read for a profile; `bundleIdOf` stands for
   * parsing the binary Info.plist and taking `CFBundleIdentifier`, None
   * when that rejects.
   */
  function BundleIdFor(n: Node, profile: Path, bundleIdOf: string -> Option<string>): (r: Option<string>)
    requires profile != []
    ensures r.Some? ==> IsFile(Lookup(n, InfoPlistPath(profile)))
  {
    match InfoPlistData(n, profile)
    case None => None
    case Some(d) => bundleIdOf(d)
  }

  /**
   * The mapping line for one profile: None when its Info.plist cannot be
   * read, `security` fails, or `plist.parse` rejects its output (`uuidOf`).
   * A missing `UUID` key is not a rejection: `uuidOf` then gives the text
   * `undefined` that the template literal would show.
   */
  function EntryFor(n: Node, profile: Path, succeeds: Command -> bool,
                    bundleIdOf: string -> Option<string>, uuidOf: Command -> Option<string>): (r: Option<string>)
    requires profile != []
    ensures r.Some? <==> BundleIdFor(n, profile, bundleIdOf).Some? && succeeds(SecurityCommand(profile))
                         && uuidOf(SecurityCommand(profile)).Some?
    ensures r.Some? ==> r.value == ProfileEntry(BundleIdFor(n, profile, bundleIdOf).value, uuidOf(SecurityCommand(profile)).value)
  {
    match BundleIdFor(n, profile, bundleIdOf)
    case None => None
    case Some(b) =>
      var cmd := SecurityCommand(profile);
      if succeeds(cmd) && uuidOf(cmd).Some? then Some(ProfileEntry(b, uuidOf(cmd).value)) else None
  }

  /**
   * The `security` commands the mapping runs: one for each profile whose
   * Info.plist was read, whatever happens to the other profiles.
   */
  function SecurityRuns(n: Node, ps: seq<Path>, bundleIdOf: string -> Option<string>): (r: seq<Command>)
    requires NonEmptyPaths(ps)
    ensures |r| <= |ps|
    ensures forall k :: 0 <= k < |ps| ==> BundleIdFor(n, ps[k], bundleIdOf).Some? ==> SecurityCommand(ps[k]) in r
    ensures forall c :: c in r ==> exists k :: 0 <= k < |ps| && BundleIdFor(n, ps[k], bundleIdOf).Some? && c == SecurityCommand(ps[k])
    decreases |ps|
  {
    if ps == [] then []
    else
      var init := ps[..|ps| - 1];
      var last := ps[|ps| - 1];
      var rest := SecurityRuns(n, init, bundleIdOf);
      assert forall k :: 0 <= k < |init| ==> init[k] == ps[k];
      if BundleIdFor(n, last, bundleIdOf).Some? then rest + [SecurityCommand(last)] else rest
  }

  /**
   * `Promise.all` over the profiles: the lines of all of them, in search
   * order, or None as soon as one of them fails.
   */
  function Mapping(n: Node, ps: seq<Path>, succeeds: Command -> bool,
                   bundleIdOf: string -> Option<string>, uuidOf: Command -> Option<string>): (r: Option<seq<string>>)
    requires NonEmptyPaths(ps)
    ensures r.Some? <==> forall k :: 0 <= k < |ps| ==> EntryFor(n, ps[k], succeeds, bundleIdOf, uuidOf).Some?
    ensures r.Some? ==> |r.value| == |ps|
    ensures r.Some? ==> forall k :: 0 <= k < |ps| ==> r.value[k] == EntryFor(n, ps[k], succeeds, bundleIdOf, uuidOf).value
    decreases |ps|
  {
    if ps == [] then Some([])
    else
      var init := ps[..|ps| - 1];
      var last := ps[|ps| - 1];
      assert forall k :: 0 <= k < |init| ==> init[k] == ps[k];
      match Mapping(n, init, succeeds, bundleIdOf, uuidOf)
      case None => None
      case Some(es) =>
        match EntryFor(n, last, succeeds, bundleIdOf, uuidOf)
        case None => None
        case Some(e) => Some(es + [e])
  }

  // ---------------------------------------------------------------------
  // The export-options plist

  /** `${xcarchivePath}.export.plist`: beside the archive, named after it. */
  function ExportPlistPath(archive: Path): (r: Path)
    requires archive != []
    ensures Render(r) == Render(archive) + ".export.plist"
    ensures |r| == |archive| && Dirname(r) == Dirname(archive)
  {
    var r := Dirname(archive) + [Basename(archive) + ".export.plist"];
    RenderAppend(Dirname(archive), Basename(archive) + ".export.plist");
    assert archive == Dirname(archive) + [Basename(archive)];
    RenderAppend(Dirname(archive), Basename(archive));
    r
  }

  /** `Array.prototype.join`. */
  function JoinWith(xs: seq<string>, sep: string): string
    decreases |xs|
  {
    if xs == [] then ""
    else if |xs| == 1 then xs[0]
    else xs[0] + sep + JoinWith(xs[1..], sep)
  }

  const PlistHead := "\n<?xml version=\"1.0\" encoding=\"UTF-8\"?>\n<!DOCTYPE plist PUBLIC \"-//Apple//DTD PLIST 1.0//EN\" \"http://www.apple.com/DTDs/PropertyList-1.0.dtd\">\n<plist version=\"1.0\">\n<dict>\n  <key>method</key>\n  <string>app-store</string>\n  <key>signingStyle</key>\n  <string>manual</string>\n  <key>provisioningProfiles</key>\n  <dict>\n    "
  const PlistTail := "\n  </dict>\n</dict>\n</plist>"
  const EntrySeparator := "\n    "

  /** The export options: an App Store export with manual signing and the given profile mapping. */
  function ExportPlist(entries: seq<string>): (r: string)
    ensures |r| >= |PlistHead| + |PlistTail|
    ensures r[..|PlistHead|] == PlistHead && r[|r| - |PlistTail|..] == PlistTail
  {
    var r := PlistHead + JoinWith(entries, EntrySeparator) + PlistTail;
    assert r[..|PlistHead|] == PlistHead;
    r
  }

  predicate Lines(xs: seq<string>)
  {
    forall k :: 0 <= k < |xs| ==> xs[k] != [] && '\n' !in xs[k]
  }

  /** The text of the join is the first line followed by a newline and the rest. */
  lemma {:induction false} JoinWithSplit(xs: seq<string>)
    requires |xs| >= 2
    ensures JoinWith(xs, EntrySeparator) == xs[0] + "\n" + ("    " + JoinWith(xs[1..], EntrySeparator))
  {
  }

  /** The length of the first line of `s`: the index of its first newline, or |s| without one. */
  function LineLength(s: string): (i: nat)
    ensures i <= |s|
    ensures forall j :: 0 <= j < i ==> s[j] != '\n'
    ensures i < |s| ==> s[i] == '\n'
    decreases |s|
  {
    if s == [] || s[0] == '\n' then 0 else 1 + LineLength(s[1..])
  }

  lemma {:induction false} LineLengthOf(a: string, x: string)
    requires '\n' !in a
    ensures LineLength(a + "\n" + x) == |a|
    decreases |a|
  {
    if a != [] {
      assert (a + "\n" + x)[1..] == a[1..] + "\n" + x;
      LineLengthOf(a[1..], x);
    }
  }

  lemma LineLengthWhole(a: string)
    requires '\n' !in a
    ensures LineLength(a) == |a|
  {
  }

  /** The shape of a join: empty only for no lines, and its first line is the first element. */
  lemma JoinWithShape(xs: seq<string>)
    requires Lines(xs)
    ensures JoinWith(xs, EntrySeparator) == [] <==> xs == []
    ensures |xs| == 1 ==> JoinWith(xs, EntrySeparator) == xs[0] && LineLength(xs[0]) == |xs[0]|
    ensures |xs| >= 2 ==> LineLength(JoinWith(xs, EntrySeparator)) == |xs[0]| < |JoinWith(xs, EntrySeparator)|
  {
    if |xs| == 1 {
      LineLengthWhole(xs[0]);
    } else if |xs| >= 2 {
      JoinWithSplit(xs);
      LineLengthOf(xs[0], "    " + JoinWith(xs[1..], EntrySeparator));
    }
  }

  /** The joined lines determine the lines, as long as no line is empty or holds a newline. */
  lemma {:induction false} JoinWithInjective(xs: seq<string>, ys: seq<string>)
    requires Lines(xs) && Lines(ys)
    requires JoinWith(xs, EntrySeparator) == JoinWith(ys, EntrySeparator)
    ensures xs == ys
    decreases |xs|
  {
    JoinWithShape(xs);
    JoinWithShape(ys);
    if |xs| >= 2 {
      JoinWithSplit(xs);
      JoinWithSplit(ys);
      FirstLineAgrees(xs[0], ys[0], "    " + JoinWith(xs[1..], EntrySeparator), "    " + JoinWith(ys[1..], EntrySeparator));
      var tx, ty := JoinWith(xs[1..], EntrySeparator), JoinWith(ys[1..], EntrySeparator);
      assert tx == ("    " + tx)[4..] == ("    " + ty)[4..] == ty;
      JoinWithInjective(xs[1..], ys[1..]);
      assert xs == [xs[0]] + xs[1..];
      assert ys == [ys[0]] + ys[1..];
    }
  }

  /** Two texts `a + "\n" + x` and `b + "\n" + y` with newline-free `a`, `b` agree line by line. */
  lemma FirstLineAgrees(a: string, b: string, x: string, y: string)
    requires '\n' !in a && '\n' !in b && a + "\n" + x == b + "\n" + y
    ensures a == b && x == y
  {
    var s := a + "\n" + x;
    LineLengthOf(a, x);
    LineLengthOf(b, y);
    assert s == b + "\n" + y;
    assert a == s[..|a|] == b;
    assert x == s[|a| + 1..] == y;
  }

  /** The written export options determine the profile mapping they were made from. */
  lemma ExportPlistInjective(xs: seq<string>, ys: seq<string>)
    requires Lines(xs) && Lines(ys) && ExportPlist(xs) == ExportPlist(ys)
    ensures xs == ys
  {
    var a := JoinWith(xs, EntrySeparator);
    var b := JoinWith(ys, EntrySeparator);
    assert ExportPlist(xs) == PlistHead + a + PlistTail;
    assert ExportPlist(ys) == PlistHead + b + PlistTail;
    assert |a| == |b|;
    assert a == ExportPlist(xs)[|PlistHead|..|PlistHead| + |a|];
    assert b == ExportPlist(ys)[|PlistHead|..|PlistHead| + |b|];
    JoinWithInjective(xs, ys);
  }

  /** `xcodebuild -exportArchive ...`, run in the inherited working directory. */
  function ExportCommand(t: Task, c: IosConfig): (cmd: Command)
    ensures cmd.program == "xcodebuild" && cmd.cwd.None? && |cmd.args| == 7
    ensures cmd.args[0] == "-exportArchive"
    ensures cmd.args[1] == "-archivePath" && cmd.args[2] == Render(ArchivePath(t.outputDirectory, c))
    ensures cmd.args[3] == "-exportPath" && cmd.args[4] == Render(t.outputDirectory)
    ensures cmd.args[5] == "-exportOptionsPlist" && cmd.args[6] == Render(ArchivePath(t.outputDirectory, c)) + ".export.plist"
  {
    var archive := ArchivePath(t.outputDirectory, c);
    Command("xcodebuild",
      ["-exportArchive",
       "-archivePath", Render(archive),
       "-exportPath", Render(t.outputDirectory),
       "-exportOptionsPlist", Render(ExportPlistPath(archive))],
      None)
  }

  // ---------------------------------------------------------------------
  // The executor

  /** The Products directory of the archive the task builds. */
  function Products(t: Task, c: IosConfig): Path
  {
    ProfileSearchRoot(ArchivePath(t.outputDirectory, c))
  }

  /** The export options are written beside the archive, in the output directory. */
  function PlistPath(t: Task, c: IosConfig): (r: Path)
    ensures r != [] && Dirname(r) == t.outputDirectory
  {
    ExportPlistPath(ArchivePath(t.outputDirectory, c))
  }

  /** Everything the search returns names a path, never the root. */
  lemma FoundNonEmpty(n: Node, dir: Path, suffix: string)
    requires WF(n) && IsDir(Lookup(n, dir))
    ensures NonEmptyPaths(FoundAt(n, dir, suffix))
  {
    forall k | 0 <= k < |FoundAt(n, dir, suffix)|
      ensures FoundAt(n, dir, suffix)[k] != []
    {
      FoundAtSound(n, dir, suffix, k);
    }
  }

  /** CocoaPods, xcode-archive-cache and the archive step all succeed. */
  predicate Archived(t: Task, c: IosConfig, succeeds: Command -> bool)
  {
    succeeds(PodCommand(t)) && succeeds(InjectCommand(t)) && succeeds(ArchiveCommand(t, c))
  }

  /** The Products directory exists and every profile in it yields its mapping line. */
  predicate MappingReady(n: Node, t: Task, c: IosConfig, succeeds: Command -> bool,
                         bundleIdOf: string -> Option<string>, uuidOf: Command -> Option<string>)
  {
    IsDir(Lookup(n, Products(t, c)))
    && NonEmptyPaths(FoundAt(n, Products(t, c), ProfileSuffix))
    && Mapping(n, FoundAt(n, Products(t, c), ProfileSuffix), succeeds, bundleIdOf, uuidOf).Some?
  }

  /**
   * A completed build: pod, inject and archive, then what the export part
   * did: the `security` commands, the export options holding the mapping
   * line of every profile in search order, and the export.
   */
  ghost predicate Planned(n0: Node, n: Node, log: seq<Command>, t: Task, c: IosConfig, succeeds: Command -> bool,
                          bundleIdOf: string -> Option<string>, uuidOf: Command -> Option<string>)
  {
    |log| >= 3 && log[..3] == [PodCommand(t), InjectCommand(t), ArchiveCommand(t, c)]
    && Exported(n0, n, log[3..], t, c, succeeds, bundleIdOf, uuidOf)
  }

  /** The mapping and the `security` runs of one more profile. */
  lemma MappingStep(n: Node, ps: seq<Path>, i: nat, succeeds: Command -> bool,
                    bundleIdOf: string -> Option<string>, uuidOf: Command -> Option<string>)
    requires NonEmptyPaths(ps) && i < |ps|
    ensures NonEmptyPaths(ps[..i]) && NonEmptyPaths(ps[..i + 1])
    ensures SecurityRuns(n, ps[..i + 1], bundleIdOf)
            == SecurityRuns(n, ps[..i], bundleIdOf)
               + if BundleIdFor(n, ps[i], bundleIdOf).Some? then [SecurityCommand(ps[i])] else []
    ensures var m, e := Mapping(n, ps[..i], succeeds, bundleIdOf, uuidOf), EntryFor(n, ps[i], succeeds, bundleIdOf, uuidOf);
            Mapping(n, ps[..i + 1], succeeds, bundleIdOf, uuidOf)
            == if m.Some? && e.Some? then Some(m.value + [e.value]) else None
  {
    assert ps[..i + 1][..i] == ps[..i];
  }

  /**
   * The `Promise.all` over the profiles: reads each Info.plist beside a
   * profile and decodes the profile with `security`, returning the mapping
   * lines and the `security` commands run.
   */
  method ReadProfiles(fs: FileSystem, profiles: seq<Path>, succeeds: Command -> bool,
                      bundleIdOf: string -> Option<string>, uuidOf: Command -> Option<string>)
    returns (mapping: Option<seq<string>>, runs: seq<Command>)
    requires NonEmptyPaths(profiles)
    ensures mapping == Mapping(fs.root, profiles, succeeds, bundleIdOf, uuidOf)
    ensures runs == SecurityRuns(fs.root, profiles, bundleIdOf)
  {
    runs := [];
    var entries: seq<string> := [];
    var all := true;
    var i := 0;
    while i < |profiles|
      invariant 0 <= i <= |profiles|
      invariant runs == SecurityRuns(fs.root, profiles[..i], bundleIdOf)
      invariant all <==> Mapping(fs.root, profiles[..i], succeeds, bundleIdOf, uuidOf).Some?
      invariant all ==> entries == Mapping(fs.root, profiles[..i], succeeds, bundleIdOf, uuidOf).value
    {
      var p := profiles[i];
      MappingStep(fs.root, profiles, i, succeeds, bundleIdOf, uuidOf);
      var entry: Option<string> := None;
      var data := fs.ReadFile(InfoPlistPath(p));
      assert data == InfoPlistData(fs.root, p);
      if data.Some? {
        var bundleId := bundleIdOf(data.value);
        if bundleId.Some? {
          var cmd := SecurityCommand(p);
          runs := runs + [cmd];
          var uuid := uuidOf(cmd);
          if succeeds(cmd) && uuid.Some? {
            entry := Some(ProfileEntry(bundleId.value, uuid.value));
          }
        }
      }
      assert entry == EntryFor(fs.root, p, succeeds, bundleIdOf, uuidOf);
      if entry.Some? {
        entries := entries + [entry.value];
      } else {
        all := false;
      }
      i := i + 1;
    }
    assert profiles[..i] == profiles;
    mapping := if all then Some(entries) else None;
  }

  /**
   * `build` for iOS. `succeeds` says which commands exit successfully;
   * `bundleIdOf` reads the bundle identifier out of an Info.plist's bytes
   * and `uuidOf` the UUID out of what `security` prints, None where the
   * parser rejects. The commands' own effects on the filesystem are not
   * modelled: the archive is whatever the tree holds.
   */
  method BuildIos(fs: FileSystem, t: Task, c: IosConfig, succeeds: Command -> bool,
                  bundleIdOf: string -> Option<string>, uuidOf: Command -> Option<string>)
    returns (ok: bool, log: seq<Command>)
    requires fs.Valid()
    modifies fs
    ensures fs.Valid()
    ensures |log| >= 1 && log[0] == PodCommand(t)
    ensures succeeds(PodCommand(t)) ==> |log| >= 2 && log[1] == InjectCommand(t)
    ensures succeeds(PodCommand(t)) && succeeds(InjectCommand(t)) ==> |log| >= 3 && log[2] == ArchiveCommand(t, c)
    ensures !Archived(t, c, succeeds) ==> !ok && |log| <= 3 && fs.root == old(fs.root)
    ensures ok <==> Archived(t, c, succeeds) && MappingReady(old(fs.root), t, c, succeeds, bundleIdOf, uuidOf)
                    && IsDir(Lookup(old(fs.root), t.outputDirectory)) && !IsDir(Lookup(old(fs.root), PlistPath(t, c)))
                    && succeeds(ExportCommand(t, c))
    ensures ok ==> Planned(old(fs.root), fs.root, log, t, c, succeeds, bundleIdOf, uuidOf)
    ensures forall q :: Disjoint(q, PlistPath(t, c)) ==> Lookup(fs.root, q) == Lookup(old(fs.root), q)
  {
    log := [PodCommand(t)];
    if !succeeds(PodCommand(t)) {
      return false, log;
    }
    log := log + [InjectCommand(t)];
    if !succeeds(InjectCommand(t)) {
      return false, log;
    }
    log := [PodCommand(t), InjectCommand(t), ArchiveCommand(t, c)];
    if !succeeds(ArchiveCommand(t, c)) {
      return false, log;
    }
    var exported, runs := ExportArchive(fs, t, c, succeeds, bundleIdOf, uuidOf);
    log := log + runs;
    ok := exported;
    assert log[..3] == [PodCommand(t), InjectCommand(t), ArchiveCommand(t, c)] && log[3..] == runs;
  }

  /** What the part after the archive has done: the `security` runs, the export options, the export. */
  ghost predicate Exported(n0: Node, n: Node, runs: seq<Command>, t: Task, c: IosConfig, succeeds: Command -> bool,
                           bundleIdOf: string -> Option<string>, uuidOf: Command -> Option<string>)
  {
    MappingReady(n0, t, c, succeeds, bundleIdOf, uuidOf)
    && var profiles := FoundAt(n0, Products(t, c), ProfileSuffix);
       runs == SecurityRuns(n0, profiles, bundleIdOf) + [ExportCommand(t, c)]
       && Lookup(n, PlistPath(t, c))
          == Some(File(ExportPlist(Mapping(n0, profiles, succeeds, bundleIdOf, uuidOf).value)))
  }

  /**
   * The part of `build` after the archive: find the provisioning profiles,
   * read them, write the export options and export. `runs` are the
   * commands run on the way.
   */
  method ExportArchive(fs: FileSystem, t: Task, c: IosConfig, succeeds: Command -> bool,
                       bundleIdOf: string -> Option<string>, uuidOf: Command -> Option<string>)
    returns (ok: bool, runs: seq<Command>)
    requires fs.Valid()
    modifies fs
    ensures fs.Valid()
    ensures ok <==> MappingReady(old(fs.root), t, c, succeeds, bundleIdOf, uuidOf)
                    && IsDir(Lookup(old(fs.root), t.outputDirectory)) && !IsDir(Lookup(old(fs.root), PlistPath(t, c)))
                    && succeeds(ExportCommand(t, c))
    ensures ok ==> Exported(old(fs.root), fs.root, runs, t, c, succeeds, bundleIdOf, uuidOf)
    ensures forall q :: Disjoint(q, PlistPath(t, c)) ==> Lookup(fs.root, q) == Lookup(old(fs.root), q)
  {
    runs := [];
    var found := FindFilesRecursively(fs, Products(t, c), ProfileSuffix);
    if found.None? {
      return false, runs;
    }
    var profiles := found.value;
    FoundNonEmpty(fs.root, Products(t, c), ProfileSuffix);
    var mapping, securityRuns := ReadProfiles(fs, profiles, succeeds, bundleIdOf, uuidOf);
    runs := securityRuns;
    if mapping.None? {
      return false, runs;
    }
    var entries := mapping.value;
    var written := fs.WriteFile(PlistPath(t, c), ExportPlist(entries));
    if !written {
      return false, runs;
    }
    WrittenTarget(old(fs.root), PlistPath(t, c), ExportPlist(entries));
    forall q | Disjoint(q, PlistPath(t, c))
      ensures Lookup(fs.root, q) == Lookup(old(fs.root), q)
    {
      WrittenFrame(old(fs.root), PlistPath(t, c), ExportPlist(entries), q);
    }
    runs := runs + [ExportCommand(t, c)];
    ok := succeeds(ExportCommand(t, c));
  }
}

=== FILE: command_line.dfy ===
/**
 * `execa.commandSync(line)` turns one command line into a program and its
 * arguments by splitting at spaces; runs of spaces separate like one.
 */
module CommandLine {
  /** The characters of `s` up to its first space. */
  function FirstWord(s: string): (w: string)
    ensures w <= s && ' ' !in w
    ensures |w| < |s| ==> s[|w|] == ' '
    decreases |s|
  {
    if s == [] || s[0] == ' ' then [] else [s[0]] + FirstWord(s[1..])
  }

  /** The space-separated words of a line, in order. */
  function Words(s: string): (ws: seq<string>)
    ensures forall k :: 0 <= k < |ws| ==> ws[k] != [] && ' ' !in ws[k]
    decreases |s|
  {
    if s == [] then []
    else if s[0] == ' ' then Words(s[1..])
    else
      var w := FirstWord(s);
      [w] + Words(s[|w|..])
  }

  /** A line is one word exactly when it is non-empty and has no space. */
  lemma WordsSingle(s: string)
    ensures Words(s) == [s] <==> s != [] && ' ' !in s
  {
    var ws := Words(s);
    assert |ws| == 1 ==> ws[0] != [] && ' ' !in ws[0];
    if s != [] && ' ' !in s {
      FirstWordAll(s);
      assert s[|s|..] == [];
      assert Words(s) == [s] + Words([]);
    }
  }

  lemma {:induction false} FirstWordAll(s: string)
    requires ' ' !in s
    ensures FirstWord(s) == s
    decreases |s|
  {
    if s != [] {
      assert ' ' !in s[1..];
      FirstWordAll(s[1..]);
    }
  }

  /** A leading word followed by a space splits off. */
  lemma WordsCons(w: string, rest: string)
    requires w != [] && ' ' !in w
    ensures Words(w + " " + rest) == [w] + Words(rest)
  {
    var s := w + " " + rest;
    FirstWordPrefix(w, " " + rest);
    assert s == w + (" " + rest);
    assert s[|w|..] == " " + rest;
    assert (" " + rest)[1..] == rest;
  }

  lemma {:induction false} FirstWordPrefix(w: string, rest: string)
    requires ' ' !in w && rest != [] && rest[0] == ' '
    ensures FirstWord(w + rest) == w
    decreases |w|
  {
    if w == [] {
      assert w + rest == rest;
    } else {
      assert (w + rest)[1..] == w[1..] + rest;
      assert ' ' !in w[1..];
      FirstWordPrefix(w[1..], rest);
    }
  }
}

=== FILE: common.dfy ===
/**
 * The records the target executors receive, and the external commands they
 * run. A command's exit status is not computed here: every operation that
 * runs commands takes an oracle `succeeds` that says, for each command,
 * whether `execa` resolves (true) or rejects (false).
 */
module Common {
  import opened Wrappers
  import opened Paths

  /** The directories every target executor is given. */
  datatype Task = Task(projectDirectory: Path, outputDirectory: Path, cacheDirectory: Path)

  datatype Platform = Ios | Android

  /** The `platform` string passed to the React Native bundler. */
  function PlatformName(p: Platform): (s: string)
    ensures s == "ios" || s == "android"
  {
    match p
    case Ios => "ios"
    case Android => "android"
  }

  /** One `execa(program, args, {cwd})` invocation; None is the inherited working directory. */
  datatype Command = Command(program: string, args: seq<string>, cwd: Option<Path>)

  /** `${dir}/sub`: a working directory below the project. */
  function SubDir(dir: Path, sub: Name): (r: Path)
    ensures Render(r) == Join(Render(dir), sub)
    ensures |r| == |dir| + 1 && r[..|dir|] == dir && Basename(r) == sub
  {
    RenderAppend(dir, sub);
    dir + [sub]
  }
}

/**
 * The configuration records. `BarnIosConfig` and its code-signing part
 * follow src/config.ts; the Android and Expo records are not declared in
 * the files at hand and are reconstructed from the fields the executors
 * read.
 */
module Config {
  import opened Wrappers

  datatype Codesigning = Codesigning(signingIdentity: string, provisioningProfileName: string)

  datatype IosConfig = IosConfig(
    xcodeSchemeName: string,
    xcodeWorkspaceName: string,
    xcodeConfigName: string,
    codesigning: Option<Codesigning>)

  datatype AndroidArtifact = Apk | Aab

  datatype AndroidTarget = AndroidTarget(gradleTarget: string, artifacts: Option<seq<AndroidArtifact>>)

  datatype ExpoUpdateTarget = ExpoUpdateTarget(
    publicUrl: string,
    assetUrl: Option<string>,
    dumpAssetmap: Option<bool>,
    artifacts: seq<string>,
    expoTarget: string)
}

/** Reading an argument vector the way a command-line parser reads it. */
module Argv {
  import opened Wrappers

  /** The argument that follows the first occurrence of `flag`, if there is one. */
  function FlagValue(args: seq<string>, flag: string): Option<string>
    decreases |args|
  {
    if |args| < 2 then None
    else if args[0] == flag then Some(args[1])
    else FlagValue(args[1..], flag)
  }

  /** The first occurrence of the flag decides its value. */
  lemma {:induction false} FlagValueAt(args: seq<string>, flag: string, k: nat)
    requires k + 1 < |args| && args[k] == flag
    requires forall j :: 0 <= j < k ==> args[j] != flag
    ensures FlagValue(args, flag) == Some(args[k + 1])
    decreases k
  {
    if k > 0 {
      assert forall j :: 0 <= j < k - 1 ==> args[1..][j] == args[j + 1];
      FlagValueAt(args[1..], flag, k - 1);
    }
  }

  /** `args.includes(x)`. */
  predicate Includes(args: seq<string>, x: string)
  {
    exists k :: 0 <= k < |args| && args[k] == x
  }
}

=== FILE: copying.dfy ===
/**
 * A sequence of `fs.copyFileSync(src, dst)` calls made from a `forEach`:
 * the copies happen in order and the first one that throws ends the run,
 * leaving the copies made before it in place.
 */
module Copying {
  import opened Paths
  import opened FileTree

  datatype Route = Route(src: Path, dst: Path)

  predicate Routable(routes: seq<Route>)
  {
    forall k :: 0 <= k < |routes| ==> routes[k].dst != []
  }

  /** The tree after the run and whether every copy succeeded. */
  function CopyRun(n: Node, routes: seq<Route>): (Node, bool)
    requires Routable(routes)
    decreases |routes|
  {
    if routes == [] then (n, true)
    else match Copied(n, routes[0].src, routes[0].dst)
      case None => (n, false)
      case Some(m) => CopyRun(m, routes[1..])
  }

  /** The copies run one after the other; the first failure stops the rest. */
  method CopyEach(fs: FileSystem, routes: seq<Route>) returns (ok: bool)
    requires fs.Valid() && Routable(routes)
    modifies fs
    ensures fs.Valid()
    ensures (fs.root, ok) == CopyRun(old(fs.root), routes)
  {
    var i := 0;
    while i < |routes|
      invariant 0 <= i <= |routes| && fs.Valid()
      invariant CopyRun(fs.root, routes[i..]) == CopyRun(old(fs.root), routes)
    {
      assert routes[i..][1..] == routes[i + 1..];
      var copied := fs.CopyFile(routes[i].src, routes[i].dst);
      if !copied {
        return false;
      }
      i := i + 1;
    }
    return true;
  }

  /** A run that writes only away from q leaves q as it was. */
  lemma {:induction false} CopyRunFrame(n: Node, routes: seq<Route>, q: Path)
    requires Routable(routes)
    requires forall k :: 0 <= k < |routes| ==> Disjoint(routes[k].dst, q)
    ensures Lookup(CopyRun(n, routes).0, q) == Lookup(n, q)
    decreases |routes|
  {
    if routes != [] {
      match Copied(n, routes[0].src, routes[0].dst)
      case None =>
      case Some(m) =>
        WrittenFrame(n, routes[0].dst, Lookup(n, routes[0].src).value.data, q);
        CopyRunFrame(m, routes[1..], q);
    }
  }

  lemma {:induction false} CopyRunWF(n: Node, routes: seq<Route>)
    requires WF(n) && Routable(routes)
    ensures WF(CopyRun(n, routes).0)
    decreases |routes|
  {
    if routes != [] {
      match Copied(n, routes[0].src, routes[0].dst)
      case None =>
      case Some(m) =>
        WrittenWF(n, routes[0].dst, Lookup(n, routes[0].src).value.data);
        CopyRunWF(m, routes[1..]);
    }
  }

  /** Sources never lie on a destination, and two destinations are equal or disjoint. */
  ghost predicate Separated(routes: seq<Route>)
  {
    (forall j, k :: 0 <= j < |routes| && 0 <= k < |routes| ==> Disjoint(routes[j].src, routes[k].dst)) &&
    (forall j, k :: 0 <= j < |routes| && 0 <= k < |routes| ==>
       routes[j].dst == routes[k].dst || Disjoint(routes[j].dst, routes[k].dst))
  }

  /**
   * When the run succeeds, each destination holds what the last copy
   * made to it read from its source: later copies to the same name win.
   */
  lemma {:induction false} CopyRunLastWins(n: Node, routes: seq<Route>, k: nat)
    requires Routable(routes) && Separated(routes) && CopyRun(n, routes).1
    requires k < |routes|
    requires forall j :: k < j < |routes| ==> routes[j].dst != routes[k].dst
    ensures Lookup(CopyRun(n, routes).0, routes[k].dst) == Lookup(n, routes[k].src)
    decreases |routes|
  {
    var r := routes[0];
    assert Copied(n, r.src, r.dst).Some?;
    var m := Copied(n, r.src, r.dst).value;
    var rest := routes[1..];
    SeparatedTail(routes);
    if k == 0 {
      FirstCopyKept(n, routes);
    } else {
      assert rest[k - 1] == routes[k];
      assert forall j :: k - 1 < j < |rest| ==> rest[j].dst != rest[k - 1].dst by {
        forall j | k - 1 < j < |rest| ensures rest[j].dst != rest[k - 1].dst {
          assert rest[j] == routes[j + 1];
        }
      }
      CopyRunLastWins(m, rest, k - 1);
      WrittenFrame(n, r.dst, Lookup(n, r.src).value.data, routes[k].src);
    }
  }

  lemma SeparatedTail(routes: seq<Route>)
    requires routes != [] && Separated(routes)
    ensures Separated(routes[1..])
  {
    var rest := routes[1..];
    assert forall j :: 0 <= j < |rest| ==> rest[j] == routes[j + 1];
  }

  /** The first copy survives the rest of the run when no later copy writes to the same name. */
  lemma FirstCopyKept(n: Node, routes: seq<Route>)
    requires Routable(routes) && Separated(routes) && CopyRun(n, routes).1
    requires routes != []
    requires forall j :: 0 < j < |routes| ==> routes[j].dst != routes[0].dst
    ensures Lookup(CopyRun(n, routes).0, routes[0].dst) == Lookup(n, routes[0].src)
  {
    var r := routes[0];
    var m := Copied(n, r.src, r.dst).value;
    var rest := routes[1..];
    WrittenTarget(n, r.dst, Lookup(n, r.src).value.data);
    assert forall j :: 0 <= j < |rest| ==> Disjoint(rest[j].dst, r.dst) by {
      forall j | 0 <= j < |rest| ensures Disjoint(rest[j].dst, r.dst) {
        assert rest[j] == routes[j + 1];
      }
    }
    CopyRunFrame(m, rest, r.dst);
  }

  /** `dir` is a directory and nothing directly inside it is one. */
  ghost predicate FlatDir(n: Node, dir: Path)
  {
    IsDir(Lookup(n, dir)) && forall x :: !IsDir(Lookup(n, dir + [x]))
  }

  /**
   * Copying regular files from outside a flat directory into it always
   * succeeds, and the directory stays flat.
   */
  lemma {:induction false} CopyRunIntoFlatDir(n: Node, dir: Path, routes: seq<Route>)
    requires Routable(routes) && FlatDir(n, dir)
    requires forall k :: 0 <= k < |routes| ==> Dirname(routes[k].dst) == dir
    requires forall k :: 0 <= k < |routes| ==> IsFile(Lookup(n, routes[k].src)) && Disjoint(routes[k].src, dir)
    ensures CopyRun(n, routes).1 && FlatDir(CopyRun(n, routes).0, dir)
    decreases |routes|
  {
    if routes != [] {
      var r := routes[0];
      assert r.dst == dir + [Basename(r.dst)];
      var data := Lookup(n, r.src).value.data;
      WrittenSucceeds(n, r.dst, data);
      var m := Written(n, r.dst, data).value;
      WrittenAbove(n, r.dst, data, dir);
      WrittenTarget(n, r.dst, data);
      forall x ensures !IsDir(Lookup(m, dir + [x])) {
        if dir + [x] != r.dst {
          DisjointSameLength(r.dst, dir + [x]);
          WrittenFrame(n, r.dst, data, dir + [x]);
        }
      }
      var rest := routes[1..];
      forall k | 0 <= k < |rest|
        ensures IsFile(Lookup(m, rest[k].src)) && Disjoint(rest[k].src, dir)
      {
        assert rest[k] == routes[k + 1];
        DisjointBelow(rest[k].src, dir, r.dst);
        WrittenFrame(n, r.dst, data, rest[k].src);
      }
      CopyRunIntoFlatDir(m, dir, rest);
    }
  }

  /** A first copy whose destination has no parent directory throws before anything is written. */
  lemma CopyRunMissingParent(n: Node, routes: seq<Route>)
    requires Routable(routes) && routes != []
    requires !IsDir(Lookup(n, Dirname(routes[0].dst)))
    ensures CopyRun(n, routes) == (n, false)
  {
    match Lookup(n, routes[0].src)
    case Some(File(data)) => WrittenSucceeds(n, routes[0].dst, data);
    case _ =>
  }
}

=== FILE: decimal.dfy ===
/**
 * Decimal numerals: the way a template literal shows a non-negative
 * integer, and the reading back of such a numeral.
 */
module Decimal {
  predicate IsDigit(c: char)
  {
    '0' <= c <= '9'
  }

  /** A non-empty run of decimal digits. */
  predicate IsNumeral(s: string)
  {
    |s| > 0 && forall k :: 0 <= k < |s| ==> IsDigit(s[k])
  }

  function DigitChar(d: nat): (c: char)
    requires d < 10
    ensures IsDigit(c)
  {
    "0123456789"[d]
  }

  function DigitValue(c: char): (d: nat)
    requires IsDigit(c)
    ensures d < 10
  {
    (c as int - '0' as int) as nat
  }

  lemma DigitRoundTrip(d: nat)
    requires d < 10
    ensures DigitValue(DigitChar(d)) == d
  {
  }

  /** `${n}` for a non-negative integer n: its digits, no leading zero. */
  function NatToString(n: nat): (s: string)
    ensures IsNumeral(s)
    ensures s[0] == '0' ==> n == 0
    decreases n
  {
    if n < 10 then [DigitChar(n)]
    else
      var t := NatToString(n / 10);
      assert IsNumeral(t + [DigitChar(n % 10)]) by {
        assert forall k :: 0 <= k < |t| ==> (t + [DigitChar(n % 10)])[k] == t[k];
      }
      t + [DigitChar(n % 10)]
  }

  /** The number a run of digits denotes. */
  function Value(s: string): nat
    requires forall k :: 0 <= k < |s| ==> IsDigit(s[k])
    decreases |s|
  {
    if s == [] then 0 else 10 * Value(s[..|s| - 1]) + DigitValue(s[|s| - 1])
  }

  /** Reading a numeral back gives the number it shows. */
  lemma {:induction false} ValueOfNatToString(n: nat)
    ensures Value(NatToString(n)) == n
    decreases n
  {
    if n >= 10 {
      var t := NatToString(n / 10);
      var s := t + [DigitChar(n % 10)];
      assert s[..|s| - 1] == t;
      ValueOfNatToString(n / 10);
      DigitRoundTrip(n % 10);
    } else {
      DigitRoundTrip(n);
    }
  }

  /** Different numbers are shown differently. */
  lemma NatToStringInjective(a: nat, b: nat)
    ensures NatToString(a) == NatToString(b) ==> a == b
  {
    ValueOfNatToString(a);
    ValueOfNatToString(b);
  }
}

=== FILE: expo_update.dfy ===
/** The `expo export` invocation of src/tasks/build-expo-update.ts. */
module ExpoUpdate {
  import opened Wrappers
  import opened Paths
  import opened Common
  import opened Config
  import opened Argv

  /** `config.assetUrl ? ... : ...`: an absent or empty asset URL is not passed. */
  function AssetUrlOverride(c: ExpoUpdateTarget): (r: seq<string>)
    ensures |r| == (if c.assetUrl.Some? && c.assetUrl.value != "" then 2 else 0)
  {
    if c.assetUrl.Some? && c.assetUrl.value != "" then ["-a", c.assetUrl.value] else []
  }

  /** `config.dumpAssetmap ? ['-d'] : []`. */
  function AssetmapOverride(c: ExpoUpdateTarget): (r: seq<string>)
    ensures |r| == (if c.dumpAssetmap == Some(true) then 1 else 0)
  {
    if c.dumpAssetmap == Some(true) then ["-d"] else []
  }

  /** `config.artifacts.includes('sourcemaps') ? ['-s'] : []`. */
  function SourcemapOverride(c: ExpoUpdateTarget): (r: seq<string>)
    ensures |r| == (if Includes(c.artifacts, "sourcemaps") then 1 else 0)
  {
    if Includes(c.artifacts, "sourcemaps") then ["-s"] else []
  }

  function ExportArgs(out: Path, c: ExpoUpdateTarget): (args: seq<string>)
    ensures |args| == 9 + |AssetUrlOverride(c)| + |AssetmapOverride(c)| + |SourcemapOverride(c)|
    ensures args[|args| - 1] == "--force"
  {
    ["expo", "export", "-p", c.publicUrl]
      + AssetUrlOverride(c) + AssetmapOverride(c) + SourcemapOverride(c)
      + ["--target", c.expoTarget, "--output-dir", Render(out), "--force"]
  }

  /** `yarn expo export ...`, run in the project directory. */
  function ExportCommand(t: Task, c: ExpoUpdateTarget): (cmd: Command)
    ensures cmd.program == "yarn" && cmd.cwd == Some(t.projectDirectory)
    ensures cmd.args == ExportArgs(t.outputDirectory, c)
  {
    Command("yarn", ExportArgs(t.outputDirectory, c), Some(t.projectDirectory))
  }

  /**
   * `buildExpoUpdate`: one `expo export` run. It rejects when the export
   * fails and otherwise resolves `true`.
   */
  method BuildExpoUpdate(t: Task, c: ExpoUpdateTarget, succeeds: Command -> bool)
    returns (ok: bool, log: seq<Command>)
    ensures log == [ExportCommand(t, c)]
    ensures ok <==> succeeds(log[0])
  {
    var cmd := ExportCommand(t, c);
    log := [cmd];
    ok := succeeds(cmd);
  }

  /** What `expo export` is asked to do. */
  datatype ExportRequest = ExportRequest(
    publicUrl: string,
    assetUrl: Option<string>,
    dumpAssetmap: bool,
    sourcemaps: bool,
    expoTarget: string,
    outputDir: string)

  /** Takes a leading `-a <url>`. */
  function TakeAssetUrl(r: seq<string>): (Option<string>, seq<string>)
  {
    if |r| >= 2 && r[0] == "-a" then (Some(r[1]), r[2..]) else (None, r)
  }

  /** Takes a leading stand-alone flag. */
  function TakeSwitch(r: seq<string>, flag: string): (bool, seq<string>)
  {
    if r != [] && r[0] == flag then (true, r[1..]) else (false, r)
  }

  /** Reads the flags back in the fixed order the executor writes them. */
  function ParseExportArgs(args: seq<string>): Option<ExportRequest>
  {
    if |args| < 4 || args[..3] != ["expo", "export", "-p"] then None
    else
      var (a, r1) := TakeAssetUrl(args[4..]);
      var (d, r2) := TakeSwitch(r1, "-d");
      var (s, r3) := TakeSwitch(r2, "-s");
      if |r3| == 5 && r3[0] == "--target" && r3[2] == "--output-dir" && r3[4] == "--force" then
        Some(ExportRequest(args[3], a, d, s, r3[1], r3[3]))
      else None
  }

  lemma TakeAssetUrlOverride(c: ExpoUpdateTarget, rest: seq<string>)
    requires rest != [] && rest[0] in {"-d", "-s", "--target"}
    ensures TakeAssetUrl(AssetUrlOverride(c) + rest)
         == (if c.assetUrl.Some? && c.assetUrl.value != "" then c.assetUrl else None, rest)
  {
    var A := AssetUrlOverride(c);
    assert (A + rest)[|A|..] == rest;
  }

  lemma TakeSwitchOverride(o: seq<string>, flag: string, rest: seq<string>)
    requires o == [] || o == [flag]
    requires rest != [] && rest[0] != flag
    ensures TakeSwitch(o + rest, flag) == (o != [], rest)
  {
    assert (o + rest)[|o|..] == rest;
  }

  /**
   * The arguments carry the configuration faithfully: the asset URL when
   * it is a non-empty string, `-d` exactly when dumpAssetmap is true, `-s`
   * exactly when the artifacts include sourcemaps, and the output directory.
   */
  lemma ParseExportArgsRoundTrip(out: Path, c: ExpoUpdateTarget)
    ensures ParseExportArgs(ExportArgs(out, c)) == Some(ExportRequest(
      c.publicUrl,
      if c.assetUrl.Some? && c.assetUrl.value != "" then c.assetUrl else None,
      c.dumpAssetmap == Some(true),
      Includes(c.artifacts, "sourcemaps"),
      c.expoTarget,
      Render(out)))
  {
    var A, D, S := AssetUrlOverride(c), AssetmapOverride(c), SourcemapOverride(c);
    var tail := ["--target", c.expoTarget, "--output-dir", Render(out), "--force"];
    ExportArgsShape(out, c);
    TakeSwitchOverride(S, "-s", tail);
    TakeSwitchOverride(D, "-d", S + tail);
    TakeAssetUrlOverride(c, D + S + tail);
  }

  /** The fixed head, the public URL, then the optional flags and the fixed tail. */
  lemma ExportArgsShape(out: Path, c: ExpoUpdateTarget)
    ensures var args := ExportArgs(out, c);
            var A, D, S := AssetUrlOverride(c), AssetmapOverride(c), SourcemapOverride(c);
            |args| >= 4 && args[..3] == ["expo", "export", "-p"] && args[3] == c.publicUrl
            && args[4..] == A + (D + S + ["--target", c.expoTarget, "--output-dir", Render(out), "--force"])
  {
    var A, D, S := AssetUrlOverride(c), AssetmapOverride(c), SourcemapOverride(c);
    var head := ["expo", "export", "-p", c.publicUrl];
    var rest := A + (D + S + ["--target", c.expoTarget, "--output-dir", Render(out), "--force"]);
    assert ExportArgs(out, c) == head + rest;
    assert (head + rest)[4..] == rest;
  }

  /** The position after the public URL says which optional flag comes first. */
  lemma ExportArgsOptionalFlags(out: Path, c: ExpoUpdateTarget)
    ensures var args := ExportArgs(out, c);
            (args[4] == "-a" <==> c.assetUrl.Some? && c.assetUrl.value != "") &&
            (args[4] == "--target" <==> |AssetUrlOverride(c) + AssetmapOverride(c) + SourcemapOverride(c)| == 0)
  {
  }
}

=== FILE: filetree.dfy ===
/**
 * The filesystem that fs-extra operates on, as a tree. A directory lists its
 * entries in readdir order; a well-formed tree never lists a name twice in
 * one directory. The functions give the effect of `remove`, `mkdirp` and
 * `writeFile`/`copyFileSync` on the tree; class FileSystem holds the tree as
 * mutable state and performs them.
 */
module FileTree {
  import opened Wrappers
  import opened Paths

  datatype Node = File(data: string) | Dir(entries: seq<Entry>)
  datatype Entry = Entry(name: Name, node: Node)

  predicate IsFile(o: Option<Node>)
  {
    o.Some? && o.value.File?
  }

  predicate IsDir(o: Option<Node>)
  {
    o.Some? && o.value.Dir?
  }

  /** Position of the first entry called `name`, or |es| when there is none. */
  function IndexOf(es: seq<Entry>, name: Name): (i: nat)
    ensures i <= |es|
    ensures i < |es| ==> es[i].name == name
    ensures forall j :: 0 <= j < i ==> es[j].name != name
  {
    if es == [] then 0
    else if es[0].name == name then 0
    else 1 + IndexOf(es[1..], name)
  }

  /** The first-occurrence conditions determine IndexOf. */
  lemma IndexOfIs(es: seq<Entry>, name: Name, k: nat)
    requires k <= |es|
    requires k < |es| ==> es[k].name == name
    requires forall j :: 0 <= j < k ==> es[j].name != name
    ensures IndexOf(es, name) == k
  {
  }

  ghost predicate Unique(es: seq<Entry>)
  {
    forall i, j :: 0 <= i < j < |es| ==> es[i].name != es[j].name
  }

  /** Every directory of the tree lists each name at most once. */
  ghost predicate WF(n: Node)
  {
    match n
    case File(_) => true
    case Dir(es) => Unique(es) && forall k :: 0 <= k < |es| ==> WF(es[k].node)
  }

  lemma IndexOfUnique(es: seq<Entry>, k: nat)
    requires Unique(es) && k < |es|
    ensures IndexOf(es, es[k].name) == k
  {
    IndexOfIs(es, es[k].name, k);
  }

  /** The entry called `name` directly inside `n`. */
  function Child(n: Node, name: Name): Option<Node>
  {
    match n
    case File(_) => None
    case Dir(es) =>
      var i := IndexOf(es, name);
      if i < |es| then Some(es[i].node) else None
  }

  /** What `stat` finds at path `p` below `n`. */
  function Lookup(n: Node, p: Path): Option<Node>
    decreases p
  {
    if p == [] then Some(n)
    else match Child(n, p[0])
      case None => None
      case Some(c) => Lookup(c, p[1..])
  }

  lemma {:induction false} LookupConcat(n: Node, p: Path, q: Path)
    ensures Lookup(n, p + q) == match Lookup(n, p) case None => None case Some(m) => Lookup(m, q)
    decreases p
  {
    if p == [] {
      assert p + q == q;
    } else {
      assert (p + q)[0] == p[0] && (p + q)[1..] == p[1..] + q;
      match Child(n, p[0])
      case None =>
      case Some(c) => LookupConcat(c, p[1..], q);
    }
  }

  lemma LookupAppend(n: Node, p: Path, name: Name)
    ensures Lookup(n, p + [name]) == match Lookup(n, p) case None => None case Some(m) => Child(m, name)
  {
    LookupConcat(n, p, [name]);
  }

  /** An existing path is reached through directories only. */
  lemma {:induction false} LookupThroughDirs(n: Node, p: Path, q: Path)
    requires Lookup(n, p).Some? && q < p
    ensures IsDir(Lookup(n, q))
    decreases p
  {
    if q != [] {
      var c := Child(n, p[0]).value;
      assert q[1..] < p[1..];
      LookupThroughDirs(c, p[1..], q[1..]);
    } else {
      assert Child(n, p[0]).Some?;
    }
  }

  /** The number of directory levels in a tree: a bound on the length of any path in it. */
  function Height(n: Node): nat
    decreases n
  {
    match n
    case File(_) => 0
    case Dir(es) => 1 + MaxHeight(es)
  }

  function MaxHeight(es: seq<Entry>): (h: nat)
    ensures forall k :: 0 <= k < |es| ==> Height(es[k].node) <= h
    decreases es
  {
    if es == [] then 0
    else
      var last := Height(es[|es| - 1].node);
      var rest := MaxHeight(es[..|es| - 1]);
      assert forall k :: 0 <= k < |es| - 1 ==> es[k] == es[..|es| - 1][k];
      if last < rest then rest else last
  }

  lemma {:induction false} LookupDepth(n: Node, p: Path)
    requires Lookup(n, p).Some?
    ensures |p| + Height(Lookup(n, p).value) <= Height(n)
    decreases p
  {
    if p != [] {
      LookupDepth(Child(n, p[0]).value, p[1..]);
    }
  }

  /** Every subtree of a well-formed tree is well formed. */
  lemma {:induction false} LookupWF(n: Node, p: Path)
    requires WF(n) && Lookup(n, p).Some?
    ensures WF(Lookup(n, p).value)
    decreases p
  {
    if p != [] {
      LookupWF(Child(n, p[0]).value, p[1..]);
    }
  }

  /** In a well-formed tree, joining a listed name onto a directory reaches that entry. */
  lemma LookupListed(n: Node, p: Path, k: nat)
    requires WF(n) && IsDir(Lookup(n, p)) && k < |Lookup(n, p).value.entries|
    ensures var e := Lookup(n, p).value.entries[k];
            Lookup(n, p + [e.name]) == Some(e.node)
  {
    LookupWF(n, p);
    LookupAppend(n, p, Lookup(n, p).value.entries[k].name);
    IndexOfUnique(Lookup(n, p).value.entries, k);
  }

  /** The last entry of a directory listing, seen against the entries before it. */
  lemma ChildSnoc(init: seq<Entry>, e: Entry, x: Name)
    requires Unique(init + [e])
    ensures Child(Dir(init + [e]), e.name) == Some(e.node)
    ensures x != e.name ==> Child(Dir(init + [e]), x) == Child(Dir(init), x)
    ensures Child(Dir(init), x).Some? ==> x != e.name
  {
    var es := init + [e];
    assert forall j :: 0 <= j < |init| ==> es[j] == init[j];
    IndexOfIs(es, e.name, |init|);
    var k := IndexOf(init, x);
    if k < |init| {
      IndexOfIs(es, x, k);
    } else if x != e.name {
      IndexOfIs(es, x, |es|);
    }
  }

  /** The entries before the last one, and the last one's node, are well formed. */
  lemma WFSnoc(init: seq<Entry>, e: Entry)
    requires WF(Dir(init + [e]))
    ensures WF(Dir(init)) && WF(e.node)
  {
    var es := init + [e];
    assert es[|init|] == e;
    assert forall k :: 0 <= k < |init| ==> init[k] == es[k];
  }

  /** Adding a last entry leaves what the earlier entries lead to alone. */
  lemma LookupSnocEarlier(init: seq<Entry>, e: Entry, rel: Path)
    requires Unique(init + [e]) && rel != [] && Lookup(Dir(init), rel).Some?
    ensures Lookup(Dir(init + [e]), rel) == Lookup(Dir(init), rel)
  {
    ChildSnoc(init, e, rel[0]);
  }

  /** A path through the last entry leads into that entry's node. */
  lemma LookupSnocLast(init: seq<Entry>, e: Entry, rest: Path)
    requires Unique(init + [e])
    ensures Lookup(Dir(init + [e]), [e.name] + rest) == Lookup(e.node, rest)
  {
    ChildSnoc(init, e, e.name);
    assert ([e.name] + rest)[1..] == rest;
  }

  /** A path below the last entry's name is looked up inside that entry. */
  lemma LookupThroughLast(dir: Path, init: seq<Entry>, e: Entry, r: Path)
    requires Unique(init + [e])
    requires |dir| < |r| && r[..|dir| + 1] == dir + [e.name]
    ensures Lookup(Dir(init + [e]), r[|dir|..]) == Lookup(e.node, r[|dir| + 1..])
  {
    var rest := r[|dir| + 1..];
    assert r[|dir|..] == [e.name] + rest;
    LookupSnocLast(init, e, rest);
  }

  // ---------------------------------------------------------------------
  // How the child lookup reacts to the three ways an entry list changes.

  /** Replacing an entry by one of the same name leaves every name's position alone. */
  lemma IndexOfUpdated(es: seq<Entry>, i: nat, e: Entry, x: Name)
    requires i < |es| && e.name == es[i].name
    ensures IndexOf(es[i := e], x) == IndexOf(es, x)
  {
    IndexOfIs(es[i := e], x, IndexOf(es, x));
  }

  lemma ChildUpdated(es: seq<Entry>, name: Name, c: Node, x: Name)
    requires IndexOf(es, name) < |es|
    ensures Child(Dir(es[IndexOf(es, name) := Entry(name, c)]), x)
         == if x == name then Some(c) else Child(Dir(es), x)
  {
    var i := IndexOf(es, name);
    var es' := es[i := Entry(name, c)];
    IndexOfIs(es', x, IndexOf(es, x));
  }

  lemma ChildAppended(es: seq<Entry>, name: Name, c: Node, x: Name)
    requires IndexOf(es, name) == |es|
    ensures Child(Dir(es + [Entry(name, c)]), x) == if x == name then Some(c) else Child(Dir(es), x)
  {
    var es' := es + [Entry(name, c)];
    var k := IndexOf(es, x);
    if x == name {
      IndexOfIs(es', x, |es|);
    } else if k < |es| {
      IndexOfIs(es', x, k);
    } else {
      IndexOfIs(es', x, |es'|);
    }
  }

  lemma RemovedAt(es: seq<Entry>, i: nat)
    requires i < |es|
    ensures |es[..i] + es[i + 1..]| == |es| - 1
    ensures forall j :: 0 <= j < |es| - 1 ==> (es[..i] + es[i + 1..])[j] == if j < i then es[j] else es[j + 1]
  {
  }

  /** Two paths that share their first component are disjoint exactly when their tails are. */
  lemma DisjointTails(p: Path, q: Path)
    requires p != [] && q != [] && p[0] == q[0] && Disjoint(p, q)
    ensures Disjoint(p[1..], q[1..])
  {
    assert p == [p[0]] + p[1..] && q == [q[0]] + q[1..];
  }

  /** `r` is `es` with entry i dropped and the others kept in order. */
  ghost predicate DroppedAt(es: seq<Entry>, r: seq<Entry>, i: nat)
  {
    i < |es| && |r| == |es| - 1
    && (forall j :: 0 <= j < i ==> r[j] == es[j])
    && (forall j :: i <= j < |r| ==> r[j] == es[j + 1])
  }

  lemma DroppedAtRemoved(es: seq<Entry>, i: nat)
    requires i < |es|
    ensures DroppedAt(es, es[..i] + es[i + 1..], i)
  {
  }

  /** Dropping an entry after a name's first occurrence leaves that occurrence in place. */
  lemma IndexOfKept(es: seq<Entry>, r: seq<Entry>, i: nat, x: Name)
    requires DroppedAt(es, r, i) && IndexOf(es, x) < i
    ensures IndexOf(r, x) == IndexOf(es, x)
  {
    var k := IndexOf(es, x);
    assert forall j :: 0 <= j <= k ==> r[j] == es[j];
    IndexOfIs(r, x, k);
  }

  /** Dropping an entry before a name's first occurrence moves it one place earlier. */
  lemma IndexOfShifted(es: seq<Entry>, r: seq<Entry>, i: nat, x: Name)
    requires DroppedAt(es, r, i) && es[i].name != x && i <= IndexOf(es, x)
    ensures IndexOf(r, x) == IndexOf(es, x) - 1
  {
    var k := IndexOf(es, x);
    assert forall j :: 0 <= j < k - 1 ==> r[j].name != x;
    IndexOfIs(r, x, k - 1);
  }

  /** Dropping the entry of another name leaves what a name leads to alone. */
  lemma ChildDropped(es: seq<Entry>, r: seq<Entry>, i: nat, x: Name)
    requires DroppedAt(es, r, i) && es[i].name != x
    ensures Child(Dir(r), x) == Child(Dir(es), x)
  {
    var k := IndexOf(es, x);
    if k < i {
      IndexOfKept(es, r, i, x);
      assert r[k] == es[k];
    } else {
      IndexOfShifted(es, r, i, x);
      if k < |es| {
        assert r[k - 1] == es[k];
      }
    }
  }

  lemma ChildRemoved(es: seq<Entry>, name: Name, x: Name)
    requires Unique(es) && IndexOf(es, name) < |es|
    ensures var i := IndexOf(es, name);
            Child(Dir(es[..i] + es[i + 1..]), x) == if x == name then None else Child(Dir(es), x)
  {
    var i := IndexOf(es, name);
    var es' := es[..i] + es[i + 1..];
    if x == name {
      RemovedAt(es, i);
      assert forall j :: 0 <= j < |es'| ==> es'[j].name != x by {
        forall j | 0 <= j < |es'| ensures es'[j].name != x {
          assert es'[j] == if j < i then es[j] else es[j + 1];
        }
      }
      IndexOfIs(es', x, |es'|);
    } else {
      ChildRemovedAny(es, name, x);
    }
  }

  // ---------------------------------------------------------------------
  // fse.remove: the entry at p disappears; a missing path is not an error.

  function Removed(n: Node, p: Path): Node
    requires p != []
    decreases p
  {
    match n
    case File(_) => n
    case Dir(es) =>
      var i := IndexOf(es, p[0]);
      if i == |es| then n
      else if |p| == 1 then Dir(es[..i] + es[i + 1..])
      else Dir(es[i := Entry(p[0], Removed(es[i].node, p[1..]))])
  }

  lemma {:induction false} RemovedFrame(n: Node, p: Path, q: Path)
    requires p != [] && Disjoint(p, q)
    ensures Lookup(Removed(n, p), q) == Lookup(n, q)
    decreases p
  {
    match n
    case File(_) =>
    case Dir(es) =>
      var i := IndexOf(es, p[0]);
      if i < |es| {
        if |p| == 1 {
          ChildRemovedAny(es, p[0], q[0]);
        } else {
          ChildUpdated(es, p[0], Removed(es[i].node, p[1..]), q[0]);
          if q[0] == p[0] {
            DisjointTails(p, q);
            RemovedFrame(es[i].node, p[1..], q[1..]);
          }
        }
      }
  }

  /** Removing one entry leaves the lookup of every other name unchanged. */
  lemma ChildRemovedAny(es: seq<Entry>, name: Name, x: Name)
    requires IndexOf(es, name) < |es| && x != name
    ensures var i := IndexOf(es, name);
            Child(Dir(es[..i] + es[i + 1..]), x) == Child(Dir(es), x)
  {
    var i := IndexOf(es, name);
    DroppedAtRemoved(es, i);
    ChildDropped(es, es[..i] + es[i + 1..], i, x);
  }

  lemma {:induction false} RemovedGone(n: Node, p: Path)
    requires p != [] && WF(n)
    ensures Lookup(Removed(n, p), p) == None
    decreases p
  {
    match n
    case File(_) =>
    case Dir(es) =>
      var i := IndexOf(es, p[0]);
      if i < |es| {
        if |p| == 1 {
          ChildRemoved(es, p[0], p[0]);
        } else {
          ChildUpdated(es, p[0], Removed(es[i].node, p[1..]), p[0]);
          RemovedGone(es[i].node, p[1..]);
        }
      }
  }

  /** The directories above a removed path stay what they were. */
  lemma {:induction false} RemovedAbove(n: Node, p: Path, q: Path)
    requires q < p
    ensures IsFile(Lookup(Removed(n, p), q)) == IsFile(Lookup(n, q))
    ensures Lookup(n, q).Some? ==> Lookup(Removed(n, p), q).Some?
    decreases p
  {
    match n
    case File(_) =>
    case Dir(es) =>
      var i := IndexOf(es, p[0]);
      if i < |es| && q != [] {
        assert q[0] == p[0] && |p| > 1;
        ChildUpdated(es, p[0], Removed(es[i].node, p[1..]), q[0]);
        assert q[1..] < p[1..];
        RemovedAbove(es[i].node, p[1..], q[1..]);
      }
  }

  lemma {:induction false} RemovedWF(n: Node, p: Path)
    requires p != [] && WF(n)
    ensures WF(Removed(n, p))
    decreases p
  {
    match n
    case File(_) =>
    case Dir(es) =>
      var i := IndexOf(es, p[0]);
      if i < |es| {
        if |p| == 1 {
          WFRemovedAt(es, i);
        } else {
          RemovedWF(es[i].node, p[1..]);
          WFUpdated(es, i, Entry(p[0], Removed(es[i].node, p[1..])));
        }
      }
  }

  /** Replacing an entry by a well-formed one of the same name keeps the directory well formed. */
  lemma WFUpdated(es: seq<Entry>, i: nat, e: Entry)
    requires WF(Dir(es)) && i < |es| && e.name == es[i].name && WF(e.node)
    ensures WF(Dir(es[i := e]))
  {
  }

  /** Dropping an entry keeps the directory well formed. */
  lemma WFRemovedAt(es: seq<Entry>, i: nat)
    requires WF(Dir(es)) && i < |es|
    ensures WF(Dir(es[..i] + es[i + 1..]))
  {
    RemovedAt(es, i);
  }

  // ---------------------------------------------------------------------
  // fse.mkdirp: create every missing directory on the path.

  /** A chain of new, otherwise empty directories along p. */
  function Chain(p: Path): Node
    decreases p
  {
    if p == [] then Dir([]) else Dir([Entry(p[0], Chain(p[1..]))])
  }

  function Made(n: Node, p: Path): Option<Node>
    decreases p
  {
    match n
    case File(_) => None
    case Dir(es) =>
      if p == [] then Some(n)
      else
        var i := IndexOf(es, p[0]);
        if i == |es| then Some(Dir(es + [Entry(p[0], Chain(p[1..]))]))
        else match Made(es[i].node, p[1..])
          case None => None
          case Some(c) => Some(Dir(es[i := Entry(p[0], c)]))
  }

  /** No node on the path, the path itself included, is a regular file. */
  ghost predicate NoFileOn(n: Node, p: Path)
  {
    forall k :: 0 <= k <= |p| ==> !IsFile(Lookup(n, p[..k]))
  }

  /** mkdirp succeeds exactly when no file stands in the way. */
  lemma {:induction false} MadeSucceeds(n: Node, p: Path)
    ensures Made(n, p).Some? <==> NoFileOn(n, p)
    decreases p
  {
    assert p[..0] == [];
    match n
    case File(_) =>
    case Dir(es) =>
      if p != [] {
        var i := IndexOf(es, p[0]);
        forall k | 1 <= k <= |p|
          ensures Lookup(n, p[..k]) == match Child(n, p[0]) case None => None case Some(c) => Lookup(c, p[1..][..k - 1])
        {
          assert p[..k][0] == p[0] && p[..k][1..] == p[1..][..k - 1];
        }
        if i < |es| {
          var c := es[i].node;
          MadeSucceeds(c, p[1..]);
          if NoFileOn(c, p[1..]) {
            forall k | 0 <= k <= |p| ensures !IsFile(Lookup(n, p[..k])) {
              if k > 0 { assert !IsFile(Lookup(c, p[1..][..k - 1])); }
            }
          } else {
            var k' :| 0 <= k' <= |p[1..]| && IsFile(Lookup(c, p[1..][..k']));
            assert IsFile(Lookup(n, p[..k' + 1]));
          }
        }
      }
  }

  lemma {:induction false} LookupChain(p: Path, q: Path)
    ensures Lookup(Chain(p), q).Some? <==> q <= p
    ensures q <= p ==> Lookup(Chain(p), q) == Some(Chain(p[|q|..]))
    decreases p
  {
    if q != [] && p != [] {
      if q[0] == p[0] {
        LookupChain(p[1..], q[1..]);
        assert q <= p <==> q[1..] <= p[1..];
        if q <= p { assert p[1..][|q[1..]|..] == p[|q|..]; }
      } else {
        assert !(q <= p);
      }
    }
  }

  lemma {:induction false} MadeFrame(n: Node, p: Path, q: Path)
    requires Made(n, p).Some? && Disjoint(p, q)
    ensures Lookup(Made(n, p).value, q) == Lookup(n, q)
    decreases p
  {
    match n
    case Dir(es) =>
      var i := IndexOf(es, p[0]);
      var same := q[0] == p[0];
      if i == |es| {
        ChildAppended(es, p[0], Chain(p[1..]), q[0]);
        if same {
          DisjointTails(p, q);
          LookupChain(p[1..], q[1..]);
        }
      } else {
        var c := Made(es[i].node, p[1..]).value;
        ChildUpdated(es, p[0], c, q[0]);
        if same {
          DisjointTails(p, q);
          MadeFrame(es[i].node, p[1..], q[1..]);
        }
      }
  }

  /** After mkdirp the path is a directory: the old one, or a new empty one. */
  lemma {:induction false} MadeTarget(n: Node, p: Path)
    requires Made(n, p).Some?
    ensures Lookup(Made(n, p).value, p) == if Lookup(n, p).Some? then Lookup(n, p) else Some(Dir([]))
    decreases p
  {
    match n
    case Dir(es) =>
      if p != [] {
        var i := IndexOf(es, p[0]);
        if i == |es| {
          ChildAppended(es, p[0], Chain(p[1..]), p[0]);
          LookupChain(p[1..], p[1..]);
        } else {
          var c := Made(es[i].node, p[1..]).value;
          ChildUpdated(es, p[0], c, p[0]);
          MadeTarget(es[i].node, p[1..]);
        }
      }
  }

  /** mkdirp leaves every directory above the path a directory. */
  lemma {:induction false} MadeAbove(n: Node, p: Path, q: Path)
    requires Made(n, p).Some? && q <= p
    ensures IsDir(Lookup(Made(n, p).value, q))
  {
    MadeTarget(n, p);
    if q < p {
      LookupThroughDirs(Made(n, p).value, p, q);
    } else {
      assert q == p;
      MadeSucceeds(n, p);
      assert p[..|p|] == p;
    }
  }

  /** mkdirp of an existing directory changes nothing. */
  lemma {:induction false} MadeExisting(n: Node, p: Path)
    requires IsDir(Lookup(n, p))
    ensures Made(n, p) == Some(n)
    decreases p
  {
    match n
    case Dir(es) =>
      if p != [] {
        var i := IndexOf(es, p[0]);
        MadeExisting(es[i].node, p[1..]);
        assert es[i := Entry(p[0], es[i].node)] == es;
      }
  }

  lemma {:induction false} ChainWF(p: Path)
    ensures WF(Chain(p))
    decreases p
  {
    if p != [] {
      ChainWF(p[1..]);
    }
  }

  lemma {:induction false} MadeWF(n: Node, p: Path)
    requires WF(n) && Made(n, p).Some?
    ensures WF(Made(n, p).value)
    decreases p
  {
    match n
    case Dir(es) =>
      if p != [] {
        var i := IndexOf(es, p[0]);
        if i == |es| {
          ChainWF(p[1..]);
        } else {
          MadeWF(es[i].node, p[1..]);
        }
      }
  }

  // ---------------------------------------------------------------------
  // fse.writeFile / the write half of fs.copyFileSync.

  function Written(n: Node, p: Path, data: string): Option<Node>
    requires p != []
    decreases p
  {
    match n
    case File(_) => None
    case Dir(es) =>
      var i := IndexOf(es, p[0]);
      if |p| == 1 then
        if i == |es| then Some(Dir(es + [Entry(p[0], File(data))]))
        else if es[i].node.Dir? then None
        else Some(Dir(es[i := Entry(p[0], File(data))]))
      else if i == |es| then None
      else match Written(es[i].node, p[1..], data)
        case None => None
        case Some(c) => Some(Dir(es[i := Entry(p[0], c)]))
  }

  /** A write succeeds exactly when the parent is a directory and the path is not one. */
  lemma {:induction false} WrittenSucceeds(n: Node, p: Path, data: string)
    requires p != []
    ensures Written(n, p, data).Some? <==> IsDir(Lookup(n, Dirname(p))) && !IsDir(Lookup(n, p))
    decreases p
  {
    match n
    case File(_) =>
    case Dir(es) =>
      var i := IndexOf(es, p[0]);
      if |p| > 1 {
        assert Dirname(p)[0] == p[0] && Dirname(p)[1..] == Dirname(p[1..]);
        if i < |es| {
          WrittenSucceeds(es[i].node, p[1..], data);
        }
      }
  }

  lemma {:induction false} WrittenTarget(n: Node, p: Path, data: string)
    requires p != [] && Written(n, p, data).Some?
    ensures Lookup(Written(n, p, data).value, p) == Some(File(data))
    decreases p
  {
    match n
    case Dir(es) =>
      var i := IndexOf(es, p[0]);
      if |p| == 1 {
        if i == |es| {
          ChildAppended(es, p[0], File(data), p[0]);
        } else {
          ChildUpdated(es, p[0], File(data), p[0]);
        }
      } else {
        var c := Written(es[i].node, p[1..], data).value;
        ChildUpdated(es, p[0], c, p[0]);
        WrittenTarget(es[i].node, p[1..], data);
      }
  }

  lemma {:induction false} WrittenFrame(n: Node, p: Path, data: string, q: Path)
    requires p != [] && Written(n, p, data).Some? && Disjoint(p, q)
    ensures Lookup(Written(n, p, data).value, q) == Lookup(n, q)
    decreases p
  {
    match n
    case Dir(es) =>
      var i := IndexOf(es, p[0]);
      var same := q[0] == p[0];
      if |p| == 1 {
        if i == |es| {
          ChildAppended(es, p[0], File(data), q[0]);
        } else {
          ChildUpdated(es, p[0], File(data), q[0]);
        }
      } else {
        var c := Written(es[i].node, p[1..], data).value;
        ChildUpdated(es, p[0], c, q[0]);
        if same {
          DisjointTails(p, q);
          WrittenFrame(es[i].node, p[1..], data, q[1..]);
        }
      }
  }

  /** Every directory above a written file is still a directory. */
  lemma WrittenAbove(n: Node, p: Path, data: string, q: Path)
    requires p != [] && Written(n, p, data).Some? && q < p
    ensures IsDir(Lookup(Written(n, p, data).value, q))
  {
    WrittenTarget(n, p, data);
    LookupThroughDirs(Written(n, p, data).value, p, q);
  }

  lemma {:induction false} WrittenWF(n: Node, p: Path, data: string)
    requires p != [] && WF(n) && Written(n, p, data).Some?
    ensures WF(Written(n, p, data).value)
    decreases p
  {
    match n
    case Dir(es) =>
      var i := IndexOf(es, p[0]);
      if |p| > 1 {
        WrittenWF(es[i].node, p[1..], data);
      }
  }

  /** fs.copyFileSync: the source must be a regular file; its data is written at dst. */
  function Copied(n: Node, src: Path, dst: Path): Option<Node>
    requires dst != []
  {
    match Lookup(n, src)
    case Some(File(data)) => Written(n, dst, data)
    case _ => None
  }

  /** The mutable filesystem that the modelled code reads and changes. */
  class FileSystem {
    var root: Node

    ghost predicate Valid()
      reads this
    {
      root.Dir? && WF(root)
    }

    constructor (root0: Node)
      requires root0.Dir? && WF(root0)
      ensures Valid() && root == root0
    {
      root := root0;
    }

    /** fs.readdirSync / fse.readdir: the names in `p`, in listing order. */
    function Readdir(p: Path): (r: Option<seq<Name>>)
      reads this
      ensures r.Some? <==> IsDir(Lookup(root, p))
      ensures r.Some? ==> |r.value| == |Lookup(root, p).value.entries|
      ensures r.Some? ==> forall k :: 0 <= k < |r.value| ==> r.value[k] == Lookup(root, p).value.entries[k].name
    {
      match Lookup(root, p)
      case Some(Dir(es)) => Some(seq(|es|, k requires 0 <= k < |es| => es[k].name))
      case _ => None
    }

    /** `stat(p).isDirectory()`. */
    function IsDirectory(p: Path): (r: bool)
      reads this
      ensures r <==> IsDir(Lookup(root, p))
    {
      match Lookup(root, p)
      case Some(Dir(_)) => true
      case _ => false
    }

    /** `readFile(p)`: the contents of a regular file; a directory or a missing path fails. */
    function ReadFile(p: Path): (r: Option<string>)
      reads this
      ensures r.Some? <==> IsFile(Lookup(root, p))
      ensures r.Some? ==> Lookup(root, p) == Some(File(r.value))
    {
      match Lookup(root, p)
      case Some(File(data)) => Some(data)
      case _ => None
    }

    method Remove(p: Path)
      requires Valid() && p != []
      modifies this
      ensures Valid() && root == Removed(old(root), p)
    {
      RemovedWF(root, p);
      root := Removed(root, p);
    }

    method Mkdirp(p: Path) returns (ok: bool)
      requires Valid()
      modifies this
      ensures Valid()
      ensures ok <==> Made(old(root), p).Some?
      ensures ok <==> NoFileOn(old(root), p)
      ensures root == if ok then Made(old(root), p).value else old(root)
    {
      MadeSucceeds(root, p);
      match Made(root, p)
      case None => ok := false;
      case Some(m) =>
        MadeWF(root, p);
        root := m;
        ok := true;
    }

    method CopyFile(src: Path, dst: Path) returns (ok: bool)
      requires Valid() && dst != []
      modifies this
      ensures Valid()
      ensures ok <==> Copied(old(root), src, dst).Some?
      ensures root == if ok then Copied(old(root), src, dst).value else old(root)
    {
      match Copied(root, src, dst)
      case None => ok := false;
      case Some(m) =>
        var data := Lookup(root, src).value.data;
        WrittenWF(root, dst, data);
        root := m;
        ok := true;
    }

    method WriteFile(p: Path, data: string) returns (ok: bool)
      requires Valid() && p != []
      modifies this
      ensures Valid()
      ensures ok <==> Written(old(root), p, data).Some?
      ensures ok <==> IsDir(Lookup(old(root), Dirname(p))) && !IsDir(Lookup(old(root), p))
      ensures root == if ok then Written(old(root), p, data).value else old(root)
    {
      WrittenSucceeds(root, p, data);
      match Written(root, p, data)
      case None => ok := false;
      case Some(m) =>
        WrittenWF(root, p, data);
        root := m;
        ok := true;
    }
  }
}

=== FILE: fsutil.dfy ===
/**
 * The two filesystem helpers of barn: `cleanDirectory`, which empties a
 * directory by removing and recreating it, and `findFilesRecursively`, a
 * depth-first search that returns the files whose own name ends with a
 * given suffix. The helpers exist twice in the repository, in src/util/fs.ts
 * and src/util.ts, with the same text; this module models them once.
 */
module FsUtil {
  import opened Wrappers
  import opened Paths
  import opened FileTree

  // ---------------------------------------------------------------------
  // cleanDirectory

  /** The tree after `fse.remove(p)` followed by `fse.mkdirp(p)`. */
  function Cleaned(n: Node, p: Path): Option<Node>
    requires p != []
  {
    Made(Removed(n, p), p)
  }

  /** No proper ancestor of p is a regular file. */
  ghost predicate NoFileAbove(n: Node, p: Path)
  {
    forall k :: 0 <= k < |p| ==> !IsFile(Lookup(n, p[..k]))
  }

  /** Cleaning succeeds exactly when no regular file stands above the directory. */
  lemma {:induction false} CleanedSucceeds(n: Node, p: Path)
    requires WF(n) && p != []
    ensures Cleaned(n, p).Some? <==> NoFileAbove(n, p)
  {
    var r := Removed(n, p);
    MadeSucceeds(r, p);
    RemovedGone(n, p);
    assert p[..|p|] == p;
    forall k | 0 <= k < |p|
      ensures IsFile(Lookup(r, p[..k])) == IsFile(Lookup(n, p[..k]))
    {
      RemovedAbove(n, p, p[..k]);
    }
  }

  /** After cleaning, the directory exists and has no entries. */
  lemma CleanedTarget(n: Node, p: Path)
    requires WF(n) && p != [] && Cleaned(n, p).Some?
    ensures Lookup(Cleaned(n, p).value, p) == Some(Dir([]))
  {
    RemovedGone(n, p);
    MadeTarget(Removed(n, p), p);
  }

  /** Cleaning touches nothing outside the directory and its ancestors. */
  lemma CleanedFrame(n: Node, p: Path, q: Path)
    requires p != [] && Cleaned(n, p).Some? && Disjoint(p, q)
    ensures Lookup(Cleaned(n, p).value, q) == Lookup(n, q)
  {
    RemovedFrame(n, p, q);
    MadeFrame(Removed(n, p), p, q);
  }

  lemma CleanedWF(n: Node, p: Path)
    requires WF(n) && p != [] && Cleaned(n, p).Some?
    ensures WF(Cleaned(n, p).value)
  {
    RemovedWF(n, p);
    MadeWF(Removed(n, p), p);
  }

  /** A chain of fresh directories is its own cleaning. */
  lemma {:induction false} CleanedChain(p: Path)
    requires p != []
    ensures Cleaned(Chain(p), p) == Some(Chain(p))
    decreases p
  {
    var e := Entry(p[0], Chain(p[1..]));
    assert IndexOf([e], p[0]) == 0;
    if |p| == 1 {
      assert Chain(p) == Dir([e]) && [e][..0] + [e][1..] == [];
      assert Removed(Chain(p), p) == Dir([]);
      assert IndexOf([], p[0]) == 0 && [] + [e] == [e];
    } else {
      var e' := Entry(p[0], Removed(Chain(p[1..]), p[1..]));
      assert Removed(Chain(p), p) == Dir([e']);
      assert IndexOf([e'], p[0]) == 0;
      CleanedChain(p[1..]);
      assert [e'][0 := e] == [e];
    }
  }

  /** Cleaning a path whose first component is absent appends a chain; cleaning again keeps it. */
  lemma CleanedTwiceAbsent(es: seq<Entry>, p: Path)
    requires p != [] && IndexOf(es, p[0]) == |es|
    ensures var m := Dir(es + [Entry(p[0], Chain(p[1..]))]);
            Cleaned(Dir(es), p) == Some(m) && Cleaned(m, p) == Some(m)
  {
    var e := Entry(p[0], Chain(p[1..]));
    var m := Dir(es + [e]);
    IndexOfIs(es + [e], p[0], |es|);
    if |p| == 1 {
      assert (es + [e])[..|es|] + (es + [e])[|es| + 1..] == es;
      assert Removed(m, p) == Dir(es);
    } else {
      CleanedChain(p[1..]);
      var e' := Entry(p[0], Removed(Chain(p[1..]), p[1..]));
      assert Removed(m, p) == Dir((es + [e])[|es| := e']);
      IndexOfUpdated(es + [e], |es|, e', p[0]);
      assert (es + [e])[|es| := e'][|es| := e] == es + [e];
    }
  }

  /** After removing the entry called `name` from a unique listing, the name is absent. */
  lemma RemovedNameAbsent(es: seq<Entry>, name: Name)
    requires Unique(es) && IndexOf(es, name) < |es|
    ensures var i := IndexOf(es, name);
            IndexOf(es[..i] + es[i + 1..], name) == |es| - 1
  {
    var i := IndexOf(es, name);
    var rest := es[..i] + es[i + 1..];
    RemovedAt(es, i);
    forall j | 0 <= j < |rest|
      ensures rest[j].name != name
    {
      assert rest[j] == if j < i then es[j] else es[j + 1];
    }
    IndexOfIs(rest, name, |rest|);
  }

  /** Cleaning a single name that is absent appends it as an empty directory. */
  lemma CleanedLeafAbsent(es: seq<Entry>, p: Path)
    requires |p| == 1 && IndexOf(es, p[0]) == |es|
    ensures Cleaned(Dir(es), p) == Some(Dir(es + [Entry(p[0], Dir([]))]))
  {
    assert Removed(Dir(es), p) == Dir(es);
    assert Chain(p[1..]) == Dir([]);
  }

  /** Removing the last entry of a listing gives back the entries before it. */
  lemma RemovedLast(es: seq<Entry>, e: Entry, p: Path)
    requires |p| == 1 && p[0] == e.name && IndexOf(es, e.name) == |es|
    ensures Removed(Dir(es + [e]), p) == Dir(es)
  {
    IndexOfIs(es + [e], p[0], |es|);
    assert (es + [e])[..|es|] + (es + [e])[|es| + 1..] == es;
  }

  /** Cleaning a last component that exists moves it, emptied, to the end of its directory. */
  lemma CleanedTwiceLeaf(es: seq<Entry>, p: Path)
    requires Unique(es) && |p| == 1 && IndexOf(es, p[0]) < |es|
    ensures var i := IndexOf(es, p[0]);
            var m := Dir(es[..i] + es[i + 1..] + [Entry(p[0], Dir([]))]);
            Cleaned(Dir(es), p) == Some(m) && Cleaned(m, p) == Some(m)
  {
    var i := IndexOf(es, p[0]);
    var rest := es[..i] + es[i + 1..];
    RemovedNameAbsent(es, p[0]);
    assert Removed(Dir(es), p) == Dir(rest);
    CleanedLeafAbsent(rest, p);
    var e := Entry(p[0], Dir([]));
    RemovedLast(rest, e, p);
  }

  /** Cleaning below an existing entry cleans inside that entry and nowhere else. */
  lemma CleanedInner(es: seq<Entry>, p: Path)
    requires |p| > 1 && IndexOf(es, p[0]) < |es|
    ensures var i := IndexOf(es, p[0]);
            Cleaned(Dir(es), p) == match Cleaned(es[i].node, p[1..])
              case None => None
              case Some(c1) => Some(Dir(es[i := Entry(p[0], c1)]))
  {
    var i := IndexOf(es, p[0]);
    var e0 := Entry(p[0], Removed(es[i].node, p[1..]));
    assert Removed(Dir(es), p) == Dir(es[i := e0]);
    IndexOfUpdated(es, i, e0, p[0]);
    match Cleaned(es[i].node, p[1..])
    case None =>
    case Some(c1) =>
      assert es[i := e0][i := Entry(p[0], c1)] == es[i := Entry(p[0], c1)];
  }

  lemma CleanedTwiceInner(es: seq<Entry>, p: Path)
    requires |p| > 1 && IndexOf(es, p[0]) < |es| && Cleaned(Dir(es), p).Some?
    requires var c := es[IndexOf(es, p[0])].node;
             Cleaned(c, p[1..]).Some? ==> Cleaned(Cleaned(c, p[1..]).value, p[1..]) == Cleaned(c, p[1..])
    ensures Cleaned(Cleaned(Dir(es), p).value, p) == Cleaned(Dir(es), p)
  {
    var i := IndexOf(es, p[0]);
    var c := es[i].node;
    CleanedInner(es, p);
    assert Cleaned(c, p[1..]).Some?;
    var c1 := Cleaned(c, p[1..]).value;
    var es1 := es[i := Entry(p[0], c1)];
    assert Cleaned(Dir(es), p) == Some(Dir(es1));
    IndexOfUpdated(es, i, Entry(p[0], c1), p[0]);
    assert IndexOf(es1, p[0]) == i && es1[i].node == c1;
    CleanedInner(es1, p);
    assert Cleaned(c1, p[1..]) == Some(c1);
    assert es1[i := Entry(p[0], c1)] == es1;
  }

  /** Cleaning a directory twice leaves the same tree as cleaning it once. */
  lemma {:induction false} CleanedTwice(n: Node, p: Path)
    requires WF(n) && p != [] && Cleaned(n, p).Some?
    ensures Cleaned(Cleaned(n, p).value, p) == Cleaned(n, p)
    decreases p
  {
    match n
    case Dir(es) =>
      var i := IndexOf(es, p[0]);
      if i == |es| {
        CleanedTwiceAbsent(es, p);
      } else if |p| == 1 {
        CleanedTwiceLeaf(es, p);
      } else {
        var c := es[i].node;
        if Cleaned(c, p[1..]).Some? {
          CleanedTwice(c, p[1..]);
        }
        CleanedTwiceInner(es, p);
      }
  }

  /** `cleanDirectory(dir)`: remove the directory, then create it again, empty. */
  method CleanDirectory(fs: FileSystem, dir: Path) returns (ok: bool)
    requires fs.Valid() && dir != []
    modifies fs
    ensures fs.Valid()
    ensures ok <==> NoFileAbove(old(fs.root), dir)
    ensures ok <==> Cleaned(old(fs.root), dir).Some?
    ensures ok ==> fs.root == Cleaned(old(fs.root), dir).value
    ensures ok ==> Lookup(fs.root, dir) == Some(Dir([]))
    ensures !ok ==> fs.root == Removed(old(fs.root), dir)
  {
    CleanedSucceeds(fs.root, dir);
    if Cleaned(fs.root, dir).Some? {
      CleanedTarget(fs.root, dir);
    }
    fs.Remove(dir);
    ok := fs.Mkdirp(dir);
  }

  // ---------------------------------------------------------------------
  // findFilesRecursively

  /**
   * The paths the search reports for the entries `es` of directory `dir`,
   * in readdir order: a subdirectory contributes its own results at its
   * position, a file contributes its path when its name ends with `suffix`.
   */
  function Found(dir: Path, es: seq<Entry>, suffix: string): seq<Path>
    decreases es
  {
    if es == [] then []
    else Found(dir, es[..|es| - 1], suffix) + FoundIn(dir, es[|es| - 1], suffix)
  }

  /** What one entry of directory `dir` contributes to the results. */
  function FoundIn(dir: Path, e: Entry, suffix: string): seq<Path>
    decreases e
  {
    match e.node
    case Dir(sub) => Found(dir + [e.name], sub, suffix)
    case File(_) => if EndsWith(e.name, suffix) then [dir + [e.name]] else []
  }

  /** The results for a listing are the results for its parts, in order. */
  lemma {:induction false} FoundSplit(dir: Path, a: seq<Entry>, b: seq<Entry>, suffix: string)
    ensures Found(dir, a + b, suffix) == Found(dir, a, suffix) + Found(dir, b, suffix)
    decreases b
  {
    if b == [] {
      assert a + b == a;
    } else {
      var b', ab := b[..|b| - 1], a + b;
      assert ab[..|ab| - 1] == a + b' && ab[|ab| - 1] == b[|b| - 1];
      FoundSplit(dir, a, b', suffix);
    }
  }

  /** Every reported path lies strictly below `dir` and its last component ends with the suffix. */
  lemma {:induction false} FoundBelow(dir: Path, es: seq<Entry>, suffix: string, r: Path)
    requires r in Found(dir, es, suffix)
    ensures |dir| < |r| && r[..|dir|] == dir
    ensures EndsWith(Basename(r), suffix)
    decreases es
  {
    var init, e := es[..|es| - 1], es[|es| - 1];
    if r in Found(dir, init, suffix) {
      FoundBelow(dir, init, suffix, r);
    } else {
      match e.node
      case Dir(sub) =>
        var d := dir + [e.name];
        FoundBelow(d, sub, suffix, r);
        assert r[..|dir|] == r[..|d|][..|dir|];
      case File(_) =>
        assert r == dir + [e.name];
    }
  }

  /**
   * Every reported path lies strictly below `dir`, names a regular file of
   * the tree (never a directory, whatever its name), and its own last
   * component ends with the suffix.
   */
  lemma {:induction false} FoundSound(dir: Path, es: seq<Entry>, suffix: string, r: Path)
    requires WF(Dir(es)) && r in Found(dir, es, suffix)
    ensures |dir| < |r| && r[..|dir|] == dir
    ensures IsFile(Lookup(Dir(es), r[|dir|..]))
    ensures EndsWith(Basename(r), suffix)
    decreases es
  {
    FoundBelow(dir, es, suffix, r);
    var init, e := es[..|es| - 1], es[|es| - 1];
    assert es == init + [e];
    WFSnoc(init, e);
    if r in Found(dir, init, suffix) {
      FoundSound(dir, init, suffix, r);
      LookupSnocEarlier(init, e, r[|dir|..]);
    } else {
      match e.node
      case Dir(sub) =>
        var d := dir + [e.name];
        assert r in Found(d, sub, suffix);
        FoundSound(d, sub, suffix, r);
        LookupThroughLast(dir, init, e, r);
      case File(_) =>
        assert r == dir + [e.name];
        LookupThroughLast(dir, init, e, r);
    }
  }

  lemma EmptyDirHoldsNothing(rel: Path)
    requires rel != []
    ensures Lookup(Dir([]), rel) == None
  {
  }

  /** Every regular file below `dir` whose own name ends with the suffix is reported. */
  lemma {:induction false} FoundComplete(dir: Path, es: seq<Entry>, suffix: string, rel: Path)
    requires WF(Dir(es)) && rel != []
    requires IsFile(Lookup(Dir(es), rel)) && EndsWith(Basename(rel), suffix)
    ensures dir + rel in Found(dir, es, suffix)
    decreases es
  {
    if es == [] {
      EmptyDirHoldsNothing(rel);
      assert false;
    } else {
      var init, e := es[..|es| - 1], es[|es| - 1];
      assert es == init + [e];
      WFSnoc(init, e);
      if rel[0] == e.name {
        var tail := rel[1..];
        assert rel == [e.name] + tail;
        LookupSnocLast(init, e, tail);
        match e.node
        case Dir(sub) =>
          assert tail != [];
          assert Basename(tail) == Basename(rel);
          FoundComplete(dir + [e.name], sub, suffix, tail);
          assert dir + [e.name] + tail == dir + rel;
        case File(_) =>
          assert tail == [];
          assert dir + rel == dir + [e.name];
      } else {
        ChildSnoc(init, e, rel[0]);
        assert Lookup(Dir(init), rel) == Lookup(Dir(es), rel);
        FoundComplete(dir, init, suffix, rel);
      }
    }
  }

  /**
   * `findFilesRecursively({dir, matching})` with `matching` a suffix test.
   * Reading a directory that does not exist, or is a file, rejects: None.
   */
  method FindFilesRecursively(fs: FileSystem, dir: Path, suffix: string) returns (r: Option<seq<Path>>)
    requires fs.Valid()
    ensures r.Some? <==> IsDir(Lookup(fs.root, dir))
    ensures r.Some? ==> r.value == Found(dir, Lookup(fs.root, dir).value.entries, suffix)
    decreases Height(fs.root) - |dir|
  {
    var items := fs.Readdir(dir);
    if items.None? {
      return None;
    }
    var names := items.value;
    ghost var es := Lookup(fs.root, dir).value.entries;
    LookupDepth(fs.root, dir);
    var files: seq<Path> := [];
    var i := 0;
    while i < |names|
      invariant 0 <= i <= |names| == |es|
      invariant files == Found(dir, es[..i], suffix)
    {
      var filepath := dir + [names[i]];
      LookupListed(fs.root, dir, i);
      var isDirectory := fs.IsDirectory(filepath);
      if isDirectory {
        var sub := FindFilesRecursively(fs, filepath, suffix);
        files := files + sub.value;
      } else if EndsWith(names[i], suffix) {
        files := files + [filepath];
      }
      assert es[..i + 1][..i] == es[..i];
      i := i + 1;
    }
    assert es[..i] == es;
    return Some(files);
  }

  /** The search result for directory `dir` of tree `n`. */
  function FoundAt(n: Node, dir: Path, suffix: string): seq<Path>
    requires IsDir(Lookup(n, dir))
  {
    Found(dir, Lookup(n, dir).value.entries, suffix)
  }

  /** Each result names a regular file of the whole tree, strictly below the searched directory. */
  lemma FoundAtSound(n: Node, dir: Path, suffix: string, k: nat)
    requires WF(n) && IsDir(Lookup(n, dir)) && k < |FoundAt(n, dir, suffix)|
    ensures var r := FoundAt(n, dir, suffix)[k];
            |dir| < |r| && r[..|dir|] == dir && IsFile(Lookup(n, r)) && EndsWith(Basename(r), suffix)
  {
    var r := FoundAt(n, dir, suffix)[k];
    LookupWF(n, dir);
    FoundSound(dir, Lookup(n, dir).value.entries, suffix, r);
    assert r == dir + r[|dir|..];
    LookupConcat(n, dir, r[|dir|..]);
  }
}

=== FILE: legacy.dfy ===
/**
 * The older entry point of src/index.ts: install the JavaScript
 * dependencies, recreate the output directory, build both JavaScript
 * bundles, then the native iOS archive and the Android APKs, which are
 * found by listing the whole `android` directory and copied flat into the
 * output directory.
 */
module Legacy {
  import opened Wrappers
  import opened Paths
  import opened FileTree
  import opened FsUtil
  import opened Copying
  import opened Common
  import opened Argv

  // ---------------------------------------------------------------------
  // iterateDir

  /**
   * Every path below `dir` for the entries `es`, in readdir order, each
   * directory's contents listed before the directory itself.
   */
  function Listed(dir: Path, es: seq<Entry>): seq<Path>
    decreases es
  {
    if es == [] then []
    else Listed(dir, es[..|es| - 1]) + ListedIn(dir, es[|es| - 1])
  }

  /** What one entry of directory `dir` contributes: its contents, then itself. */
  function ListedIn(dir: Path, e: Entry): seq<Path>
    decreases e
  {
    (match e.node
     case Dir(sub) => Listed(dir + [e.name], sub)
     case File(_) => [])
    + [dir + [e.name]]
  }

  /** Every listed path lies strictly below `dir`. */
  lemma {:induction false} ListedBelow(dir: Path, es: seq<Entry>, r: Path)
    requires r in Listed(dir, es)
    ensures |dir| < |r| && r[..|dir|] == dir
    decreases es
  {
    var init, e := es[..|es| - 1], es[|es| - 1];
    var d := dir + [e.name];
    if r in Listed(dir, init) {
      ListedBelow(dir, init, r);
    } else if r != d {
      match e.node
      case Dir(sub) =>
        ListedBelow(d, sub, r);
        assert r[..|dir|] == r[..|d|][..|dir|];
    }
  }

  /** Every listed path names an entry of the tree, file or directory. */
  lemma {:induction false} ListedSound(dir: Path, es: seq<Entry>, r: Path)
    requires WF(Dir(es)) && r in Listed(dir, es)
    ensures |dir| < |r| && r[..|dir|] == dir
    ensures Lookup(Dir(es), r[|dir|..]).Some?
    decreases es
  {
    ListedBelow(dir, es, r);
    var init, e := es[..|es| - 1], es[|es| - 1];
    assert es == init + [e];
    WFSnoc(init, e);
    var d := dir + [e.name];
    if r in Listed(dir, init) {
      ListedSound(dir, init, r);
      LookupSnocEarlier(init, e, r[|dir|..]);
    } else {
      match e.node
      case Dir(sub) =>
        if r != d {
          ListedSound(d, sub, r);
        }
        LookupThroughLast(dir, init, e, r);
      case File(_) =>
        LookupThroughLast(dir, init, e, r);
    }
  }

  /** Every entry below `dir`, directories included, is listed. */
  lemma {:induction false} ListedComplete(dir: Path, es: seq<Entry>, rel: Path)
    requires WF(Dir(es)) && rel != [] && Lookup(Dir(es), rel).Some?
    ensures dir + rel in Listed(dir, es)
    decreases es
  {
    if es == [] {
      EmptyDirHoldsNothing(rel);
      assert false;
    } else {
      var init, e := es[..|es| - 1], es[|es| - 1];
      assert es == init + [e];
      WFSnoc(init, e);
      if rel[0] == e.name {
        var tail := rel[1..];
        assert rel == [e.name] + tail;
        LookupSnocLast(init, e, tail);
        var d := dir + [e.name];
        match e.node
        case Dir(sub) =>
          if tail != [] {
            ListedComplete(d, sub, tail);
            assert d + tail == dir + rel;
          } else {
            assert dir + rel == d;
          }
        case File(_) =>
          assert tail == [];
          assert dir + rel == d;
      } else {
        ChildSnoc(init, e, rel[0]);
        assert Lookup(Dir(init), rel) == Lookup(Dir(es), rel);
        ListedComplete(dir, init, rel);
      }
    }
  }

  /** A path that lies inside another listed path comes before it. */
  predicate PostOrder(ps: seq<Path>)
  {
    forall i, j :: 0 <= i < |ps| && 0 <= j < |ps| && ps[i] < ps[j] ==> j < i
  }

  lemma PostOrderAppend(a: seq<Path>, b: seq<Path>)
    requires PostOrder(a) && PostOrder(b)
    requires forall i, j :: 0 <= i < |a| && 0 <= j < |b| ==> !(a[i] < b[j])
    ensures PostOrder(a + b)
  {
    var ab := a + b;
    forall i, j | 0 <= i < |ab| && 0 <= j < |ab| && ab[i] < ab[j]
      ensures j < i
    {
      if i < |a| && j < |a| {
        assert ab[i] == a[i] && ab[j] == a[j];
      } else if i >= |a| && j >= |a| {
        assert ab[i] == b[i - |a|] && ab[j] == b[j - |a|];
      }
    }
  }

  /** Nothing listed for the earlier entries lies above the last entry's paths. */
  lemma ListedBeforeLast(dir: Path, init: seq<Entry>, e: Entry, x: Path, y: Path)
    requires WF(Dir(init + [e])) && x in Listed(dir, init)
    requires |dir| < |y| && y[|dir|] == e.name
    ensures !(x < y)
  {
    var es := init + [e];
    assert WF(Dir(init)) by {
      assert forall k :: 0 <= k < |init| ==> init[k] == es[k];
    }
    ListedSound(dir, init, x);
    var rel := x[|dir|..];
    assert rel == [rel[0]] + rel[1..];
    ChildSnoc(init, e, rel[0]);
  }

  /** Every path listed below `d` starts with `d`. */
  lemma ListedBelowAll(d: Path, es: seq<Entry>)
    ensures forall p :: p in Listed(d, es) ==> |d| < |p| && p[..|d|] == d
  {
    forall p | p in Listed(d, es)
      ensures |d| < |p| && p[..|d|] == d
    {
      ListedBelow(d, es, p);
    }
  }

  /** An entry's own paths followed by the entry: in post-order, all through its name. */
  lemma EntryBlock(dir: Path, name: Name, sub: seq<Path>)
    requires PostOrder(sub)
    requires forall p :: p in sub ==> |dir + [name]| < |p| && p[..|dir + [name]|] == dir + [name]
    ensures PostOrder(sub + [dir + [name]])
    ensures forall i :: 0 <= i < |sub| + 1 ==>
              |dir| < |(sub + [dir + [name]])[i]| && (sub + [dir + [name]])[i][|dir|] == name
  {
    var d := dir + [name];
    forall i | 0 <= i < |sub|
      ensures !(sub[i] < d)
    {
      assert sub[i] in sub;
    }
    PostOrderAppend(sub, [d]);
    var block := sub + [d];
    forall i | 0 <= i < |block|
      ensures |dir| < |block[i]| && block[i][|dir|] == name
    {
      if i < |sub| {
        assert block[i] in sub;
        assert block[i][..|d|] == d;
      }
    }
  }

  /** The listing is in post-order: a directory follows everything inside it. */
  lemma {:induction false} ListedPostOrder(dir: Path, es: seq<Entry>)
    requires WF(Dir(es))
    ensures PostOrder(Listed(dir, es))
    decreases es
  {
    if es != [] {
      var init, e := es[..|es| - 1], es[|es| - 1];
      assert es == init + [e];
      WFSnoc(init, e);
      ListedPostOrder(dir, init);
      var d := dir + [e.name];
      var sub := match e.node case Dir(s) => Listed(d, s) case File(_) => [];
      assert PostOrder(sub) && forall p :: p in sub ==> |d| < |p| && p[..|d|] == d by {
        match e.node
        case Dir(s) =>
          ListedPostOrder(d, s);
          ListedBelowAll(d, s);
        case File(_) =>
      }
      EntryBlock(dir, e.name, sub);
      var a, block := Listed(dir, init), sub + [d];
      forall i, j | 0 <= i < |a| && 0 <= j < |block|
        ensures !(a[i] < block[j])
      {
        ListedBeforeLast(dir, init, e, a[i], block[j]);
      }
      PostOrderAppend(a, block);
      assert Listed(dir, es) == a + block;
    }
  }

  /**
   * `iterateDir(dir)`: every path below `dir`, post-order. Reading a path
   * that is not a directory throws: None.
   */
  method IterateDir(fs: FileSystem, dir: Path) returns (r: Option<seq<Path>>)
    requires fs.Valid()
    ensures r.Some? <==> IsDir(Lookup(fs.root, dir))
    ensures r.Some? ==> r.value == Listed(dir, Lookup(fs.root, dir).value.entries)
    decreases Height(fs.root) - |dir|
  {
    var items := fs.Readdir(dir);
    if items.None? {
      return None;
    }
    var names := items.value;
    ghost var es := Lookup(fs.root, dir).value.entries;
    LookupDepth(fs.root, dir);
    var files: seq<Path> := [];
    var i := 0;
    while i < |names|
      invariant 0 <= i <= |names| == |es|
      invariant files == Listed(dir, es[..i])
    {
      var filePath := dir + [names[i]];
      ghost var e := es[i];
      assert names[i] == e.name;
      LookupListed(fs.root, dir, i);
      ListedPrefix(dir, es, i);
      if fs.IsDirectory(filePath) {
        var sub := IterateDir(fs, filePath);
        assert sub.value == Listed(filePath, e.node.entries);
        files := files + sub.value;
      } else {
        assert e.node.File?;
      }
      files := files + [filePath];
      i := i + 1;
    }
    assert es[..i] == es;
    return Some(files);
  }

  /** The listing of the first `i + 1` entries extends that of the first `i`. */
  lemma ListedPrefix(dir: Path, es: seq<Entry>, i: nat)
    requires i < |es|
    ensures Listed(dir, es[..i + 1]) == Listed(dir, es[..i])
              + (match es[i].node
                 case Dir(sub) => Listed(dir + [es[i].name], sub)
                 case File(_) => [])
              + [dir + [es[i].name]]
  {
    assert es[..i + 1][..i] == es[..i];
  }

  /** The listing of directory `dir` of tree `n`. */
  function ListedAt(n: Node, dir: Path): seq<Path>
    requires IsDir(Lookup(n, dir))
  {
    Listed(dir, Lookup(n, dir).value.entries)
  }

  lemma {:induction false} ListedAtSound(n: Node, dir: Path, r: Path)
    requires WF(n) && IsDir(Lookup(n, dir)) && r in ListedAt(n, dir)
    ensures |dir| < |r| && r[..|dir|] == dir && Lookup(n, r).Some?
  {
    LookupWF(n, dir);
    var m := Lookup(n, dir).value;
    ListedSound(dir, m.entries, r);
    var rel := r[|dir|..];
    LookupBelow(n, dir, m, rel);
    assert dir + rel == r;
  }

  lemma LookupBelow(n: Node, dir: Path, m: Node, rel: Path)
    requires Lookup(n, dir) == Some(m) && Lookup(m, rel).Some?
    ensures Lookup(n, dir + rel).Some?
  {
    LookupConcat(n, dir, rel);
  }

  lemma {:induction false} ListedAtComplete(n: Node, dir: Path, r: Path)
    requires WF(n) && IsDir(Lookup(n, dir))
    requires |dir| < |r| && r[..|dir|] == dir && Lookup(n, r).Some?
    ensures r in ListedAt(n, dir)
  {
    LookupWF(n, dir);
    var rel := r[|dir|..];
    assert r == dir + rel;
    LookupConcat(n, dir, rel);
    ListedComplete(dir, Lookup(n, dir).value.entries, rel);
  }

  /** A path is listed exactly when it names an entry strictly below `dir`. */
  lemma ListedAtExactly(n: Node, dir: Path, r: Path)
    requires WF(n) && IsDir(Lookup(n, dir))
    ensures r in ListedAt(n, dir) <==> |dir| < |r| && r[..|dir|] == dir && Lookup(n, r).Some?
  {
    if r in ListedAt(n, dir) {
      ListedAtSound(n, dir, r);
    } else if |dir| < |r| && r[..|dir|] == dir && Lookup(n, r).Some? {
      ListedAtComplete(n, dir, r);
    }
  }

  // ---------------------------------------------------------------------
  // The Android artifacts

  /** `/\.apk$/.test(file)` on the whole path string. */
  predicate IsApkPath(p: Path)
  {
    EndsWith(Render(p), ".apk")
  }

  /** Testing the whole path is testing the entry's own name. */
  lemma ApkTestIsNameTest(p: Path)
    requires p != []
    ensures IsApkPath(p) <==> EndsWith(Basename(p), ".apk")
  {
    EndsWithRendered(p, ".apk");
  }

  /** The listed paths that pass the `.apk` test, in listing order. */
  function SelectApks(ps: seq<Path>): (r: seq<Path>)
    ensures |r| <= |ps|
    ensures forall p :: p in r <==> p in ps && IsApkPath(p)
    decreases |ps|
  {
    if ps == [] then []
    else
      var init := ps[..|ps| - 1];
      var rest := SelectApks(init);
      assert forall p :: p in ps <==> p in init || p == ps[|ps| - 1];
      if IsApkPath(ps[|ps| - 1]) then rest + [ps[|ps| - 1]] else rest
  }

  /**
   * A directory whose name ends with `.apk` is selected along with the
   * files: the test never asks what the entry is.
   */
  lemma ApkDirectorySelected(n: Node, android: Path, r: Path)
    requires WF(n) && IsDir(Lookup(n, android))
    requires |android| < |r| && r[..|android|] == android && IsDir(Lookup(n, r))
    requires EndsWith(Basename(r), ".apk")
    ensures r in SelectApks(ListedAt(n, android))
  {
    ListedAtExactly(n, android, r);
    ApkTestIsNameTest(r);
  }

  /** `${outputDirectory}/${path.basename(file)}` for every selected path. */
  function FlatRoutes(out: Path, ps: seq<Path>): (routes: seq<Route>)
    requires forall k :: 0 <= k < |ps| ==> ps[k] != []
    ensures |routes| == |ps| && Routable(routes)
    ensures forall k :: 0 <= k < |ps| ==> routes[k].src == ps[k] && routes[k].dst == out + [Basename(ps[k])]
  {
    seq(|ps|, k requires 0 <= k < |ps| => Route(ps[k], out + [Basename(ps[k])]))
  }

  /** Sources under the Android directory never touch destinations in a disjoint output directory. */
  lemma FlatRoutesSeparated(android: Path, out: Path, ps: seq<Path>)
    requires Disjoint(android, out)
    requires forall k :: 0 <= k < |ps| ==> |android| < |ps[k]| && ps[k][..|android|] == android
    ensures Separated(FlatRoutes(out, ps))
  {
    var routes := FlatRoutes(out, ps);
    forall j, k | 0 <= j < |routes| && 0 <= k < |routes|
      ensures Disjoint(routes[j].src, routes[k].dst)
    {
      DisjointBelow(android, out, routes[k].dst);
      assert android <= routes[j].src;
      DisjointBelow(routes[k].dst, android, routes[j].src);
    }
    forall j, k | 0 <= j < |routes| && 0 <= k < |routes|
      ensures routes[j].dst == routes[k].dst || Disjoint(routes[j].dst, routes[k].dst)
    {
      if routes[j].dst != routes[k].dst {
        DisjointSameLength(routes[j].dst, routes[k].dst);
      }
    }
  }

  /**
   * When the copy succeeds, `<out>/<name>` holds the last selected file
   * of that name: equal basenames overwrite one another in listing order.
   */
  lemma FlatCopyLastWins(n: Node, android: Path, out: Path, ps: seq<Path>, k: nat)
    requires Disjoint(android, out)
    requires forall j :: 0 <= j < |ps| ==> |android| < |ps[j]| && ps[j][..|android|] == android
    requires CopyRun(n, FlatRoutes(out, ps)).1
    requires k < |ps| && forall j :: k < j < |ps| ==> Basename(ps[j]) != Basename(ps[k])
    ensures Lookup(CopyRun(n, FlatRoutes(out, ps)).0, out + [Basename(ps[k])]) == Lookup(n, ps[k])
  {
    var routes := FlatRoutes(out, ps);
    FlatRoutesSeparated(android, out, ps);
    forall j | k < j < |routes|
      ensures routes[j].dst != routes[k].dst
    {
      assert routes[j].dst[|out|] == Basename(ps[j]);
    }
    CopyRunLastWins(n, routes, k);
  }

  /**
   * A selected directory makes `copyFileSync` throw when its turn comes,
   * so the copy of the artifacts fails.
   */
  lemma {:induction false} DirectoryBreaksCopy(n: Node, routes: seq<Route>, k: nat)
    requires Routable(routes) && Separated(routes)
    requires k < |routes| && IsDir(Lookup(n, routes[k].src))
    ensures !CopyRun(n, routes).1
    decreases k
  {
    var r := routes[0];
    match Copied(n, r.src, r.dst)
    case None =>
    case Some(m) =>
      var rest := routes[1..];
      assert k > 0;
      assert Separated(rest) by {
        assert forall j :: 0 <= j < |rest| ==> rest[j] == routes[j + 1];
      }
      WrittenFrame(n, r.dst, Lookup(n, r.src).value.data, routes[k].src);
      DirectoryBreaksCopy(m, rest, k - 1);
  }

  // ---------------------------------------------------------------------
  // The commands

  /** One effect of the legacy build, in the order it happens. */
  datatype Op = Run(cmd: Command) | RemoveDir(dir: Path) | MakeDir(dir: Path) | CopyApks(from: Path, to: Path)

  function Runs(cmds: seq<Command>): (ops: seq<Op>)
    ensures |ops| == |cmds| && forall k :: 0 <= k < |cmds| ==> ops[k] == Run(cmds[k])
  {
    seq(|cmds|, k requires 0 <= k < |cmds| => Run(cmds[k]))
  }

  /** Awaiting the commands one after the other: they run up to and including the first that fails. */
  function UntilFailure(cmds: seq<Command>, succeeds: Command -> bool): seq<Command>
    decreases |cmds|
  {
    if cmds == [] then []
    else [cmds[0]] + (if succeeds(cmds[0]) then UntilFailure(cmds[1..], succeeds) else [])
  }

  predicate AllOk(cmds: seq<Command>, succeeds: Command -> bool)
  {
    forall k :: 0 <= k < |cmds| ==> succeeds(cmds[k])
  }

  /**
   * The commands that run are a prefix of the list; every one but the last
   * succeeded, and the last failed unless all of them succeeded.
   */
  lemma {:induction false} UntilFailureRuns(cmds: seq<Command>, succeeds: Command -> bool)
    ensures var r := UntilFailure(cmds, succeeds);
            r <= cmds && (forall k :: 0 <= k < |r| - 1 ==> succeeds(r[k]))
            && (AllOk(cmds, succeeds) <==> r == cmds && AllOk(r, succeeds))
            && (!AllOk(cmds, succeeds) ==> r != [] && !succeeds(r[|r| - 1]))
    decreases |cmds|
  {
    if cmds != [] {
      UntilFailureRuns(cmds[1..], succeeds);
      var r := UntilFailure(cmds, succeeds);
      var t := UntilFailure(cmds[1..], succeeds);
      assert cmds == [cmds[0]] + cmds[1..];
      if succeeds(cmds[0]) {
        assert r == [cmds[0]] + t;
        assert AllOk(cmds, succeeds) <==> AllOk(cmds[1..], succeeds) by {
          if AllOk(cmds[1..], succeeds) {
            forall k | 0 <= k < |cmds| ensures succeeds(cmds[k]) {
              if k > 0 { assert cmds[k] == cmds[1..][k - 1]; }
            }
          }
        }
        assert AllOk(r, succeeds) <==> AllOk(t, succeeds) by {
          if AllOk(t, succeeds) {
            forall k | 0 <= k < |r| ensures succeeds(r[k]) {
              if k > 0 { assert r[k] == t[k - 1]; }
            }
          }
          if AllOk(r, succeeds) {
            forall k | 0 <= k < |t| ensures succeeds(t[k]) {
              assert t[k] == r[k + 1];
            }
          }
        }
      } else {
        assert r == [cmds[0]];
      }
    }
  }

  function YarnInstall(project: Path): Command
  {
    Command("yarn", ["install"], Some(project))
  }

  function YarnJetify(project: Path): Command
  {
    Command("yarn", ["jetify"], Some(project))
  }

  /** `beforeBuild`: `yarn install`, then `yarn jetify`, both in the project. */
  function BeforeCommands(project: Path): (r: seq<Command>)
    ensures |r| == 2 && r[0].args == ["install"] && r[1].args == ["jetify"]
    ensures forall k :: 0 <= k < 2 ==> r[k].program == "yarn" && r[k].cwd == Some(project)
  {
    [YarnInstall(project), YarnJetify(project)]
  }

  /** `${outputDirectory}/jsbundle-${platform}`. */
  function JsBundleDir(out: Path, p: Platform): (r: Path)
    ensures |r| == |out| + 1 && Dirname(r) == out
  {
    out + ["jsbundle-" + PlatformName(p)]
  }

  /** The two bundle directories are distinct children of the output directory. */
  lemma JsBundleDirsDisjoint(out: Path)
    ensures Disjoint(JsBundleDir(out, Ios), JsBundleDir(out, Android))
  {
    var a, b := JsBundleDir(out, Ios), JsBundleDir(out, Android);
    assert a[|out|][9] == 'i' && b[|out|][9] == 'a';
    DisjointSameLength(a, b);
  }

  function LegacyBundleArgs(out: Path, p: Platform): (args: seq<string>)
    ensures |args| == 12 && args[..2] == ["react-native", "bundle"]
  {
    var dir := JsBundleDir(out, p);
    ["react-native", "bundle",
     "--entry-file", "index.js",
     "--platform", PlatformName(p),
     "--dev", "false",
     "--bundle-output", Render(dir + ["main.jsbundle"]),
     "--assets-dest", Render(dir)]
  }

  /**
   * Both platforms write `main.jsbundle` into their own bundle directory,
   * which is also where the assets go.
   */
  lemma LegacyBundleArgsMeaning(out: Path, p: Platform)
    ensures var args := LegacyBundleArgs(out, p);
            FlagValue(args, "--platform") == Some(PlatformName(p))
            && FlagValue(args, "--bundle-output") == Some(Render(JsBundleDir(out, p) + ["main.jsbundle"]))
            && FlagValue(args, "--assets-dest") == Some(Render(JsBundleDir(out, p)))
  {
    var args := LegacyBundleArgs(out, p);
    assert forall j :: 0 <= j < 4 ==> args[j] != "--platform";
    FlagValueAt(args, "--platform", 4);
    assert forall j :: 0 <= j < 8 ==> args[j] != "--bundle-output" by {
      assert args[5] == "ios" || args[5] == "android";
    }
    FlagValueAt(args, "--bundle-output", 8);
    assert forall j :: 0 <= j < 10 ==> args[j] != "--assets-dest" by {
      assert args[5] == "ios" || args[5] == "android";
      RenderedIsAbsolute(JsBundleDir(out, p) + ["main.jsbundle"]);
    }
    FlagValueAt(args, "--assets-dest", 10);
  }

  /** `yarn react-native bundle ...`, run in the project. */
  function LegacyBundleCommand(project: Path, out: Path, p: Platform): (cmd: Command)
    ensures cmd.program == "yarn" && cmd.cwd == Some(project)
  {
    Command("yarn", LegacyBundleArgs(out, p), Some(project))
  }

  /** `buildNativeIos`: CocoaPods, the archive cache, and an archive of the fixed scheme "foo". */
  function NativeIosCommands(project: Path, out: Path, cache: Path): (r: seq<Command>)
    ensures |r| == 3 && r[0].program == "pod" && r[1].program == "bundle" && r[2].program == "xcodebuild"
    ensures forall k :: 0 <= k < 3 ==> r[k].cwd == Some(SubDir(project, "ios"))
    ensures |r[1].args| == 5 && r[1].args[4] == "--storage=" + Render(SubDir(cache, "xcode"))
    ensures |r[2].args| == 9 && r[2].args[8] == Render(out + ["foo.xcarchive"])
  {
    var ios := SubDir(project, "ios");
    [Command("pod", ["install"], Some(ios)),
     Command("bundle", ["exec", "xcode-archive-cache", "inject", "--configuration=Release",
                        "--storage=" + Render(SubDir(cache, "xcode"))], Some(ios)),
     Command("xcodebuild", ["-workspace", "foo", "-scheme", "foo", "archive",
                            "-configuration", "Release", "-archivePath", Render(out + ["foo.xcarchive"])], Some(ios))]
  }

  /** `./gradlew assembleRelease` in the project's `android` directory. */
  function LegacyGradleCommand(project: Path): (cmd: Command)
    ensures cmd.program == "./gradlew" && cmd.args == ["assembleRelease"]
    ensures cmd.cwd == Some(SubDir(project, "android"))
  {
    Command("./gradlew", ["assembleRelease"], Some(SubDir(project, "android")))
  }

  // ---------------------------------------------------------------------
  // The steps of the legacy build

  /** `beforeBuild`: the two yarn commands, the second only when the first succeeds. */
  method BeforeBuild(project: Path, succeeds: Command -> bool) returns (ok: bool, ops: seq<Op>)
    ensures ok <==> AllOk(BeforeCommands(project), succeeds)
    ensures ops == Runs(UntilFailure(BeforeCommands(project), succeeds))
  {
    var cmds := BeforeCommands(project);
    UntilFailureRuns(cmds, succeeds);
    ops := [Run(cmds[0])];
    if !succeeds(cmds[0]) {
      assert UntilFailure(cmds, succeeds) == [cmds[0]];
      return false, ops;
    }
    ops := ops + [Run(cmds[1])];
    ok := succeeds(cmds[1]);
    assert cmds[1..][1..] == [];
    assert UntilFailure(cmds, succeeds) == [cmds[0], cmds[1]];
  }

  /** `buildJsBundle`: make the bundle directory, then run the bundler. */
  method BuildJsBundle(fs: FileSystem, project: Path, out: Path, p: Platform, succeeds: Command -> bool)
    returns (ok: bool, ops: seq<Op>)
    requires fs.Valid()
    modifies fs
    ensures fs.Valid()
    ensures ok <==> Made(old(fs.root), JsBundleDir(out, p)).Some? && succeeds(LegacyBundleCommand(project, out, p))
    ensures ops == [MakeDir(JsBundleDir(out, p))]
                   + (if Made(old(fs.root), JsBundleDir(out, p)).Some? then [Run(LegacyBundleCommand(project, out, p))] else [])
    ensures fs.root == match Made(old(fs.root), JsBundleDir(out, p)) case Some(m) => m case None => old(fs.root)
  {
    var made := fs.Mkdirp(JsBundleDir(out, p));
    ops := [MakeDir(JsBundleDir(out, p))];
    if !made {
      return false, ops;
    }
    var cmd := LegacyBundleCommand(project, out, p);
    ops := ops + [Run(cmd)];
    ok := succeeds(cmd);
  }

  /** `buildNativeIos`: the three commands, each only when the one before succeeded. */
  method BuildNativeIos(project: Path, out: Path, cache: Path, succeeds: Command -> bool)
    returns (ok: bool, ops: seq<Op>)
    ensures ok <==> AllOk(NativeIosCommands(project, out, cache), succeeds)
    ensures ops == Runs(UntilFailure(NativeIosCommands(project, out, cache), succeeds))
  {
    var cmds := NativeIosCommands(project, out, cache);
    UntilFailureRuns(cmds, succeeds);
    assert cmds[1..][1..][1..] == [];
    ops := [Run(cmds[0])];
    if !succeeds(cmds[0]) {
      return false, ops;
    }
    ops := ops + [Run(cmds[1])];
    if !succeeds(cmds[1]) {
      return false, ops;
    }
    ops := ops + [Run(cmds[2])];
    ok := succeeds(cmds[2]);
  }

  /** The effects of `buildAndroid`: Gradle, then the flat copy when Gradle succeeded. */
  function AndroidLegacyOps(project: Path, out: Path, succeeds: Command -> bool): (ops: seq<Op>)
  {
    [Run(LegacyGradleCommand(project))]
    + (if succeeds(LegacyGradleCommand(project)) then [CopyApks(SubDir(project, "android"), out)] else [])
  }

  /**
   * `buildAndroid`: Gradle, then every listed path under `android` that
   * passes the `.apk` test is copied to `<out>/<basename>`, in listing
   * order, until a copy throws.
   */
  method BuildAndroidLegacy(fs: FileSystem, project: Path, out: Path, succeeds: Command -> bool)
    returns (ok: bool, ops: seq<Op>)
    requires fs.Valid()
    modifies fs
    ensures fs.Valid()
    ensures ops == AndroidLegacyOps(project, out, succeeds)
    ensures (!succeeds(LegacyGradleCommand(project)) || !IsDir(Lookup(old(fs.root), SubDir(project, "android"))))
              ==> !ok && fs.root == old(fs.root)
    ensures succeeds(LegacyGradleCommand(project)) && IsDir(Lookup(old(fs.root), SubDir(project, "android"))) ==>
              var selected := SelectApks(ListedAt(old(fs.root), SubDir(project, "android")));
              NonEmptyPaths(selected)
              && (fs.root, ok) == CopyRun(old(fs.root), FlatRoutes(out, selected))
  {
    var gradle := LegacyGradleCommand(project);
    ops := [Run(gradle)];
    if !succeeds(gradle) {
      return false, ops;
    }
    ops := ops + [CopyApks(SubDir(project, "android"), out)];
    var android := SubDir(project, "android");
    var listing := IterateDir(fs, android);
    if listing.None? {
      return false, ops;
    }
    var selected := SelectApks(listing.value);
    ListedNonEmpty(fs.root, android, selected);
    ok := CopyEach(fs, FlatRoutes(out, selected));
  }

  /** Every selected path names an entry, never the root. */
  lemma ListedNonEmpty(n: Node, dir: Path, selected: seq<Path>)
    requires IsDir(Lookup(n, dir)) && selected == SelectApks(ListedAt(n, dir))
    ensures NonEmptyPaths(selected)
  {
    forall k | 0 <= k < |selected|
      ensures selected[k] != []
    {
      assert selected[k] in ListedAt(n, dir);
      ListedLonger(dir, Lookup(n, dir).value.entries, selected[k]);
    }
  }

  lemma {:induction false} ListedLonger(dir: Path, es: seq<Entry>, r: Path)
    requires r in Listed(dir, es)
    ensures |dir| < |r|
    decreases es
  {
    var init, e := es[..|es| - 1], es[|es| - 1];
    if r in Listed(dir, init) {
      ListedLonger(dir, init, r);
    } else if r != dir + [e.name] {
      match e.node
      case Dir(sub) =>
        ListedLonger(dir + [e.name], sub, r);
    }
  }

  /** Work on a bundle: making a bundle directory or running the bundler. */
  predicate BundleWork(op: Op, project: Path, out: Path)
  {
    op == MakeDir(JsBundleDir(out, Ios)) || op == MakeDir(JsBundleDir(out, Android))
    || op == Run(LegacyBundleCommand(project, out, Ios)) || op == Run(LegacyBundleCommand(project, out, Android))
  }

  /** No bundle work happens among the first `m` effects. */
  predicate BundleWorkFrom(ops: seq<Op>, project: Path, out: Path, m: nat)
  {
    forall k :: 0 <= k < |ops| && BundleWork(ops[k], project, out) ==> m <= k
  }

  /** `beforeBuild`, then removing and recreating the output directory. */
  function Prelude(project: Path, out: Path): (ops: seq<Op>)
    ensures |ops| == 4 && forall k :: 0 <= k < 4 ==> !BundleWork(ops[k], project, out)
  {
    var ops := [Run(YarnInstall(project)), Run(YarnJetify(project)), RemoveDir(out), MakeDir(out)];
    assert forall k :: 0 <= k < 2 ==> |ops[k].cmd.args| == 1;
    ops
  }

  /** The name of one of the two bundle directories. */
  predicate BundleDirName(x: Name)
  {
    x == "jsbundle-" + PlatformName(Ios) || x == "jsbundle-" + PlatformName(Android)
  }

  /** A bundle directory's name never passes the `.apk` test. */
  lemma BundleDirNotApk(x: Name)
    requires BundleDirName(x)
    ensures !EndsWith(x, ".apk")
  {
    assert x[|x| - 4] == '-' || x[|x| - 4] == 'r';
  }

  /** The output directory holds the two bundle directories and nothing else. */
  ghost predicate OnlyBundleDirs(n: Node, out: Path)
  {
    IsDir(Lookup(n, JsBundleDir(out, Ios))) && IsDir(Lookup(n, JsBundleDir(out, Android)))
    && forall x, rest :: !BundleDirName(x) ==> Lookup(n, out + [x] + rest) == None
  }

  /**
   * What the output directory holds after the targets: the two bundle
   * directories, and otherwise only entries whose names pass the `.apk`
   * test, the copied packages. Nothing of what it held before survives.
   */
  ghost predicate OutputFresh(n: Node, out: Path)
  {
    IsDir(Lookup(n, JsBundleDir(out, Ios))) && IsDir(Lookup(n, JsBundleDir(out, Android)))
    && forall x, rest :: Lookup(n, out + [x] + rest).Some? ==> BundleDirName(x) || EndsWith(x, ".apk")
  }

  /** Two different children of a directory, and everything inside the second, are disjoint. */
  lemma SiblingsDisjoint(dir: Path, x: Name, y: Name, rest: Path)
    requires x != y
    ensures Disjoint(dir + [x], dir + [y] + rest)
  {
    var p, q := dir + [x], dir + [y] + rest;
    assert p[|dir|] == x && q[|dir|] == y;
  }

  /** A missing child of a directory can be made: nothing on its path is a regular file. */
  lemma ChildReady(n: Node, dir: Path, x: Name)
    requires IsDir(Lookup(n, dir)) && Lookup(n, dir + [x]).None?
    ensures NoFileOn(n, dir + [x])
  {
    var p := dir + [x];
    forall k | 0 <= k <= |p|
      ensures !IsFile(Lookup(n, p[..k]))
    {
      if k < |dir| {
        assert p[..k] == dir[..k];
        LookupThroughDirs(n, dir, dir[..k]);
      } else if k == |dir| {
        assert p[..k] == dir;
      } else {
        assert p[..k] == p;
      }
    }
  }

  /** The tree after `mkdirp` of the iOS and then the Android bundle directory. */
  ghost function BundleTree(n: Node, out: Path): Node
  {
    var n1 := match Made(n, JsBundleDir(out, Ios)) case Some(m) => m case None => n;
    match Made(n1, JsBundleDir(out, Android)) case Some(m) => m case None => n1
  }

  /** Two different children can be made, one after the other, in an empty directory. */
  lemma ChildrenFit(n0: Node, dir: Path, a: Name, b: Name)
    requires Lookup(n0, dir) == Some(Dir([])) && a != b
    ensures Made(n0, dir + [a]).Some? && Made(Made(n0, dir + [a]).value, dir + [b]).Some?
  {
    LookupAppend(n0, dir, a);
    LookupAppend(n0, dir, b);
    ChildReady(n0, dir, a);
    MadeSucceeds(n0, dir + [a]);
    var n1 := Made(n0, dir + [a]).value;
    SiblingsDisjoint(dir, a, b, []);
    assert dir + [b] + [] == dir + [b];
    MadeFrame(n0, dir + [a], dir + [b]);
    MadeAbove(n0, dir + [a], dir);
    ChildReady(n1, dir, b);
    MadeSucceeds(n1, dir + [b]);
  }

  /** After making two children of an empty directory, it holds those two directories and nothing else. */
  lemma ChildrenOnly(n0: Node, dir: Path, a: Name, b: Name)
    requires Lookup(n0, dir) == Some(Dir([])) && a != b
    ensures Made(n0, dir + [a]).Some? && Made(Made(n0, dir + [a]).value, dir + [b]).Some?
    ensures var n2 := Made(Made(n0, dir + [a]).value, dir + [b]).value;
            IsDir(Lookup(n2, dir + [a])) && IsDir(Lookup(n2, dir + [b]))
            && forall x, rest :: x != a && x != b ==> Lookup(n2, dir + [x] + rest) == None
  {
    ChildrenFit(n0, dir, a, b);
    var n1 := Made(n0, dir + [a]).value;
    var n2 := Made(n1, dir + [b]).value;
    MadeAbove(n0, dir + [a], dir + [a]);
    MadeAbove(n1, dir + [b], dir + [b]);
    SiblingsDisjoint(dir, b, a, []);
    assert dir + [a] + [] == dir + [a];
    MadeFrame(n1, dir + [b], dir + [a]);
    forall x, rest | x != a && x != b
      ensures Lookup(n2, dir + [x] + rest) == None
    {
      var q := dir + [x] + rest;
      SiblingsDisjoint(dir, a, x, rest);
      SiblingsDisjoint(dir, b, x, rest);
      MadeFrame(n0, dir + [a], q);
      MadeFrame(n1, dir + [b], q);
      assert q == dir + ([x] + rest);
      LookupConcat(n0, dir, [x] + rest);
    }
  }

  /** Making two children of a directory changes nothing outside it. */
  lemma ChildrenFrame(n0: Node, dir: Path, a: Name, b: Name)
    requires Lookup(n0, dir) == Some(Dir([])) && a != b
    ensures Made(n0, dir + [a]).Some? && Made(Made(n0, dir + [a]).value, dir + [b]).Some?
    ensures forall q :: Disjoint(q, dir) ==>
              Lookup(Made(Made(n0, dir + [a]).value, dir + [b]).value, q) == Lookup(n0, q)
  {
    ChildrenFit(n0, dir, a, b);
    var n1 := Made(n0, dir + [a]).value;
    forall q | Disjoint(q, dir)
      ensures Lookup(Made(n1, dir + [b]).value, q) == Lookup(n0, q)
    {
      DisjointBelow(q, dir, dir + [a]);
      DisjointBelow(q, dir, dir + [b]);
      MadeFrame(n0, dir + [a], q);
      MadeFrame(n1, dir + [b], q);
    }
  }

  /** Both bundle directories can be made in an empty output directory. */
  lemma BundleDirsFit(n0: Node, out: Path)
    requires Lookup(n0, out) == Some(Dir([]))
    ensures Made(n0, JsBundleDir(out, Ios)).Some?
    ensures Made(Made(n0, JsBundleDir(out, Ios)).value, JsBundleDir(out, Android)).Some?
  {
    var a, b := "jsbundle-" + PlatformName(Ios), "jsbundle-" + PlatformName(Android);
    assert a[9] != b[9];
    ChildrenFit(n0, out, a, b);
  }

  /**
   * Making the two bundle directories in an empty output directory leaves
   * it holding just them, and changes nothing outside it.
   */
  lemma BundleDirsMade(n0: Node, out: Path)
    requires Lookup(n0, out) == Some(Dir([]))
    ensures Made(n0, JsBundleDir(out, Ios)).Some?
    ensures var n1 := Made(n0, JsBundleDir(out, Ios)).value;
            Made(n1, JsBundleDir(out, Android)).Some?
            && var n2 := Made(n1, JsBundleDir(out, Android)).value;
               OnlyBundleDirs(n2, out) && forall q :: Disjoint(q, out) ==> Lookup(n2, q) == Lookup(n0, q)
  {
    var a, b := "jsbundle-" + PlatformName(Ios), "jsbundle-" + PlatformName(Android);
    assert a[9] != b[9];
    ChildrenOnly(n0, out, a, b);
    ChildrenFrame(n0, out, a, b);
  }

  /**
   * Copying `.apk` entries flat into an output directory that holds only the
   * bundle directories keeps them and adds only names that pass the `.apk`
   * test; nothing outside the output directory changes.
   */
  lemma ApkCopiesKeep(n: Node, out: Path, selected: seq<Path>)
    requires OnlyBundleDirs(n, out) && NonEmptyPaths(selected)
    requires forall k :: 0 <= k < |selected| ==> IsApkPath(selected[k])
    ensures OutputFresh(CopyRun(n, FlatRoutes(out, selected)).0, out)
    ensures forall q :: Disjoint(q, out) ==> Lookup(CopyRun(n, FlatRoutes(out, selected)).0, q) == Lookup(n, q)
  {
    var routes := FlatRoutes(out, selected);
    var m := CopyRun(n, routes).0;
    forall k | 0 <= k < |routes|
      ensures EndsWith(Basename(selected[k]), ".apk") && !BundleDirName(Basename(selected[k]))
    {
      ApkTestIsNameTest(selected[k]);
      if BundleDirName(Basename(selected[k])) {
        BundleDirNotApk(Basename(selected[k]));
      }
    }
    forall p: Platform
      ensures Lookup(m, JsBundleDir(out, p)) == Lookup(n, JsBundleDir(out, p))
    {
      var name := "jsbundle-" + PlatformName(p);
      assert BundleDirName(name);
      forall k | 0 <= k < |routes|
        ensures Disjoint(routes[k].dst, JsBundleDir(out, p))
      {
        SiblingsDisjoint(out, Basename(selected[k]), name, []);
        assert out + [name] + [] == JsBundleDir(out, p);
      }
      CopyRunFrame(n, routes, JsBundleDir(out, p));
    }
    forall x, rest | Lookup(m, out + [x] + rest).Some?
      ensures BundleDirName(x) || EndsWith(x, ".apk")
    {
      if !BundleDirName(x) && !EndsWith(x, ".apk") {
        forall k | 0 <= k < |routes|
          ensures Disjoint(routes[k].dst, out + [x] + rest)
        {
          SiblingsDisjoint(out, Basename(selected[k]), x, rest);
        }
        CopyRunFrame(n, routes, out + [x] + rest);
        assert false;
      }
    }
    forall q | Disjoint(q, out)
      ensures Lookup(m, q) == Lookup(n, q)
    {
      forall k | 0 <= k < |routes|
        ensures Disjoint(routes[k].dst, q)
      {
        DisjointBelow(q, out, routes[k].dst);
      }
      CopyRunFrame(n, routes, q);
    }
  }

  /** Making both bundle directories and running both bundlers. */
  function BundleOps(project: Path, out: Path): (ops: seq<Op>)
    ensures |ops| == 4 && forall k :: 0 <= k < 4 && ops[k].Run? ==> ops[k].cmd.program == "yarn"
  {
    BundleSteps(project, out, Ios) + BundleSteps(project, out, Android)
  }

  /** One platform's bundle: its directory is made, then its bundler runs. */
  function BundleSteps(project: Path, out: Path, p: Platform): (ops: seq<Op>)
    ensures |ops| == 2 && ops[0] == MakeDir(JsBundleDir(out, p)) && ops[1] == Run(LegacyBundleCommand(project, out, p))
  {
    [MakeDir(JsBundleDir(out, p))] + [Run(LegacyBundleCommand(project, out, p))]
  }

  /** `iosJsBundle.then(buildNativeIos)`: the iOS commands, only after the iOS bundle succeeded. */
  function IosNativeOps(project: Path, out: Path, cache: Path, succeeds: Command -> bool): (ops: seq<Op>)
    ensures ops != [] ==> succeeds(LegacyBundleCommand(project, out, Ios))
    ensures forall k :: 0 <= k < |ops| ==> ops[k].Run? && ops[k].cmd.program in {"pod", "bundle", "xcodebuild"}
  {
    if succeeds(LegacyBundleCommand(project, out, Ios)) then
      var cmds := NativeIosCommands(project, out, cache);
      var r := UntilFailure(cmds, succeeds);
      UntilFailureRuns(cmds, succeeds);
      assert forall k :: 0 <= k < |r| ==> r[k] == cmds[k];
      Runs(r)
    else []
  }

  /** `androidJsBundle.then(buildAndroid)`: Gradle and the copy, only after the Android bundle succeeded. */
  function AndroidNativeOps(project: Path, out: Path, succeeds: Command -> bool): (ops: seq<Op>)
    ensures ops != [] ==> succeeds(LegacyBundleCommand(project, out, Android))
    ensures forall k :: 0 <= k < |ops| && ops[k].Run? ==> ops[k].cmd.program == "./gradlew"
  {
    if succeeds(LegacyBundleCommand(project, out, Android)) then AndroidLegacyOps(project, out, succeeds) else []
  }

  /**
   * The effects of the four targets in an empty output directory: both
   * bundle directories are made and both bundlers run; each native build
   * follows only when its own platform's bundle succeeded.
   */
  function TargetOps(project: Path, out: Path, cache: Path, succeeds: Command -> bool): (ops: seq<Op>)
    ensures |ops| >= 4 && ops[..4] == BundleOps(project, out)
  {
    BundleOps(project, out) + NativeOps(project, out, cache, succeeds)
  }

  /** The two native builds' effects, iOS first. */
  function NativeOps(project: Path, out: Path, cache: Path, succeeds: Command -> bool): (ops: seq<Op>)
    ensures forall k :: 0 <= k < |ops| && ops[k].Run? ==> ops[k].cmd.program != "yarn"
  {
    IosNativeOps(project, out, cache, succeeds) + AndroidNativeOps(project, out, succeeds)
  }

  /**
   * The `.then` chains: Gradle runs only after the Android bundle succeeded,
   * and CocoaPods only after the iOS bundle did.
   */
  lemma TargetOpsGated(project: Path, out: Path, cache: Path, succeeds: Command -> bool)
    ensures var ops := TargetOps(project, out, cache, succeeds);
            (Run(LegacyGradleCommand(project)) in ops ==> succeeds(LegacyBundleCommand(project, out, Android)))
            && (Run(NativeIosCommands(project, out, cache)[0]) in ops ==> succeeds(LegacyBundleCommand(project, out, Ios)))
  {
    var a := BundleOps(project, out);
    var b := IosNativeOps(project, out, cache, succeeds);
    var c := AndroidNativeOps(project, out, succeeds);
    ProgramNotIn(a + b, c, LegacyGradleCommand(project), "./gradlew");
    ProgramNotIn(a + c, b, NativeIosCommands(project, out, cache)[0], "pod");
  }

  /** A command whose program runs nowhere in `xs` is in `xs + ys` only through `ys`. */
  lemma ProgramNotIn(xs: seq<Op>, ys: seq<Op>, cmd: Command, program: string)
    requires cmd.program == program
    requires forall k :: 0 <= k < |xs| && xs[k].Run? ==> xs[k].cmd.program != program
    ensures Run(cmd) in xs + ys ==> Run(cmd) in ys
  {
    assert Run(cmd) !in xs;
  }

  /** The tree after `buildAndroid`: the flat copy, when Gradle succeeded and `android` is a directory. */
  ghost function AndroidTree(n: Node, project: Path, out: Path, succeeds: Command -> bool): Node
  {
    var android := SubDir(project, "android");
    if succeeds(LegacyGradleCommand(project)) && IsDir(Lookup(n, android)) then
      var selected := SelectApks(ListedAt(n, android));
      ListedNonEmpty(n, android, selected);
      CopyRun(n, FlatRoutes(out, selected)).0
    else n
  }

  /**
   * `buildAndroid` resolves: Gradle succeeded, `iterateDir` found the
   * `android` directory, and every flat copy succeeded.
   */
  ghost predicate AndroidOk(n: Node, project: Path, out: Path, succeeds: Command -> bool)
  {
    var android := SubDir(project, "android");
    succeeds(LegacyGradleCommand(project)) && IsDir(Lookup(n, android))
    && var selected := SelectApks(ListedAt(n, android));
       ListedNonEmpty(n, android, selected);
       CopyRun(n, FlatRoutes(out, selected)).1
  }

  /** The tree after the four targets: both bundle directories, then the Android copy when its bundle succeeded. */
  ghost function TargetTree(n: Node, project: Path, out: Path, succeeds: Command -> bool): Node
  {
    var bundled := BundleTree(n, out);
    if succeeds(LegacyBundleCommand(project, out, Android)) then AndroidTree(bundled, project, out, succeeds)
    else bundled
  }

  /**
   * The four targets into an empty output directory leave in it the two
   * bundle directories and copied packages only, and change nothing
   * outside it.
   */
  lemma TargetTreeFresh(n: Node, project: Path, out: Path, succeeds: Command -> bool)
    requires Lookup(n, out) == Some(Dir([]))
    ensures OutputFresh(TargetTree(n, project, out, succeeds), out)
    ensures forall q :: Disjoint(q, out) ==> Lookup(TargetTree(n, project, out, succeeds), q) == Lookup(n, q)
  {
    BundleDirsMade(n, out);
    var bundled := BundleTree(n, out);
    assert bundled == Made(Made(n, JsBundleDir(out, Ios)).value, JsBundleDir(out, Android)).value;
    var android := SubDir(project, "android");
    if succeeds(LegacyBundleCommand(project, out, Android))
       && succeeds(LegacyGradleCommand(project)) && IsDir(Lookup(bundled, android)) {
      var selected := SelectApks(ListedAt(bundled, android));
      ListedNonEmpty(bundled, android, selected);
      forall k | 0 <= k < |selected|
        ensures IsApkPath(selected[k])
      {
        assert selected[k] in selected;
      }
      ApkCopiesKeep(bundled, out, selected);
    } else {
      assert TargetTree(n, project, out, succeeds) == bundled;
    }
  }

  /**
   * `build` into an output directory that can be recreated: the old
   * contents of the output directory are gone afterwards, and nothing
   * outside it changed.
   */
  lemma LegacyTreeFresh(n: Node, project: Path, out: Path, succeeds: Command -> bool)
    requires WF(n) && out != [] && NoFileAbove(n, out)
    ensures Cleaned(n, out).Some?
    ensures OutputFresh(TargetTree(Cleaned(n, out).value, project, out, succeeds), out)
    ensures forall q :: Disjoint(q, out) ==>
              Lookup(TargetTree(Cleaned(n, out).value, project, out, succeeds), q) == Lookup(n, q)
  {
    CleanedSucceeds(n, out);
    CleanedTarget(n, out);
    TargetTreeFresh(Cleaned(n, out).value, project, out, succeeds);
    forall q | Disjoint(q, out)
      ensures Lookup(Cleaned(n, out).value, q) == Lookup(n, q)
    {
      CleanedFrame(n, out, q);
    }
  }

  /** Both bundles: each makes its directory, then runs its bundler. */
  method BuildBundles(fs: FileSystem, project: Path, out: Path, succeeds: Command -> bool)
    returns (iosJs: bool, androidJs: bool, ops: seq<Op>)
    requires fs.Valid() && Lookup(fs.root, out) == Some(Dir([]))
    modifies fs
    ensures fs.Valid()
    ensures iosJs == succeeds(LegacyBundleCommand(project, out, Ios))
    ensures androidJs == succeeds(LegacyBundleCommand(project, out, Android))
    ensures ops == BundleOps(project, out)
    ensures fs.root == BundleTree(old(fs.root), out)
  {
    BundleDirsFit(fs.root, out);
    var iosOps, androidOps;
    iosJs, iosOps := BuildJsBundle(fs, project, out, Ios, succeeds);
    androidJs, androidOps := BuildJsBundle(fs, project, out, Android, succeeds);
    ops := iosOps + androidOps;
  }

  /** The two native builds, each gated on its own bundle's result. */
  method BuildNatives(fs: FileSystem, project: Path, out: Path, cache: Path, succeeds: Command -> bool,
                      iosJs: bool, androidJs: bool)
    returns (ok: bool, ops: seq<Op>)
    requires fs.Valid()
    requires iosJs == succeeds(LegacyBundleCommand(project, out, Ios))
    requires androidJs == succeeds(LegacyBundleCommand(project, out, Android))
    modifies fs
    ensures fs.Valid()
    ensures ops == NativeOps(project, out, cache, succeeds)
    ensures fs.root == if androidJs then AndroidTree(old(fs.root), project, out, succeeds) else old(fs.root)
    ensures ok <==> iosJs && androidJs && AllOk(NativeIosCommands(project, out, cache), succeeds)
                    && AndroidOk(old(fs.root), project, out, succeeds)
  {
    ops := [];
    var iosNative := false;
    if iosJs {
      iosNative, ops := BuildNativeIos(project, out, cache, succeeds);
    }
    var androidNative := false;
    if androidJs {
      var androidOps;
      androidNative, androidOps := BuildAndroidLegacy(fs, project, out, succeeds);
      ops := ops + androidOps;
    }
    ok := iosJs && androidJs && iosNative && androidNative;
  }

  /**
   * The four targets, into the freshly emptied output directory: both
   * bundles, then each native build whose bundle succeeded.
   */
  method BuildTargets(fs: FileSystem, project: Path, out: Path, cache: Path, succeeds: Command -> bool)
    returns (ok: bool, ops: seq<Op>)
    requires fs.Valid() && Lookup(fs.root, out) == Some(Dir([]))
    modifies fs
    ensures fs.Valid()
    ensures ops == TargetOps(project, out, cache, succeeds)
    ensures fs.root == TargetTree(old(fs.root), project, out, succeeds)
    ensures ok <==> succeeds(LegacyBundleCommand(project, out, Ios))
                    && succeeds(LegacyBundleCommand(project, out, Android))
                    && AllOk(NativeIosCommands(project, out, cache), succeeds)
                    && AndroidOk(BundleTree(old(fs.root), out), project, out, succeeds)
  {
    var iosJs, androidJs, bundleOps := BuildBundles(fs, project, out, succeeds);
    var nativeOps;
    ok, nativeOps := BuildNatives(fs, project, out, cache, succeeds, iosJs, androidJs);
    ops := bundleOps + nativeOps;
  }

  /**
   * `build` of src/index.ts with every branch run to completion: the
   * output directory is removed and recreated after `beforeBuild` and
   * before any bundle work; each native build runs only after its
   * platform's bundle succeeded.
   */
  method LegacyBuild(fs: FileSystem, project: Path, out: Path, cache: Path, succeeds: Command -> bool)
    returns (ok: bool, ops: seq<Op>)
    requires fs.Valid() && out != []
    modifies fs
    ensures fs.Valid()
    ensures !AllOk(BeforeCommands(project), succeeds) ==>
              !ok && fs.root == old(fs.root) && ops == Runs(UntilFailure(BeforeCommands(project), succeeds))
    ensures AllOk(BeforeCommands(project), succeeds) && !NoFileAbove(old(fs.root), out) ==>
              !ok && ops == Prelude(project, out) && fs.root == Removed(old(fs.root), out)
    ensures AllOk(BeforeCommands(project), succeeds) && NoFileAbove(old(fs.root), out) ==>
              ops == Prelude(project, out) + TargetOps(project, out, cache, succeeds)
              && Cleaned(old(fs.root), out).Some?
              && fs.root == TargetTree(Cleaned(old(fs.root), out).value, project, out, succeeds)
    ensures BundleWorkFrom(ops, project, out, 4)
    ensures ok <==> AllOk(BeforeCommands(project), succeeds) && NoFileAbove(old(fs.root), out)
                    && Cleaned(old(fs.root), out).Some?
                    && succeeds(LegacyBundleCommand(project, out, Ios))
                    && succeeds(LegacyBundleCommand(project, out, Android))
                    && AllOk(NativeIosCommands(project, out, cache), succeeds)
                    && AndroidOk(BundleTree(Cleaned(old(fs.root), out).value, out), project, out, succeeds)
  {
    var before;
    before, ops := BeforeBuild(project, succeeds);
    var prelude := Prelude(project, out);
    UntilFailureRuns(BeforeCommands(project), succeeds);
    if !before {
      assert ops <= prelude[..2];
      return false, ops;
    }
    ghost var n0 := fs.root;
    CleanedSucceeds(n0, out);
    fs.Remove(out);
    var made := fs.Mkdirp(out);
    ops := prelude;
    if !made {
      return false, ops;
    }
    CleanedTarget(n0, out);
    var rest;
    ok, rest := BuildTargets(fs, project, out, cache, succeeds);
    ops := prelude + rest;
    assert ops[..4] == prelude;
  }
}

=== FILE: paths.dfy ===
/**
 * Filesystem paths. A path is the sequence of its components from the
 * filesystem root; `Join` is the string form of `path.join(dir, name)` for a
 * name without separators, and `Render` is the string a path is printed as.
 * Normalisation of `.`, `..` and repeated separators is not modelled.
 */
module Paths {
  type Name = string
  type Path = seq<Name>

  /** `path.join(dir, name)` and the template `${dir}/${name}` alike. */
  function Join(dir: string, name: string): (r: string)
    ensures |r| == |dir| + 1 + |name|
    ensures r[..|dir|] == dir && r[|dir|] == '/' && r[|dir| + 1..] == name
  {
    dir + "/" + name
  }

  /** The absolute string form of a path: "/a/b" for ["a", "b"]. */
  function Render(p: Path): string
  {
    if p == [] then "" else Join(Render(p[..|p| - 1]), p[|p| - 1])
  }

  lemma RenderAppend(p: Path, name: Name)
    ensures Render(p + [name]) == Join(Render(p), name)
  {
    assert (p + [name])[..|p|] == p;
  }

  /** A rendered non-empty path starts with the separator, so it is never a flag. */
  lemma RenderedIsAbsolute(p: Path)
    requires p != []
    ensures Render(p) != [] && Render(p)[0] == '/'
    decreases |p|
  {
    if |p| > 1 {
      RenderedIsAbsolute(p[..|p| - 1]);
    }
  }

  function Basename(p: Path): Name
    requires p != []
  {
    p[|p| - 1]
  }

  function Dirname(p: Path): Path
    requires p != []
  {
    p[..|p| - 1]
  }

  predicate EndsWith(s: string, suffix: string)
  {
    |suffix| <= |s| && s[|s| - |suffix|..] == suffix
  }

  /** Neither path lies at or under the other. */
  predicate Disjoint(p: Path, q: Path)
  {
    !(p <= q) && !(q <= p)
  }

  /** A path disjoint from a directory is disjoint from everything inside it. */
  lemma DisjointBelow(p: Path, dir: Path, q: Path)
    requires Disjoint(p, dir) && dir <= q
    ensures Disjoint(p, q)
  {
  }

  /** Two different paths of the same length are disjoint. */
  lemma DisjointSameLength(p: Path, q: Path)
    requires |p| == |q| && p != q
    ensures Disjoint(p, q)
  {
  }

  /** A suffix without a separator matches a joined path exactly when it matches the name. */
  lemma EndsWithJoin(dir: string, name: string, suffix: string)
    requires '/' !in suffix
    ensures EndsWith(Join(dir, name), suffix) <==> EndsWith(name, suffix)
  {
    var s := Join(dir, name);
    if |suffix| <= |name| {
      assert s[|s| - |suffix|..] == s[|dir| + 1..][|name| - |suffix|..];
    } else if |suffix| <= |s| {
      var t := s[|s| - |suffix|..];
      assert t[|suffix| - |name| - 1] == s[|dir|];
    }
  }

  /**
   * A suffix without a separator matches the rendered path exactly when it
   * matches the last component: testing the whole path string is testing
   * the entry's own name.
   */
  lemma EndsWithRendered(p: Path, suffix: string)
    requires p != [] && '/' !in suffix
    ensures EndsWith(Render(p), suffix) <==> EndsWith(Basename(p), suffix)
  {
    EndsWithJoin(Render(Dirname(p)), Basename(p), suffix);
  }

  /** Every path in the list names something below the root, never the root itself. */
  predicate NonEmptyPaths(ps: seq<Path>)
  {
    forall k :: 0 <= k < |ps| ==> ps[k] != []
  }
}

=== FILE: rn_bundle.dfy ===
/**
 * The `react-native bundle` invocation of src/tasks/build-rn-bundle.ts, whose
 * text src/build.ts repeats in its private `buildReactNativeBundle`.
 */
module RnBundle {
  import opened Wrappers
  import opened Paths
  import opened Common
  import opened Argv

  /** The bundle file each platform loads. */
  function BundleFileName(p: Platform): (f: Name)
    ensures '/' !in f && EndsWith(f, "bundle")
    ensures f == "main.jsbundle" <==> p == Ios
  {
    match p
    case Ios => "main.jsbundle"
    case Android => "index.android.bundle"
  }

  /** `${outputDirectory}/${file}`: where the bundle is written. */
  function BundleOutput(out: Path, p: Platform): (r: string)
    ensures r == Render(out + [BundleFileName(p)])
  {
    RenderAppend(out, BundleFileName(p));
    Join(Render(out), BundleFileName(p))
  }

  function BundleArgs(out: Path, p: Platform): (args: seq<string>)
    ensures |args| == 12 && args[..2] == ["react-native", "bundle"]
  {
    ["react-native", "bundle",
     "--entry-file", "index.js",
     "--platform", PlatformName(p),
     "--dev", "false",
     "--bundle-output", BundleOutput(out, p),
     "--assets-dest", Render(out)]
  }

  /**
   * What the bundler reads from its arguments: entry file index.js, the
   * platform's name, a release (non-dev) build, the bundle at
   * `<out>/<file>` and the assets in `out` itself.
   */
  lemma BundleArgsMeaning(out: Path, p: Platform)
    ensures var args := BundleArgs(out, p);
            FlagValue(args, "--entry-file") == Some("index.js") &&
            FlagValue(args, "--platform") == Some(PlatformName(p)) &&
            FlagValue(args, "--dev") == Some("false") &&
            FlagValue(args, "--bundle-output") == Some(Render(out + [BundleFileName(p)])) &&
            FlagValue(args, "--assets-dest") == Some(Render(out))
  {
    BundleArgsLeadingFlags(out, p);
    BundleArgsOutputFlags(out, p);
  }

  lemma BundleArgsLeadingFlags(out: Path, p: Platform)
    ensures var args := BundleArgs(out, p);
            FlagValue(args, "--entry-file") == Some("index.js") &&
            FlagValue(args, "--platform") == Some(PlatformName(p)) &&
            FlagValue(args, "--dev") == Some("false")
  {
    var args := BundleArgs(out, p);
    assert args[0] != "--entry-file" && args[1] != "--entry-file";
    FlagValueAt(args, "--entry-file", 2);
    assert forall j :: 0 <= j < 4 ==> args[j] != "--platform";
    FlagValueAt(args, "--platform", 4);
    assert forall j :: 0 <= j < 6 ==> args[j] != "--dev" by {
      assert args[5] == "ios" || args[5] == "android";
    }
    FlagValueAt(args, "--dev", 6);
  }

  lemma BundleArgsOutputFlags(out: Path, p: Platform)
    ensures var args := BundleArgs(out, p);
            FlagValue(args, "--bundle-output") == Some(Render(out + [BundleFileName(p)])) &&
            FlagValue(args, "--assets-dest") == Some(Render(out))
  {
    var args := BundleArgs(out, p);
    assert forall j :: 0 <= j < 8 ==> args[j] != "--bundle-output" by {
      assert args[5] == "ios" || args[5] == "android";
    }
    FlagValueAt(args, "--bundle-output", 8);
    assert forall j :: 0 <= j < 10 ==> args[j] != "--assets-dest" by {
      assert args[5] == "ios" || args[5] == "android";
      RenderedIsAbsolute(out + [BundleFileName(p)]);
    }
    FlagValueAt(args, "--assets-dest", 10);
  }

  /** `yarn react-native bundle ...`, run in the project directory. */
  function BundleCommand(project: Path, out: Path, p: Platform): (c: Command)
    ensures c.program == "yarn" && c.cwd == Some(project)
    ensures c.args == BundleArgs(out, p)
  {
    Command("yarn", BundleArgs(out, p), Some(project))
  }

  /**
   * `buildReactNativeBundle`: one `react-native bundle` run; `ok` is false
   * exactly when it rejects.
   */
  method BuildReactNativeBundle(project: Path, out: Path, p: Platform, succeeds: Command -> bool)
    returns (ok: bool, log: seq<Command>)
    ensures log == [BundleCommand(project, out, p)]
    ensures ok <==> succeeds(log[0])
  {
    var cmd := BundleCommand(project, out, p);
    log := [cmd];
    ok := succeeds(cmd);
  }

  /** The bundle is written directly inside the assets destination, under the platform's file name. */
  lemma BundleInsideAssets(out: Path, p: Platform)
    ensures var args := BundleArgs(out, p);
            FlagValue(args, "--bundle-output").Some? && FlagValue(args, "--assets-dest").Some? &&
            FlagValue(args, "--bundle-output").value == FlagValue(args, "--assets-dest").value + "/" + BundleFileName(p)
  {
    BundleArgsMeaning(out, p);
  }

  /** The two platforms' bundles never collide, even in one output directory. */
  lemma BundleOutputsDistinct(out: Path)
    ensures BundleOutput(out, Ios) != BundleOutput(out, Android)
  {
    RenderAppend(out, "main.jsbundle");
    RenderAppend(out, "index.android.bundle");
  }
}

=== FILE: time.dfy ===
/**
 * Duration formatting and the split-time stopwatch of src/util/time.ts.
 * Durations are whole milliseconds; the clock reading that `Date.now()`
 * would supply is a parameter.
 */
module Time {
  import opened Wrappers
  import opened Decimal

  /** `Math.ceil(a / b)` for natural numbers. */
  function CeilDiv(a: nat, b: nat): (q: nat)
    requires b > 0
    ensures q * b >= a
    ensures q == 0 || (q - 1) * b < a
  {
    (a + b - 1) / b
  }

  /** The whole seconds a duration is shown as: milliseconds rounded up. */
  function Seconds(ms: nat): (sec: nat)
    ensures sec * 1000 >= ms && (sec == 0 || (sec - 1) * 1000 < ms)
  {
    CeilDiv(ms, 1000)
  }

  /** What a formatted duration says: seconds only, or minutes and seconds. */
  datatype Shown = Secs(sec: nat) | MinSecs(min: nat, sec: nat)

  /** The number of seconds a formatted duration stands for. */
  function Denoted(d: Shown): nat
  {
    match d
    case Secs(s) => s
    case MinSecs(m, s) => 60 * m + s
  }

  /** The text of a formatted duration: "<s>s" or "<m>m <s>s". */
  function Format(d: Shown): string
  {
    match d
    case Secs(s) => NatToString(s) + "s"
    case MinSecs(m, s) => NatToString(m) + "m " + NatToString(s) + "s"
  }

  /** Position of the first `c` in `s`, or |s|. */
  function FirstIndexOf(s: string, c: char): (i: nat)
    ensures i <= |s|
    ensures i < |s| ==> s[i] == c
    ensures forall k :: 0 <= k < i ==> s[k] != c
  {
    if s == [] then 0 else if s[0] == c then 0 else 1 + FirstIndexOf(s[1..], c)
  }

  lemma FirstIndexOfIs(s: string, c: char, k: nat)
    requires k <= |s| && (k < |s| ==> s[k] == c)
    requires forall j :: 0 <= j < k ==> s[j] != c
    ensures FirstIndexOf(s, c) == k
  {
  }

  /** Reads a formatted duration back. */
  function ParseShown(t: string): (r: Option<Shown>)
  {
    if |t| == 0 || t[|t| - 1] != 's' then None
    else
      var body := t[..|t| - 1];
      var k := FirstIndexOf(body, 'm');
      if k == |body| then
        if IsNumeral(body) then Some(Secs(Value(body))) else None
      else if k + 1 < |body| && body[k + 1] == ' ' && IsNumeral(body[..k]) && IsNumeral(body[k + 2..]) then
        Some(MinSecs(Value(body[..k]), Value(body[k + 2..])))
      else None
  }

  /** The formatted text is unambiguous: reading it back gives what was shown. */
  lemma ParseFormat(d: Shown)
    ensures ParseShown(Format(d)) == Some(d)
  {
    match d
    case Secs(s) => ParseFormatSecs(s);
    case MinSecs(m, s) => ParseFormatMinSecs(m, s);
  }

  lemma ParseFormatSecs(s: nat)
    ensures ParseShown(Format(Secs(s))) == Some(Secs(s))
  {
    var n := NatToString(s);
    var t := n + "s";
    assert t == Format(Secs(s));
    var body := t[..|t| - 1];
    assert body == n;
    FirstIndexOfIs(body, 'm', |n|);
    ValueOfNatToString(s);
  }

  lemma ParseFormatMinSecs(m: nat, s: nat)
    ensures ParseShown(Format(MinSecs(m, s))) == Some(MinSecs(m, s))
  {
    var a, b := NatToString(m), NatToString(s);
    var t := a + "m " + b + "s";
    assert t == Format(MinSecs(m, s));
    var body := t[..|t| - 1];
    assert body == a + "m " + b;
    assert forall k :: 0 <= k < |a| ==> body[k] == a[k] && body[k] != 'm';
    assert body[|a|] == 'm' && body[|a| + 1] == ' ';
    FirstIndexOfIs(body, 'm', |a|);
    assert body[..|a|] == a && body[|a| + 2..] == b;
    ValueOfNatToString(m);
    ValueOfNatToString(s);
  }

  /** What `humanReadableDuration` shows, as written: minutes rounded up. */
  function ShownAsWritten(ms: nat): Shown
  {
    var sec := Seconds(ms);
    var min := CeilDiv(sec, 60);
    if min > 1 then MinSecs(min, sec % 60) else Secs(sec)
  }

  /** `humanReadableDuration(ms)` as the source computes it. */
  function HumanReadableDurationAsWritten(ms: nat): (t: string)
    ensures ParseShown(t) == Some(ShownAsWritten(ms))
  {
    ParseFormat(ShownAsWritten(ms));
    Format(ShownAsWritten(ms))
  }

  /**
   * The seconds-only form is used exactly up to 60 seconds; above that the
   * minute figure is the rounded-up quotient and the second figure the
   * remainder, always below 60.
   */
  lemma AsWrittenForms(ms: nat)
    ensures var sec := Seconds(ms);
            ShownAsWritten(ms) == if sec <= 60 then Secs(sec) else MinSecs(CeilDiv(sec, 60), sec % 60)
    ensures ShownAsWritten(ms).MinSecs? ==> ShownAsWritten(ms).sec < 60
  {
  }

  /** As written, the text stands for the real duration only at whole minutes or up to one minute. */
  lemma AsWrittenDenotes(ms: nat)
    ensures Denoted(ShownAsWritten(ms)) == Seconds(ms) <==> Seconds(ms) <= 60 || Seconds(ms) % 60 == 0
  {
    var sec := Seconds(ms);
    if sec > 60 {
      var q, r := sec / 60, sec % 60;
      assert sec == 60 * q + r;
      if r == 0 {
        assert CeilDiv(sec, 60) == q;
      } else {
        assert CeilDiv(sec, 60) == q + 1;
      }
    }
  }

  /** 61 seconds are shown as "2m 1s", which reads as 121 seconds. */
  lemma AsWrittenSixtyOneSeconds()
    ensures ShownAsWritten(61000) == MinSecs(2, 1)
    ensures HumanReadableDurationAsWritten(61000) == "2m 1s"
    ensures Denoted(ShownAsWritten(61000)) == 121
  {
    assert Seconds(61000) == 61;
    assert NatToString(2) == "2" && NatToString(1) == "1";
  }

  /** What `humanReadableDuration` evidently means to show: whole minutes, then the remaining seconds. */
  function ShownDuration(ms: nat): (d: Shown)
    ensures Denoted(d) == Seconds(ms)
    ensures d.Secs? <==> Seconds(ms) <= 60
    ensures d.MinSecs? ==> d.sec < 60 && d.min >= 1
  {
    var sec := Seconds(ms);
    if sec > 60 then MinSecs(sec / 60, sec % 60) else Secs(sec)
  }

  /** The corrected formatter: the text reads back as exactly the rounded-up seconds. */
  function HumanReadableDuration(ms: nat): (t: string)
    ensures ParseShown(t).Some? && Denoted(ParseShown(t).value) == Seconds(ms)
  {
    ParseFormat(ShownDuration(ms));
    Format(ShownDuration(ms))
  }

  /** The value of a JavaScript number used as a condition. */
  predicate Truthy(x: int)
  {
    x != 0
  }

  /**
   * `_.last(splitTimes) || startTime`: the last split, or the start time when
   * there is none or the last one is the falsy 0.
   */
  function Previous(start: int, splits: seq<int>): (r: int)
    ensures splits == [] ==> r == start
    ensures splits != [] && Truthy(splits[|splits| - 1]) ==> r == splits[|splits| - 1]
    ensures splits != [] && !Truthy(splits[|splits| - 1]) ==> r == start
  {
    if splits != [] && Truthy(splits[|splits| - 1]) then splits[|splits| - 1] else start
  }

  /** The durations successive `splitTime` calls return, given the split times they recorded. */
  function Gaps(start: int, splits: seq<int>): (g: seq<int>)
    ensures |g| == |splits|
    decreases |splits|
  {
    if splits == [] then []
    else
      var init := splits[..|splits| - 1];
      Gaps(start, init) + [splits[|splits| - 1] - Previous(start, init)]
  }

  function Sum(xs: seq<int>): int
    decreases |xs|
  {
    if xs == [] then 0 else Sum(xs[..|xs| - 1]) + xs[|xs| - 1]
  }

  /** With non-zero clock readings the split durations add up to the time since the start. */
  lemma {:induction false} GapsTelescope(start: int, splits: seq<int>)
    requires forall k :: 0 <= k < |splits| ==> Truthy(splits[k])
    ensures Sum(Gaps(start, splits)) == Previous(start, splits) - start
    decreases |splits|
  {
    if splits != [] {
      var init := splits[..|splits| - 1];
      var g := Gaps(start, splits);
      assert g[..|g| - 1] == Gaps(start, init);
      GapsTelescope(start, init);
    }
  }

  /** `class Stopwatch`: a start time fixed at creation and the list of split times. */
  class Stopwatch {
    const startTime: int
    var splitTimes: seq<int>
    /** The values `splitTime` has returned so far. */
    ghost var durations: seq<int>

    ghost predicate Valid()
      reads this
    {
      durations == Gaps(startTime, splitTimes)
    }

    constructor (now: int)
      ensures Valid()
      ensures startTime == now && splitTimes == [] && durations == []
    {
      startTime := now;
      splitTimes := [];
      durations := [];
    }

    /** What the next split is measured from: the last split, or the start time. */
    function PreviousSplit(): (r: int)
      reads this
      ensures splitTimes == [] ==> r == startTime
      ensures splitTimes != [] && Truthy(splitTimes[|splitTimes| - 1]) ==> r == splitTimes[|splitTimes| - 1]
      ensures splitTimes != [] && !Truthy(splitTimes[|splitTimes| - 1]) ==> r == startTime
    {
      Previous(startTime, splitTimes)
    }

    /** `splitTime()` at clock reading `now`. */
    method SplitTime(now: int) returns (d: int)
      requires Valid()
      modifies this
      ensures Valid()
      ensures splitTimes == old(splitTimes) + [now]
      ensures d == now - old(PreviousSplit())
      ensures durations == old(durations) + [d]
    {
      var lastSplit := PreviousSplit();
      assert (splitTimes + [now])[..|splitTimes|] == splitTimes;
      splitTimes := splitTimes + [now];
      d := now - lastSplit;
      durations := durations + [d];
    }

    /** `totalDuration()` at clock reading `now`. */
    function TotalDuration(now: int): (r: int)
      reads this
      ensures startTime + r == now
    {
      now - startTime
    }
  }

  /**
   * The total duration is the sum of the split durations so far plus the time
   * since the last split, as long as no clock reading was 0.
   */
  lemma TotalIsSumOfSplits(sw: Stopwatch, now: int)
    requires sw.Valid()
    requires forall k :: 0 <= k < |sw.splitTimes| ==> Truthy(sw.splitTimes[k])
    ensures sw.TotalDuration(now) == Sum(sw.durations) + (now - sw.PreviousSplit())
  {
    GapsTelescope(sw.startTime, sw.splitTimes);
  }
}

=== FILE: wrappers.dfy ===
/** Optional values, for the places where the modelled code may find nothing. */
module Wrappers {
  datatype Option<+T> = None | Some(value: T)
}
